=== FILE: README.md ===
# Two-phase simplex engine and portfolio backward induction, in Dafny

This project models the linear-programming engine of the repository and the
core of its portfolio dynamic programme. It proves properties of both models.

The LP engine (`task_1/src`) works in five steps:

- The **converter** rewrites a general problem into canonical form
  `min c·x, A x = b, x >= 0`. It keeps each non-negative variable as one
  column. It splits each free variable into a positive part and a negative
  part, and adds one slack column per inequality. It negates a row whose
  constant is negative, and negates the objective for `max`.
- The **inverse mapping** reads an original solution back off a canonical
  solution.
- The **simplex table** stores the basic rows and the estimates row. It
  supports build, recalculation of the estimates, pivot choice, the
  Jordan exchange, replacing the objective, pruning free columns and
  reading off the basic solution.
- **Phase 1** solves the auxiliary problem. It adds one artificial variable
  per row and starts from the artificial basis. It drops artificial columns
  as soon as they leave the basis. It then returns the feasibility verdict
  and hands the table over under the original objective.
- **Phase 2** is the solver loop. It keeps a solver record with a solution,
  an objective value and a status.

The portfolio model (`task_4/dp_core.py`) covers four operations:

- the state and its total;
- the admissible trading actions;
- the move to the next stage under one scenario;
- the Bellman backward pass, which picks the best action by expected value.

Numbers are Dafny `real`. The modules are:

- `Numerics`: tolerances, vectors and dot products.
- `Results`: the `Result` and `Option` types and the engine's errors.
- `Problem`: the problem records.
- `Converter` and `ConverterProperties`: the canonicaliser and what it guarantees.
- `IndexLists`: basis and free index lists.
- `Tableau`: the simplex table.
- `TableauProperties` and `TableauInvariants`: the exchange and the invariant both phases keep.
- `Auxiliary`: phase 1.
- `Solver`: phase 2 and the solver record.
- `Portfolio`: the dynamic programme.

Exceptions become `Result` values:

- the `ValueError`s of the simplex code;
- the `KeyError` the converter raises on an over-long coefficient list.

The 100-iteration caps of both simplex loops are the `fuel` of the
recursive loop functions. They are the source's own bound, not a
termination device.

## Model

| member | source | states |
|---|---|---|
| Problem.NewGeneralProblem | task_1/src/problem.py:6-10 | a new general problem has no direction, no costs, no constraints and no sign declarations |
| Problem.AddConstraint | task_1/src/problem.py:12-18 | the constraint is appended verbatim after the existing ones, and everything else is unchanged |
| Problem.NewCanonicalProblem | task_1/src/problem.py:37-44 | a new canonical problem is empty, with empty mappings and an original count of zero |
| Converter.ToCanonicalForm | task_1/src/converter.py:58-67 | conversion fails exactly when some constraint lists more coefficients than there are variables, and the missing key reported is `n` |
| Converter.Canonicalize | task_1/src/converter.py:4-129 | the canonical problem has one equality row per constraint, every row as wide as the objective, every right-hand side non-negative, and the original variable count; the ConverterProperties rows below give each column's contents and the round trip |
| Converter.GetOriginalSolution | task_1/src/converter.py:131-143 | the recovered solution has one entry per original variable; SolutionIsRecovered, RecoverEmbed and FeasibleRecovers state what each entry is |
| ConverterProperties.CountsAreCardinalities | task_1/src/converter.py:24-35 | the running counters used for the layout equal the numbers of non-negative and of free originals |
| ConverterProperties.SlackCountIsCardinality | task_1/src/converter.py:37-41 | the slack count is the number of non-equality constraints |
| ConverterProperties.CanonicalDimensions | task_1/src/converter.py:43-49 | the canonical width is (non-negative originals) + 2·(free originals) + (inequalities); `A` is rows × width; there is one `b` entry per constraint and one label per column; the original count is `n` |
| ConverterProperties.OutOfRangeDeclarationsIgnored | task_1/src/converter.py:11-35 | the canonical problem depends on the non-negativity declarations only through the variables `0 .. n-1`: changing declarations outside that range leaves it identical |
| ConverterProperties.IndexLayout | task_1/src/converter.py:24-35 | non-negative originals take consecutive columns in increasing order, before every free pair; free originals take increasing pairs inside the structural block |
| ConverterProperties.StructuralColumns | task_1/src/converter.py:57-67 | each coefficient goes to its variable's column, with the row's sign flip; a free variable's negative-part column holds its negation |
| ConverterProperties.SlackColumns | task_1/src/converter.py:69-75 | an equality row has no slack entry; an inequality row has ±1 (+1 for `<=`, −1 for `>=`, before the flip) in its own slack column and zero in every other slack column; slack columns follow row order |
| ConverterProperties.RhsNonNegative | task_1/src/converter.py:77-81 | every canonical right-hand side is non-negative; a negative constant negates the whole row and the right-hand side, any other constant keeps them |
| ConverterProperties.ObjectiveColumns | task_1/src/converter.py:83-103 | each cost goes to its variable's column, negated for `max`; a free pair holds opposite costs; slack costs are zero |
| ConverterProperties.MappingsFollowLayout | task_1/src/converter.py:126-127 | the free-variable map holds exactly the free originals, the index map holds every original, and reading a solution through the maps equals reading it off the layout |
| ConverterProperties.SolutionIsRecovered | task_1/src/converter.py:131-143 | `get_original_solution` reads each original from the columns the converter gave it: a copy, or positive part minus negative part |
| ConverterProperties.RecoverEmbed | task_1/src/converter.py:131-143 | splitting an original vector into canonical columns and reading it back gives the vector again (round trip) |
| ConverterProperties.RowCorrespondence | task_1/src/converter.py:53-81 | on any canonical vector, the original row value at the recovered solution equals the structural part of the canonical row, with the row's sign flip |
| ConverterProperties.ObjectiveCorrespondence | task_1/src/converter.py:83-103 | the original objective at the recovered solution equals the canonical objective, negated for `max` |
| ConverterProperties.FeasibleRecovers | task_1/src/converter.py:131-143 | every feasible canonical solution maps to a solution of the original constraints and sign declarations |
| ConverterProperties.FeasibleEmbeds | task_1/src/converter.py:4-129 | every feasible original solution has a feasible canonical preimage (split parts plus slack values) that the inverse mapping sends back to it |
| Tableau.Build | task_1/src/simplex_table.py:6-32 | build fails exactly on a basis of the wrong size, with that error; otherwise the free columns are the other columns in increasing order, the body copies `A` at the free columns and `b`, and the estimates row is consistent |
| Tableau.RecalculateEstimates | task_1/src/simplex_table.py:34-52 | the accumulating double loop computes, for each column, the free cost (zero for the right-hand side) minus the basic costs weighted by that column |
| Tableau.EnteringColumn | task_1/src/simplex_table.py:63 | the entering column holds a smallest estimate, and no earlier column reaches it |
| Tableau.FirstArgMin | task_1/src/simplex_table.py:78 | the chosen row has a smallest ratio, infinity above every real, and no earlier row reaches it |
| Tableau.FindPivot | task_1/src/simplex_table.py:54-80 | the optimum is reported exactly when no estimate is below −1e−10; unboundedness is reported exactly when no row of the entering column exceeds 1e−10; otherwise the pivot is the first eligible row of minimum ratio in the first column of minimum estimate |
| Tableau.Pivot | task_1/src/simplex_table.py:82-114 | the exchange keeps the table's shape, sizes and problem, and replaces the pivot entry by its reciprocal; PivotTwice, PivotKeepsPartition, PivotKeepsConsistent and PivotKeepsSound state the rest |
| Tableau.ReplaceObjective | task_1/src/simplex_table.py:116-123 | the new objective and labels are installed, the estimates are consistent with them, and the basis, free list and body rows are unchanged |
| Tableau.RemoveAuxiliaryColumns | task_1/src/simplex_table.py:125-136 | the free columns left are exactly those below `n`, in their original relative order; each keeps its entries in every row, including the estimates row; the right-hand side, problem and basis are unchanged |
| Tableau.GetSolution | task_1/src/simplex_table.py:138-148 | the solution has one entry per column, and the objective value is minus the estimates row's right-hand side |
| TableauProperties.PivotTwice | task_1/src/simplex_table.py:82-114 | the Jordan exchange is an involution: exchanging again at the same place restores the table |
| TableauProperties.PivotKeepsPartition | task_1/src/simplex_table.py:109-114 | the exchange swaps exactly the pivot's basic and free variables, and keeps no-repeat listing and the column range |
| TableauProperties.PivotKeepsConsistent | task_1/src/simplex_table.py:82-114 | after an exchange the estimates row equals the estimates recomputed for the new basis |
| TableauProperties.PivotKeepsFeasible | task_1/src/simplex_table.py:54-114 | the ratio-test pivot keeps every right-hand side non-negative when no entering-column entry lies in `(0, 1e−10]` |
| TableauProperties.ToleranceBandBreaksFeasibility | task_1/src/simplex_table.py:67-80 | a concrete table with one entering-column entry inside `(0, 1e−10]` where the chosen pivot makes a right-hand side negative |
| TableauProperties.PivotObjectiveMonotone | task_1/src/simplex_table.py:54-114 | the chosen pivot never raises the objective value while the right-hand sides are non-negative |
| TableauInvariants.BuildIsSound | task_1/src/simplex_table.py:6-32 | a table built from a repeat-free basis lists each column exactly once among its basic and free variables |
| TableauInvariants.PivotKeepsSound | task_1/src/simplex_table.py:82-114 | the exchange keeps the table consistent and repeat-free and lists the same columns |
| TableauInvariants.RemoveKeepsSound | task_1/src/simplex_table.py:125-136 | pruning keeps the table consistent and repeat-free, and no free column `>= n` remains |
| TableauInvariants.BasicSolution | task_1/src/simplex_table.py:138-148 | on a sound table each basic variable holds its row's right-hand side, every other variable is zero, and the reported value is `c·x` at the solution |
| Auxiliary.AuxiliaryProblem | task_1/src/auxiliary.py:12-40 | the auxiliary problem has costs 0 on original columns and 1 on artificial ones, rows `A[i]` followed by the unit row `e_i`, the same `b`, the labels followed by `y1..ym`, and empty mappings |
| Auxiliary.AuxiliaryEmbeds | task_1/src/auxiliary.py:12-40 | a feasible original point padded with zero artificials is auxiliary-feasible at objective 0 |
| Auxiliary.AuxiliaryZeroRestricts | task_1/src/auxiliary.py:12-40 | the auxiliary objective is non-negative on feasible points; at zero, every artificial is zero and the original part is feasible |
| Auxiliary.InitialBasis | task_1/src/auxiliary.py:48-49 | the starting basis is the artificial columns `n .. n+m−1` in row order |
| Auxiliary.InitialTable | task_1/src/auxiliary.py:48-51 | the starting table always builds, is sound, and its free columns are exactly the original columns |
| Auxiliary.InitialSolution | task_1/src/auxiliary.py:48-51 | the starting basic solution is `x = 0, y = b`, with auxiliary objective `Σ b` |
| Auxiliary.StartingPointFeasible | task_1/src/auxiliary.py:48-51 | with `b >= 0` (which the converter guarantees) the starting point is auxiliary-feasible |
| Auxiliary.Phase1Loop | task_1/src/auxiliary.py:58-77 | the only error is unboundedness; a run stopping before its budget ends at the optimality test; after any pivot no free artificial column remains; soundness is kept |
| Auxiliary.FinishPhase1 | task_1/src/auxiliary.py:79-94 | infeasible exactly when `|W| > 1e−6`; an artificial-in-basis error exactly when `|W|` is within tolerance and some basic column is `>= n`; otherwise the same table under the original objective and labels |
| Auxiliary.SolvePhase1 | task_1/src/auxiliary.py:42-100 | the errors are unboundedness, infeasibility or a basic artificial; on success the table is consistent under the original costs and labels, with one basic variable per row, and indexes only original columns |
| Auxiliary.SolvePhase1IsSound | task_1/src/auxiliary.py:42-100 | the handed-over table is sound, lists only original columns, and reports the original objective at its basic solution |
| Solver.NewSolver | task_1/src/solver.py:6-9 | a new solver has no solution, no objective value, and status "not solved" |
| Solver.Phase2Loop | task_1/src/solver.py:26-52 | with budget left, a table that passes the optimality test is returned at once; with the budget spent the loop fails with the iteration limit and does not test again; its only errors are unboundedness and the limit; a success passes the optimality test and keeps soundness |
| Solver.Advance | task_1/src/solver.py:28-43 | one pass of the loop: a further table exists only when the current one fails the optimality test, and a table that passes it ends the pivoting |
| Solver.VisitedPrefix | task_1/src/solver.py:27-48 | reaching the table after `k` exchanges means every earlier table was shaped and failed the optimality test, so the loop went on pivoting |
| Solver.Phase2LoopVisits | task_1/src/solver.py:26-51 | the loop fails with the iteration limit exactly when all `fuel` exchanges took place; a success is one of the visited tables, and the first visited table among the first `fuel` that passes the optimality test is the one returned |
| Solver.SolveFollowsVisits | task_1/src/solver.py:11-53 | after phase 1, the solver reports "max iterations reached" exactly when 100 exchanges took place; if one of the first 100 visited tables passes the optimality test, phase 2 returns it and the record is marked "solved" |
| Solver.Solve | task_1/src/solver.py:11-53 | a phase-1 error marks the record infeasible and is re-raised; phase-2 unboundedness leaves the record as it was; a spent budget marks "max iterations reached"; a success records solution, value and "solved" |
| Solver.SolveIsOptimalBasicSolution | task_1/src/solver.py:26-53 | a returned solution is the basic solution of a sound final table under the original costs that passes the optimality test; non-basic variables are zero and the value is `c·x` |
| Portfolio.Total | task_4/dp_core.py:27-29 | a state with no negative position is worth at least its cash; ApplyAndMove and Values state its roles as invariant and terminal value |
| Portfolio.Counts | task_4/dp_core.py:68-70 | a count range holds exactly the integers from its low to its high end, in strictly increasing order, and is empty when high < low |
| Portfolio.Narrow | task_4/dp_core.py:73-76 | a cut-down range holds exactly the original range's members within `-2 .. 2` |
| Portfolio.Spans | task_4/dp_core.py:57-76 | a count is in an asset's range exactly when it lies between minus the sellable lots and the buyable lots and, when the full ranges give more than 5000 combinations, within `-2 .. 2` |
| Portfolio.Grid | task_4/dp_core.py:79-84 | the enumeration holds exactly the combinations of one count from each range |
| Portfolio.GridInOrder | task_4/dp_core.py:79-84 | with increasing ranges the enumeration is strictly increasing in loop order: first count slowest, last count fastest |
| Portfolio.AdmissibleInOrder | task_4/dp_core.py:79-90 | dropping the filtered combinations keeps the rest in their order |
| Portfolio.AdmittedLots | task_4/dp_core.py:57-91 | a lot combination is admitted exactly when each count lies in its asset's range and its action passes both filters |
| Portfolio.GetActions | task_4/dp_core.py:48-91 | the actions are those of the admitted combinations, position by position; every admitted action leaves cash at least −1e−9 and sells no more than the holding plus 1e−9; an action is admitted exactly when it passes both filters and comes from a count combination in the ranges |
| Portfolio.ActionsInLoopOrder | task_4/dp_core.py:78-91 | the admitted actions come in the loops' order: their lot combinations are strictly increasing, first count slowest and last fastest, so "first" in the selection means first in this order |
| Portfolio.ActionsAreLots | task_4/dp_core.py:57-76 | every admitted action is whole lots, each count between minus the sellable lots and the buyable lots (capped); when the full ranges give more than 5000 combinations, every count is within `-2 .. 2` |
| Portfolio.StayIsAdmitted | task_4/dp_core.py:48-91 | for non-negative states, positive lots and a non-negative cap, staying put is always admitted |
| Portfolio.ApplyAndMove | task_4/dp_core.py:94-108 | cash falls by the money moved; with unit multipliers each holding grows by its trade and the total is unchanged |
| Portfolio.ExpectedValue | task_4/dp_core.py:162-166 | the running sum of probability times next value is never negative when no scenario's probability and no value of the next state it reaches (stage value or total fallback) is negative; ExpectedValueMonotone gives its monotonicity |
| Portfolio.ExpectedValueMonotone | task_4/dp_core.py:162-166 | with non-negative probabilities, raising next-stage values never lowers an action's expected value |
| Portfolio.BestIndex | task_4/dp_core.py:157-170 | no action beats −1e18 exactly when the result is −1; otherwise the result is the first position of a largest value, and that value exceeds −1e18 |
| Portfolio.SelectBest | task_4/dp_core.py:157-170 | the scan's value is never below −1e18 and bounds every action's value; at −1e18 the action is staying put; above it the action is in the list and attains the value (SelectBestIsFirstBest adds that it is the first such) |
| Portfolio.SelectBestIsFirstBest | task_4/dp_core.py:157-170 | the strict-improvement scan returns the first best action and its value, or −1e18 and staying put |
| Portfolio.SelectBestChoice | task_4/dp_core.py:157-170 | the scan's value bounds every action's value and is never below −1e18; below the sentinel nothing beats it; above it, the action is in the list, attains the value, and no earlier action reaches it |
| Portfolio.StageChoice | task_4/dp_core.py:156-171 | the per-state step of the backward pass: the strict-improvement scan over the actions admitted with a cap of 5 lots, scored by expected value with the total as fallback; its value bounds every admitted action's expected value and is never below −1e18, above it the action is admitted and attains the value, at it the action is staying put (BellmanChoice adds that the action is the first to attain it) |
| Portfolio.Values | task_4/dp_core.py:150-170 | the stage values cover exactly the reachable states, and the terminal values are the totals |
| Portfolio.Policy | task_4/dp_core.py:171 | the policy covers exactly the reachable states of its stage |
| Portfolio.BellmanChoice | task_4/dp_core.py:141-172 | Bellman's equation: a state's value bounds the expected value of every admitted action; when above −1e18 it is attained by the policy action, which is admitted and first to attain it |

## Left out

- Floating point: reals are exact here. Rounding, `inf`/`nan`, and numpy's
  division by zero are not modelled. Pivoting on a zero entry is excluded by
  a precondition; the ratio test never chooses one.
- Log-file writes, `__str__` of problems and tables, and the formatting of
  variable names. Names are a label datatype (`x_i`, `x_i⁺`, `x_i⁻`, `s_k`,
  `y_k`).
- `replace_objective` without names: the engine always passes names, so
  the `None` default is not modelled.
- Solver.SolveIsOptimalBasicSolution: no claim of optimality or feasibility
  for the original problem. The model does not track that the table body
  equals `B⁻¹A`, so the optimality test is stated on the table and not on
  the problem.
- TableauProperties.PivotKeepsFeasible: assumes no entering-column entry in
  `(0, 1e−10]`. Without that, feasibility can break, as
  TableauProperties.ToleranceBandBreaksFeasibility shows; the source tolerates
  this on purpose as numerical noise.
- The mutable solver object is a record threaded through `Solver.Solve`. The
  source's sharing of the auxiliary problem object between phase 1's table
  and its solver is modelled by `FinishPhase1` changing only `c` and the
  labels.
- `State.quantize` (rounding to the step grid) is a `State -> State`
  parameter of the backward pass. Rounding half to even on floats has no
  counterpart over the reals.
- `forward_reachable` and the `solve` wrapper of the dynamic programme: the
  reachable sets are an input of `Portfolio.Values`. The source's policy
  dictionary keyed by `(t, state)` is one map per stage.
- The rest of `task_4` (`src/`, `io_utils.py`, `run.py`) and the
  command-line drivers: input parsing and output only.

=== FILE: auxiliary.dfy ===
/** Phase 1 of the two-phase simplex method: the auxiliary problem with one
    artificial variable per row, its pivot loop with artificial columns
    dropped as soon as they leave the basis, the feasibility verdict, and the
    hand-over of the final table to the original objective. */
module Auxiliary {
  import opened Numerics
  import opened Results
  import opened Problem
  import opened IndexLists
  import opened Tableau
  import opened TableauInvariants

  /** The pivot budget of the phase-1 loop. */
  const Phase1Iterations: nat := 100

  /** The labels `y1 ... ym` of the artificial columns. */
  function ArtificialLabels(m: nat): (names: seq<VarLabel>)
    ensures |names| == m
    ensures forall k :: 0 <= k < m ==> names[k] == Artificial(k)
  {
    seq(m, k requires 0 <= k < m => Artificial(k))
  }

  /** The auxiliary problem `min y1 + ... + ym` subject to `A x + y = b`,
      `x, y >= 0`: the original columns followed by one unit column per row.
      It is a fresh record, so its mappings are empty. */
  function AuxiliaryProblem(p: CanonicalProblem): (q: CanonicalProblem)
    requires WellShaped(p)
    ensures WellShaped(q)
    ensures |q.c| == |p.c| + |p.A| && |q.A| == |p.A| && q.b == p.b
    ensures q.c == Zeros(|p.c|) + Ones(|p.A|)
    ensures forall i :: 0 <= i < |p.A| ==> q.A[i] == p.A[i] + Unit(|p.A|, i)
    ensures q.varNames == p.varNames + ArtificialLabels(|p.A|)
    ensures q.freeVarMapping == map[] && q.canonicalVarIndices == map[]
    ensures q.originalVarCount == p.originalVarCount
  {
    var n, m := |p.c|, |p.A|;
    CanonicalProblem(
      Zeros(n) + Ones(m),
      seq(m, i requires 0 <= i < m => p.A[i] + Unit(m, i)),
      p.b,
      p.varNames + ArtificialLabels(m),
      map[], map[],
      p.originalVarCount)
  }

  /** A feasible point of the original problem, padded with zero artificials,
      is feasible for the auxiliary problem at objective zero. */
  lemma {:induction false} AuxiliaryEmbeds(p: CanonicalProblem, x: seq<real>)
    requires WellShaped(p) && CanonicalFeasible(p, x)
    ensures CanonicalFeasible(AuxiliaryProblem(p), x + Zeros(|p.A|))
    ensures Dot(AuxiliaryProblem(p).c, x + Zeros(|p.A|)) == 0.0
  {
    var q, m := AuxiliaryProblem(p), |p.A|;
    forall i | 0 <= i < m
      ensures Dot(q.A[i], x + Zeros(m)) == q.b[i]
    {
      DotAppend(p.A[i], x, Unit(m, i), Zeros(m));
      DotZeroRight(Unit(m, i), Zeros(m));
    }
    DotAppend(Zeros(|p.c|), x, Ones(m), Zeros(m));
    DotZeroLeft(Zeros(|p.c|), x);
    DotZeroRight(Ones(m), Zeros(m));
  }

  /** The auxiliary objective is never negative on a non-negative point, and
      a feasible auxiliary point at objective zero has zero artificials and
      its original part is feasible for the original problem. */
  lemma {:induction false} AuxiliaryZeroRestricts(p: CanonicalProblem, y: seq<real>)
    requires WellShaped(p) && CanonicalFeasible(AuxiliaryProblem(p), y)
    ensures Dot(AuxiliaryProblem(p).c, y) >= 0.0
    ensures Dot(AuxiliaryProblem(p).c, y) == 0.0 ==>
      && (forall k :: |p.c| <= k < |y| ==> y[k] == 0.0)
      && CanonicalFeasible(p, y[..|p.c|])
  {
    var q, n, m := AuxiliaryProblem(p), |p.c|, |p.A|;
    var x, a := y[..n], y[n..];
    assert y == x + a;
    DotAppend(Zeros(n), x, Ones(m), a);
    DotZeroLeft(Zeros(n), x);
    OnesDotNonNegative(a);
    if Dot(q.c, y) == 0.0 {
      forall k | n <= k < |y|
        ensures y[k] == 0.0
      {
        assert a[k - n] == y[k];
      }
      forall i | 0 <= i < m
        ensures Dot(p.A[i], x) == p.b[i]
      {
        DotAppend(p.A[i], x, Unit(m, i), a);
        DotUnitLeft(m, i, a);
      }
    }
  }

  /** The phase-1 starting basis: the artificial columns, in row order. */
  function InitialBasis(p: CanonicalProblem): (basis: seq<nat>)
    ensures |basis| == |p.A| && Distinct(basis)
    ensures forall i :: 0 <= i < |p.A| ==> basis[i] == |p.c| + i
    ensures AllBelow(basis, |p.c| + |p.A|)
  {
    Range(|p.c|, |p.c| + |p.A|)
  }

  /** The starting table of phase 1 always builds, is sound, and its free
      columns are exactly the original columns. */
  lemma {:induction false} InitialTable(p: CanonicalProblem)
    requires WellShaped(p)
    ensures Build(AuxiliaryProblem(p), InitialBasis(p)).Success?
    ensures var t := Build(AuxiliaryProblem(p), InitialBasis(p)).value;
      && Sound(t) && t.basis == InitialBasis(p)
      && (forall x: nat :: x in t.free <==> x < |p.c|)
      && AllBelow(t.free, |p.c|)
  {
    var q, n := AuxiliaryProblem(p), |p.c|;
    var basis := InitialBasis(p);
    var t := Build(q, basis).value;
    BuildIsSound(q, basis);
    forall x: nat | n <= x < n + |p.A|
      ensures x in basis
    {
      assert basis[x - n] == x;
    }
    assert forall j :: 0 <= j < |t.free| ==> t.free[j] in t.free;
  }

  /** The basic solution of the starting table is `x = 0, y = b`, and the
      auxiliary objective there is the sum of `b`. */
  lemma {:induction false} InitialSolution(p: CanonicalProblem)
    requires WellShaped(p)
    ensures Build(AuxiliaryProblem(p), InitialBasis(p)).Success?
    ensures var t := Build(AuxiliaryProblem(p), InitialBasis(p)).value;
      && GetSolution(t).0 == Zeros(|p.c|) + p.b
      && GetSolution(t).1 == Dot(Ones(|p.A|), p.b)
  {
    var q, n, m := AuxiliaryProblem(p), |p.c|, |p.A|;
    InitialTable(p);
    var t := Build(q, InitialBasis(p)).value;
    BasicSolution(t);
    StartingPoint(Zeros(n) + p.b, GetSolution(t).0, t.basis, n, Rhs(t));
    DotAppend(Zeros(n), Zeros(n), Ones(m), p.b);
    DotZeroLeft(Zeros(n), Zeros(n));
  }

  /** A point that is zero off the basis `n, n + 1, ...` and holds `vals` on
      it is `0` followed by `vals`. */
  lemma {:induction false} StartingPoint(z: seq<real>, x: seq<real>, basis: seq<nat>, n: nat, vals: seq<real>)
    requires |z| == |x| == n + |basis| && |vals| == |basis| && z == Zeros(n) + vals
    requires forall i :: 0 <= i < |basis| ==> basis[i] == n + i
    requires forall i :: 0 <= i < |basis| ==> x[basis[i]] == vals[i]
    requires forall v :: 0 <= v < |x| && v !in basis ==> x[v] == 0.0
    ensures x == z
  {
    forall v | 0 <= v < |x|
      ensures x[v] == z[v]
    {
      if v >= n {
        assert basis[v - n] == v;
      } else {
        assert v !in basis;
      }
    }
  }

  /** When `b >= 0` the starting point `x = 0, y = b` is feasible for the
      auxiliary problem. */
  lemma {:induction false} StartingPointFeasible(p: CanonicalProblem)
    requires WellShaped(p) && forall i :: 0 <= i < |p.b| ==> p.b[i] >= 0.0
    ensures CanonicalFeasible(AuxiliaryProblem(p), Zeros(|p.c|) + p.b)
  {
    var q, n, m := AuxiliaryProblem(p), |p.c|, |p.A|;
    var z := Zeros(n) + p.b;
    forall i | 0 <= i < m
      ensures Dot(q.A[i], z) == q.b[i]
    {
      DotAppend(p.A[i], Zeros(n), Unit(m, i), p.b);
      DotZeroRight(p.A[i], Zeros(n));
      DotUnitLeft(m, i, p.b);
    }
  }

  /** The table a pivot loop stops at, and the number of pivots it made. */
  datatype Run = Run(table: Table, pivots: nat)

  /** The phase-1 pivot loop: at most `fuel` times, stop at the optimum or
      exchange the chosen pivot and delete the free columns at or above `n`.
      A full budget ends the loop quietly; an unbounded ratio test is an
      error. */
  function Phase1Loop(t: Table, n: nat, fuel: nat): (r: Result<Run, SolveError>)
    requires Shaped(t)
    decreases fuel
    ensures r.Failure? ==> r.error == Unbounded
    ensures r.Success? ==>
      && Shaped(r.value.table) && r.value.table.problem == t.problem
      && |r.value.table.basis| == |t.basis|
      && r.value.pivots <= fuel
      && (r.value.pivots < fuel ==> EstimatesNonNegative(r.value.table))
      && (r.value.pivots == 0 ==> r.value.table == t)
      && (r.value.pivots > 0 || AllBelow(t.free, n) ==> AllBelow(r.value.table.free, n))
    ensures r.Success? && Sound(t) ==> Sound(r.value.table)
  {
    if fuel == 0 then Success(Run(t, 0))
    else
      var choice :- FindPivot(t);
      match choice
      case AtOptimum => Success(Run(t, 0))
      case PivotAt(row, col) =>
        var t' := RemoveAuxiliaryColumns(Pivot(t, row, col), n);
        var next :- if Sound(t) then Phase1StepKeepsSound(t, row, col, n); Phase1Loop(t', n, fuel - 1)
                    else Phase1Loop(t', n, fuel - 1);
        Success(Run(next.table, next.pivots + 1))
  }

  /** One exchange followed by pruning keeps a table sound. */
  lemma {:induction false} Phase1StepKeepsSound(t: Table, row: nat, col: nat, n: nat)
    requires Sound(t) && row < |t.basis| && col < |t.free| && t.cells[row][col] != 0.0
    ensures Sound(RemoveAuxiliaryColumns(Pivot(t, row, col), n))
  {
    PivotKeepsSound(t, row, col);
    RemoveKeepsSound(Pivot(t, row, col), n);
  }

  /** The feasibility verdict on the last phase-1 table: infeasible when the
      auxiliary objective is not within the tolerance of zero, an error when
      an artificial column is still basic, and otherwise the same table
      under the original objective and labels. */
  function FinishPhase1(t: Table, p: CanonicalProblem): (r: Result<Table, SolveError>)
    requires Shaped(t) && AllBelow(t.basis, |t.problem.c|) && AllBelow(t.free, |p.c|)
    ensures r == Failure(Infeasible) <==> Abs(GetSolution(t).1) > FeasibilityTolerance
    ensures r == Failure(ArtificialInBasis) <==>
      Abs(GetSolution(t).1) <= FeasibilityTolerance && exists i :: 0 <= i < |t.basis| && t.basis[i] >= |p.c|
    ensures r.Success? ==>
      && Consistent(r.value) && AllBelow(r.value.basis, |p.c|)
      && r.value.problem == t.problem.(c := p.c, varNames := p.varNames)
      && r.value.basis == t.basis && r.value.free == t.free
      && r.value.cells[..|t.basis|] == t.cells[..|t.basis|]
  {
    var (_, w) := GetSolution(t);
    if Abs(w) > FeasibilityTolerance then Failure(Infeasible)
    else if exists i :: 0 <= i < |t.basis| && t.basis[i] >= |p.c| then Failure(ArtificialInBasis)
    else Success(ReplaceObjective(t, p.c, p.varNames))
  }

  /** Phase 1 in full: build the auxiliary table on the artificial basis,
      run the loop with its budget, and pass the verdict. */
  function SolvePhase1(p: CanonicalProblem): (r: Result<Table, SolveError>)
    requires WellShaped(p)
    ensures r.Failure? ==> r.error == Unbounded || r.error == Infeasible || r.error == ArtificialInBasis
    ensures r.Success? ==>
      && Consistent(r.value) && r.value.problem.c == p.c && r.value.problem.varNames == p.varNames
      && |r.value.basis| == |p.A|
      && IndexedBy(r.value.basis, r.value.free, |p.c|)
  {
    InitialTable(p);
    match Build(AuxiliaryProblem(p), InitialBasis(p))
    case Failure(e) => Failure(e)
    case Success(t0) =>
      var run :- Phase1Loop(t0, |p.c|, Phase1Iterations);
      FinishPhase1(run.table, p)
  }

  /** The table phase 1 hands over is sound, lists each original column
      exactly once among its basic and free variables, and its basic
      solution reports the original objective at that point. */
  lemma {:induction false} SolvePhase1IsSound(p: CanonicalProblem)
    requires WellShaped(p)
    ensures SolvePhase1(p).Success? ==>
      var t := SolvePhase1(p).value;
      && Sound(t)
      && (forall x :: x in t.basis + t.free ==> x < |p.c|)
      && GetSolution(t).1 == Dot(p.c, GetSolution(t).0)
  {
    if SolvePhase1(p).Success? {
      var t0 := Build(AuxiliaryProblem(p), InitialBasis(p)).value;
      InitialTable(p);
      var u := Phase1Loop(t0, |p.c|, Phase1Iterations).value.table;
      var t := SolvePhase1(p).value;
      assert t.basis == u.basis && t.free == u.free;
      BasicSolution(t);
    }
  }
}

=== FILE: converter.dfy ===
/** The canonicaliser (`to_canonical_form`) and the inverse mapping
    (`get_original_solution`).

    Column layout of the canonical problem for `n` original variables:
    first the non-negative originals, one column each, in increasing original
    order; then one (positive part, negative part) pair of columns per free
    original, again in increasing order; then one slack column per
    non-equality constraint, in row order. */
module Converter {
  import opened Numerics
  import opened Problem
  import opened Results

  /** Whether original variable `i` was declared non-negative. */
  predicate IsNonNeg(nn: seq<int>, i: nat) {
    i as int in nn
  }

  /** Number of non-negative originals among `0 .. k-1`. */
  function CountNonNeg(nn: seq<int>, k: nat): (r: nat)
    ensures r <= k
  {
    if k == 0 then 0 else CountNonNeg(nn, k - 1) + (if IsNonNeg(nn, k - 1) then 1 else 0)
  }

  /** Number of free originals among `0 .. k-1`. */
  function CountFree(nn: seq<int>, k: nat): nat {
    k - CountNonNeg(nn, k)
  }

  /** Number of columns taken by the original variables. */
  function StructuralWidth(nn: seq<int>, n: nat): nat {
    CountNonNeg(nn, n) + 2 * CountFree(nn, n)
  }

  /** The first (for a free variable: the positive-part) column of original `i`. */
  function CanonicalIndex(nn: seq<int>, n: nat, i: nat): nat
    requires i < n
  {
    if IsNonNeg(nn, i) then CountNonNeg(nn, i) else CountNonNeg(nn, n) + 2 * CountFree(nn, i)
  }

  /** `f(i)` for every non-negative original `i < k`, in order. */
  function NonNegItems<T>(nn: seq<int>, k: nat, f: nat -> T): (r: seq<T>)
    ensures |r| == CountNonNeg(nn, k)
  {
    if k == 0 then [] else NonNegItems(nn, k - 1, f) + (if IsNonNeg(nn, k - 1) then [f(k - 1)] else [])
  }

  /** `f(i), g(i)` for every free original `i < k`, in order. */
  function FreeItems<T>(nn: seq<int>, k: nat, f: nat -> T, g: nat -> T): (r: seq<T>)
    ensures |r| == 2 * CountFree(nn, k)
  {
    if k == 0 then [] else FreeItems(nn, k - 1, f, g) + (if IsNonNeg(nn, k - 1) then [] else [f(k - 1), g(k - 1)])
  }

  /** Number of non-equality constraints among the first `k`. */
  function SlackCount(cs: seq<Constraint>, k: nat): (r: nat)
    requires k <= |cs|
    ensures r <= k
  {
    if k == 0 then 0 else SlackCount(cs, k - 1) + (if cs[k - 1].relation == Eq then 0 else 1)
  }

  /** The slack entry written for a relation before any sign flip. */
  function SlackCoefficient(rel: Relation): real {
    match rel
    case Le => 1.0
    case Ge => -1.0
    case Eq => 0.0
  }

  /** Entry `j` of a coefficient list; lists shorter than the variable count
      read as zero beyond their end (the matrix starts as zeros). */
  function Coef(v: seq<real>, j: nat): real {
    if j < |v| then v[j] else 0.0
  }

  /** The first `n` entries of a coefficient list, zero-padded. */
  function CoefVector(v: seq<real>, n: nat): (r: seq<real>)
    ensures |r| == n
  {
    seq(n, j requires 0 <= j < n => Coef(v, j))
  }

  /** The structural (non-slack) part of a canonical row or objective. */
  function Structural(nn: seq<int>, n: nat, v: seq<real>): (r: seq<real>)
    ensures |r| == StructuralWidth(nn, n)
  {
    NonNegItems(nn, n, CoefAt(v)) + FreeItems(nn, n, CoefAt(v), NegCoefAt(v))
  }

  function CoefAt(v: seq<real>): nat -> real {
    (j: nat) => Coef(v, j)
  }

  function NegCoefAt(v: seq<real>): nat -> real {
    (j: nat) => -Coef(v, j)
  }

  /** The slack part of row `i` before any sign flip. */
  function SlackEntries(cs: seq<Constraint>, i: nat): (r: seq<real>)
    requires i < |cs|
    ensures |r| == SlackCount(cs, |cs|)
  {
    seq(SlackCount(cs, |cs|), k => if k == SlackCount(cs, i) then SlackCoefficient(cs[i].relation) else 0.0)
  }

  lemma {:induction false} SlackEntriesAt(cs: seq<Constraint>, i: nat, k: nat)
    requires i < |cs| && k < SlackCount(cs, |cs|)
    ensures SlackEntries(cs, i)[k] == if k == SlackCount(cs, i) then SlackCoefficient(cs[i].relation) else 0.0
  {
  }

  function SlackTotal(p: GeneralProblem): nat {
    SlackCount(p.constraints, |p.constraints|)
  }

  /** Row `i`: its structural part followed by its slack part, negated as a
      whole when the constant is negative (a zero constant is kept). */
  function CanonicalRow(p: GeneralProblem, i: nat): seq<real>
    requires i < |p.constraints|
  {
    var con := p.constraints[i];
    FlipAll(con.constant < 0.0, Structural(p.nonNegativeVars, |p.c|, con.coefficients) + SlackEntries(p.constraints, i))
  }

  /** The right-hand side of a row, negated with the row. */
  function CanonicalRhs(constant: real): real {
    Flip(constant < 0.0, constant)
  }

  /** The objective on the structural columns, negated for `max`; zero on
      the slack columns. */
  function CanonicalObjective(p: GeneralProblem): seq<real> {
    FlipAll(p.objective == Maximize, Structural(p.nonNegativeVars, |p.c|, p.c)) + Zeros(SlackTotal(p))
  }

  function CanonicalLabels(p: GeneralProblem): seq<VarLabel> {
    var nn, n := p.nonNegativeVars, |p.c|;
    NonNegItems(nn, n, (j: nat) => Original(j))
      + FreeItems(nn, n, (j: nat) => PositivePart(j), (j: nat) => NegativePart(j))
      + seq(SlackTotal(p), k requires 0 <= k => Slack(k))
  }

  function FreeVarMapping(nn: seq<int>, n: nat): map<nat, (nat, nat)> {
    map i: nat | i < n && !IsNonNeg(nn, i) :: (CanonicalIndex(nn, n, i), CanonicalIndex(nn, n, i) + 1)
  }

  function CanonicalVarIndices(nn: seq<int>, n: nat): map<nat, seq<nat>> {
    map i: nat | i < n :: if IsNonNeg(nn, i) then [CanonicalIndex(nn, n, i)]
                          else [CanonicalIndex(nn, n, i), CanonicalIndex(nn, n, i) + 1]
  }

  /** The canonical problem the source builds when it does not fail: one
      equality row per constraint, every row as wide as the objective, every
      right-hand side non-negative, and the original variable count kept. */
  function Canonicalize(p: GeneralProblem): (r: CanonicalProblem)
    ensures |r.A| == |p.constraints| && |r.b| == |p.constraints| && r.originalVarCount == |p.c|
    ensures forall i :: 0 <= i < |r.A| ==> |r.A[i]| == |r.c|
    ensures forall i :: 0 <= i < |r.b| ==> r.b[i] >= 0.0
  {
    var nn, n, cs := p.nonNegativeVars, |p.c|, p.constraints;
    CanonicalWidth(p);
    CanonicalProblem(
      CanonicalObjective(p),
      seq(|cs|, i requires 0 <= i < |cs| => CanonicalRow(p, i)),
      seq(|cs|, i requires 0 <= i < |cs| => CanonicalRhs(cs[i].constant)),
      CanonicalLabels(p),
      FreeVarMapping(nn, n),
      CanonicalVarIndices(nn, n),
      n)
  }

  /** The parts of `Canonicalize(p)`, one at a time. */
  lemma {:induction false} CanonicalParts(p: GeneralProblem)
    ensures |Canonicalize(p).A| == |p.constraints| && |Canonicalize(p).b| == |p.constraints|
    ensures Canonicalize(p).c == CanonicalObjective(p)
    ensures forall i :: 0 <= i < |p.constraints| ==> Canonicalize(p).A[i] == CanonicalRow(p, i)
    ensures forall i :: 0 <= i < |p.constraints| ==> Canonicalize(p).b[i] == CanonicalRhs(p.constraints[i].constant)
    ensures Canonicalize(p).originalVarCount == |p.c|
  {
  }

  /** Every canonical row, and the canonical objective, has one entry per
      structural column and one per slack column. */
  lemma {:induction false} CanonicalWidth(p: GeneralProblem)
    ensures |CanonicalObjective(p)| == StructuralWidth(p.nonNegativeVars, |p.c|) + SlackTotal(p)
    ensures forall i :: 0 <= i < |p.constraints| ==> |CanonicalRow(p, i)| == StructuralWidth(p.nonNegativeVars, |p.c|) + SlackTotal(p)
  {
  }

  /** Every constraint names at most `n` coefficients. */
  predicate CoefficientsFit(p: GeneralProblem) {
    forall i :: 0 <= i < |p.constraints| ==> |p.constraints[i].coefficients| <= |p.c|
  }

  /** A coefficient beyond the last variable is looked up in the index map
      and is not found. */
  datatype ConvertError = MissingVariableKey(key: nat)

  /** `to_canonical_form`: fails exactly when some constraint lists more
      coefficients than there are variables, reporting the first missing
      key, which is `n`. */
  function ToCanonicalForm(p: GeneralProblem): (r: Result<CanonicalProblem, ConvertError>)
    ensures r.Success? <==> CoefficientsFit(p)
    ensures r.Failure? ==> r.error == MissingVariableKey(|p.c|)
    ensures r.Success? ==> r.value == Canonicalize(p)
  {
    if CoefficientsFit(p) then Success(Canonicalize(p)) else Failure(MissingVariableKey(|p.c|))
  }

  /* ---------- the inverse mapping ---------- */

  /** Every original variable's recorded columns exist in a vector of length `len`. */
  predicate ReadableBy(cp: CanonicalProblem, len: nat) {
    forall i: nat :: i < cp.originalVarCount ==>
      if i in cp.freeVarMapping then cp.freeVarMapping[i].0 < len && cp.freeVarMapping[i].1 < len
      else i in cp.canonicalVarIndices && |cp.canonicalVarIndices[i]| > 0 && cp.canonicalVarIndices[i][0] < len
  }

  /** `get_original_solution`: a free variable is its positive part minus its
      negative part; every other variable copies its single column. */
  function GetOriginalSolution(cp: CanonicalProblem, x: seq<real>): (y: seq<real>)
    requires ReadableBy(cp, |x|)
    ensures |y| == cp.originalVarCount
  {
    seq(cp.originalVarCount, i requires 0 <= i < cp.originalVarCount =>
      if i in cp.freeVarMapping then x[cp.freeVarMapping[i].0] - x[cp.freeVarMapping[i].1]
      else x[cp.canonicalVarIndices[i][0]])
  }

  /** The original vector a canonical vector stands for, read off the layout. */
  function Recover(nn: seq<int>, n: nat, x: seq<real>): (y: seq<real>)
    requires StructuralWidth(nn, n) <= |x|
    ensures |y| == n
  {
    seq(n, i requires 0 <= i < n => RecoverEntry(nn, n, x, i))
  }

  /** Original `i` read off the layout; columns past the end of `x` read as zero. */
  function RecoverEntry(nn: seq<int>, n: nat, x: seq<real>, i: nat): real
    requires i < n
  {
    var k := CanonicalIndex(nn, n, i);
    if IsNonNeg(nn, i) then Entry(x, k) else Entry(x, k) - Entry(x, k + 1)
  }

  /** Entry `k` of `x`, or zero past its end. */
  function Entry(x: seq<real>, k: nat): real {
    if k < |x| then x[k] else 0.0
  }

  /** One entry of `Recover`, without the sequence comprehension. */
  lemma {:induction false} RecoverAt(nn: seq<int>, n: nat, x: seq<real>, i: nat)
    requires StructuralWidth(nn, n) <= |x| && i < n
    ensures CanonicalIndex(nn, n, i) < |x|
    ensures IsNonNeg(nn, i) ==> Recover(nn, n, x)[i] == x[CanonicalIndex(nn, n, i)]
    ensures !IsNonNeg(nn, i) ==> CanonicalIndex(nn, n, i) + 1 < |x|
                                 && Recover(nn, n, x)[i] == x[CanonicalIndex(nn, n, i)] - x[CanonicalIndex(nn, n, i) + 1]
  {
    LayoutBounds(nn, n, i);
  }

  /** A canonical vector for an original vector `y`: non-negative originals
      copied, each free original split into its positive and negative parts,
      followed by the given slack values. */
  function Embed(nn: seq<int>, n: nat, y: seq<real>, slacks: seq<real>): (x: seq<real>)
    ensures |x| == StructuralWidth(nn, n) + |slacks|
  {
    NonNegItems(nn, n, CoefAt(y)) + FreeItems(nn, n, PositivePartAt(y), NegativePartAt(y)) + slacks
  }

  /** The positive part `max(y_j, 0)` of a free variable's value. */
  function PositivePartAt(y: seq<real>): nat -> real {
    (j: nat) => if Coef(y, j) >= 0.0 then Coef(y, j) else 0.0
  }

  /** The negative part `max(-y_j, 0)` of a free variable's value. */
  function NegativePartAt(y: seq<real>): nat -> real {
    (j: nat) => if Coef(y, j) >= 0.0 then 0.0 else -Coef(y, j)
  }

  /* ---------- layout lemmas ---------- */

  lemma {:induction false} CountMonotone(nn: seq<int>, i: nat, k: nat)
    requires i <= k
    ensures CountNonNeg(nn, i) <= CountNonNeg(nn, k) && CountFree(nn, i) <= CountFree(nn, k)
    ensures i < k && IsNonNeg(nn, i) ==> CountNonNeg(nn, i) < CountNonNeg(nn, k)
    ensures i < k && !IsNonNeg(nn, i) ==> CountFree(nn, i) < CountFree(nn, k)
    decreases k - i
  {
    if i < k {
      CountMonotone(nn, i, k - 1);
    }
  }

  lemma {:induction false} LayoutBounds(nn: seq<int>, n: nat, i: nat)
    requires i < n
    ensures IsNonNeg(nn, i) ==> CanonicalIndex(nn, n, i) < CountNonNeg(nn, n)
    ensures !IsNonNeg(nn, i) ==> CountNonNeg(nn, n) <= CanonicalIndex(nn, n, i)
                                 && CanonicalIndex(nn, n, i) + 1 < StructuralWidth(nn, n)
  {
    CountMonotone(nn, i, n);
  }

  lemma {:induction false} NonNegItemsAt<T>(nn: seq<int>, k: nat, f: nat -> T, i: nat)
    requires i < k && IsNonNeg(nn, i)
    ensures CountNonNeg(nn, i) < CountNonNeg(nn, k)
    ensures NonNegItems(nn, k, f)[CountNonNeg(nn, i)] == f(i)
  {
    CountMonotone(nn, i, k);
    if i < k - 1 {
      NonNegItemsAt(nn, k - 1, f, i);
    }
  }

  lemma {:induction false} FreeItemsAt<T>(nn: seq<int>, k: nat, f: nat -> T, g: nat -> T, i: nat)
    requires i < k && !IsNonNeg(nn, i)
    ensures 2 * CountFree(nn, i) + 1 < 2 * CountFree(nn, k)
    ensures FreeItems(nn, k, f, g)[2 * CountFree(nn, i)] == f(i)
    ensures FreeItems(nn, k, f, g)[2 * CountFree(nn, i) + 1] == g(i)
  {
    CountMonotone(nn, i, k);
    if i < k - 1 {
      FreeItemsAt(nn, k - 1, f, g, i);
    }
  }

  /** Value of column `CanonicalIndex(i)` (and of the next one, for a free
      variable) in any sequence laid out like the structural columns. */
  lemma {:induction false} LayoutAt<T>(nn: seq<int>, n: nat, f: nat -> T, g: nat -> T, h: nat -> T, i: nat)
    requires i < n
    ensures IsNonNeg(nn, i) ==> (NonNegItems(nn, n, f) + FreeItems(nn, n, g, h))[CanonicalIndex(nn, n, i)] == f(i)
    ensures !IsNonNeg(nn, i) ==>
      && CanonicalIndex(nn, n, i) + 1 < StructuralWidth(nn, n)
      && (NonNegItems(nn, n, f) + FreeItems(nn, n, g, h))[CanonicalIndex(nn, n, i)] == g(i)
      && (NonNegItems(nn, n, f) + FreeItems(nn, n, g, h))[CanonicalIndex(nn, n, i) + 1] == h(i)
  {
    if IsNonNeg(nn, i) {
      NonNegItemsAt(nn, n, f, i);
    } else {
      FreeItemsAt(nn, n, g, h, i);
    }
  }
}

=== FILE: converter_properties.dfy ===
/** What the canonicaliser promises: the shape of the canonical problem, the
    placement of every coefficient, non-negative right-hand sides, and the
    exact correspondence between original and canonical solutions. */
module ConverterProperties {
  import opened Numerics
  import opened Problem
  import opened Converter

  /* ---------- counting in independent terms ---------- */

  function NonNegOriginals(nn: seq<int>, n: nat): set<nat> {
    set i: nat | i < n && IsNonNeg(nn, i)
  }

  function FreeOriginals(nn: seq<int>, n: nat): set<nat> {
    set i: nat | i < n && !IsNonNeg(nn, i)
  }

  function InequalityRows(cs: seq<Constraint>): set<nat> {
    set i: nat | i < |cs| && cs[i].relation != Eq
  }

  lemma {:induction false} CountsAreCardinalities(nn: seq<int>, k: nat)
    ensures CountNonNeg(nn, k) == |NonNegOriginals(nn, k)|
    ensures CountFree(nn, k) == |FreeOriginals(nn, k)|
  {
    if k > 0 {
      CountsAreCardinalities(nn, k - 1);
      if IsNonNeg(nn, k - 1) {
        assert NonNegOriginals(nn, k) == NonNegOriginals(nn, k - 1) + {k - 1};
        assert FreeOriginals(nn, k) == FreeOriginals(nn, k - 1);
      } else {
        assert NonNegOriginals(nn, k) == NonNegOriginals(nn, k - 1);
        assert FreeOriginals(nn, k) == FreeOriginals(nn, k - 1) + {k - 1};
      }
    } else {
      assert NonNegOriginals(nn, 0) == {};
      assert FreeOriginals(nn, 0) == {};
    }
  }

  function InequalityRowsBelow(cs: seq<Constraint>, k: nat): set<nat> {
    set i: nat | i < k && i < |cs| && cs[i].relation != Eq
  }

  lemma {:induction false} SlackCountIsCardinality(cs: seq<Constraint>, k: nat)
    requires k <= |cs|
    ensures SlackCount(cs, k) == |InequalityRowsBelow(cs, k)|
  {
    if k > 0 {
      SlackCountIsCardinality(cs, k - 1);
      if cs[k - 1].relation == Eq {
        assert InequalityRowsBelow(cs, k) == InequalityRowsBelow(cs, k - 1);
      } else {
        assert InequalityRowsBelow(cs, k) == InequalityRowsBelow(cs, k - 1) + {k - 1};
      }
    } else {
      assert InequalityRowsBelow(cs, 0) == {};
    }
  }

  lemma {:induction false} SlackCountMonotone(cs: seq<Constraint>, i: nat, k: nat)
    requires i <= k <= |cs|
    ensures SlackCount(cs, i) <= SlackCount(cs, k)
    ensures i < k && cs[i].relation != Eq ==> SlackCount(cs, i) < SlackCount(cs, k)
    decreases k - i
  {
    if i < k {
      SlackCountMonotone(cs, i, k - 1);
    }
  }

  /* ---------- shape ---------- */

  /** `N = #non-negative originals + 2 * #free originals + #non-equality
      constraints`; `A` is `m x N`, `b` has `m` entries, one label per column. */
  lemma {:induction false} CanonicalDimensions(p: GeneralProblem)
    ensures var cp := Canonicalize(p);
      && |cp.c| == |NonNegOriginals(p.nonNegativeVars, |p.c|)| + 2 * |FreeOriginals(p.nonNegativeVars, |p.c|)|
                   + |InequalityRows(p.constraints)|
      && IsMatrix(cp.A, |p.constraints|, |cp.c|)
      && |cp.b| == |p.constraints|
      && |cp.varNames| == |cp.c|
      && cp.originalVarCount == |p.c|
  {
    CountsAreCardinalities(p.nonNegativeVars, |p.c|);
    SlackCountIsCardinality(p.constraints, |p.constraints|);
    assert InequalityRowsBelow(p.constraints, |p.constraints|) == InequalityRows(p.constraints);
  }

  /* ---------- placement of coefficients ---------- */

  /** Non-negative originals take columns `0, 1, ...` in increasing original
      order; free originals then take consecutive (positive, negative) pairs
      in increasing order; the slack columns come after all of them. */
  lemma {:induction false} IndexLayout(nn: seq<int>, n: nat, i: nat, j: nat)
    requires i < j < n
    ensures IsNonNeg(nn, i) && IsNonNeg(nn, j) ==> CanonicalIndex(nn, n, j) == CanonicalIndex(nn, n, i) + 1 + CountNonNeg(nn, j) - CountNonNeg(nn, i + 1)
    ensures IsNonNeg(nn, i) && IsNonNeg(nn, j) ==> CanonicalIndex(nn, n, i) < CanonicalIndex(nn, n, j)
    ensures !IsNonNeg(nn, i) && !IsNonNeg(nn, j) ==> CanonicalIndex(nn, n, i) + 2 <= CanonicalIndex(nn, n, j)
    ensures IsNonNeg(nn, i) ==> CanonicalIndex(nn, n, i) < CountNonNeg(nn, n)
    ensures !IsNonNeg(nn, j) ==> CountNonNeg(nn, n) <= CanonicalIndex(nn, n, j) && CanonicalIndex(nn, n, j) + 1 < StructuralWidth(nn, n)
    ensures IsNonNeg(nn, j) ==> CanonicalIndex(nn, n, j) < CountNonNeg(nn, n)
    ensures !IsNonNeg(nn, i) ==> CountNonNeg(nn, n) <= CanonicalIndex(nn, n, i) && CanonicalIndex(nn, n, i) + 1 < StructuralWidth(nn, n)
  {
    CountMonotone(nn, i, j);
    CountMonotone(nn, i + 1, j);
    CountMonotone(nn, j, n);
    CountMonotone(nn, i, n);
  }

  /** In row `i`, column `CanonicalIndex(j)` holds original coefficient `j`
      (sign-flipped with the row); for a free variable the next column holds
      its negation. */
  lemma {:induction false} StructuralColumns(p: GeneralProblem, i: nat, j: nat)
    requires i < |p.constraints| && j < |p.c|
    ensures var cp, nn, n := Canonicalize(p), p.nonNegativeVars, |p.c|;
      var k := CanonicalIndex(nn, n, j);
      var con := p.constraints[i];
      && k < |cp.A[i]|
      && cp.A[i][k] == Flip(con.constant < 0.0, Coef(con.coefficients, j))
      && (!IsNonNeg(nn, j) ==> k + 1 < |cp.A[i]| && cp.A[i][k + 1] == -cp.A[i][k])
  {
    CanonicalParts(p);
    RowStructuralEntry(p, i, j);
  }

  lemma {:induction false} RowStructuralEntry(p: GeneralProblem, i: nat, j: nat)
    requires i < |p.constraints| && j < |p.c|
    ensures var nn, n, con := p.nonNegativeVars, |p.c|, p.constraints[i];
      var k, row := CanonicalIndex(nn, n, j), CanonicalRow(p, i);
      && k < |row|
      && row[k] == Flip(con.constant < 0.0, Coef(con.coefficients, j))
      && (!IsNonNeg(nn, j) ==> k + 1 < |row| && row[k + 1] == -row[k])
  {
    var nn, n, con := p.nonNegativeVars, |p.c|, p.constraints[i];
    var k := CanonicalIndex(nn, n, j);
    var st := Structural(nn, n, con.coefficients);
    var u := st + SlackEntries(p.constraints, i);
    LayoutAt(nn, n, CoefAt(con.coefficients), CoefAt(con.coefficients), NegCoefAt(con.coefficients), j);
    LayoutBounds(nn, n, j);
    assert u[k] == st[k];
    FlipAllAt(con.constant < 0.0, u, k);
    if !IsNonNeg(nn, j) {
      assert u[k + 1] == st[k + 1];
      FlipAllAt(con.constant < 0.0, u, k + 1);
    }
  }

  /** The canonical objective is the original one on the structural columns,
      negated for `max`, with a free variable's negative part carrying the
      opposite sign; it is zero on every slack column. */
  lemma {:induction false} ObjectiveColumns(p: GeneralProblem, j: nat)
    requires j < |p.c|
    ensures var cp, nn, n := Canonicalize(p), p.nonNegativeVars, |p.c|;
      var k := CanonicalIndex(nn, n, j);
      && k < |cp.c|
      && (!IsNonNeg(nn, j) ==> k + 1 < |cp.c| && cp.c[k + 1] == -cp.c[k])
      && (p.objective == Maximize ==> cp.c[k] == -p.c[j])
      && (p.objective != Maximize ==> cp.c[k] == p.c[j])
      && (forall s :: StructuralWidth(nn, n) <= s < |cp.c| ==> cp.c[s] == 0.0)
  {
    var nn, n := p.nonNegativeVars, |p.c|;
    LayoutAt(nn, n, CoefAt(p.c), CoefAt(p.c), NegCoefAt(p.c), j);
    LayoutBounds(nn, n, j);
  }

  /** Every `b_i >= 0`. A row is negated in full (structural coefficients,
      slack entry and constant) exactly when its constant is negative; a
      zero constant is kept. */
  lemma {:induction false} RhsNonNegative(p: GeneralProblem, i: nat)
    requires i < |p.constraints|
    ensures var cp, con := Canonicalize(p), p.constraints[i];
      var raw := Structural(p.nonNegativeVars, |p.c|, con.coefficients) + SlackEntries(p.constraints, i);
      && cp.b[i] >= 0.0
      && |cp.A[i]| == |raw|
      && (con.constant < 0.0 ==> cp.b[i] == -con.constant && forall k :: 0 <= k < |raw| ==> cp.A[i][k] == -raw[k])
      && (con.constant >= 0.0 ==> cp.b[i] == con.constant && forall k :: 0 <= k < |raw| ==> cp.A[i][k] == raw[k])
  {
  }

  /** Each non-equality row owns the slack column numbered by its position
      among the non-equality rows: `+1` for `<=` and `-1` for `>=` before the
      row's sign flip, and that column is zero in every other row. Equality
      rows have no non-zero slack entry. */
  lemma {:induction false} SlackColumns(p: GeneralProblem, i: nat, i2: nat)
    requires i < |p.constraints| && i2 < |p.constraints|
    ensures var cs := p.constraints;
      var w := StructuralWidth(p.nonNegativeVars, |p.c|);
      && |CanonicalRow(p, i)| == w + SlackTotal(p)
      && (cs[i].relation == Eq ==> forall k :: w <= k < |CanonicalRow(p, i)| ==> CanonicalRow(p, i)[k] == 0.0)
      && (cs[i].relation != Eq ==>
            && w + SlackCount(cs, i) < |CanonicalRow(p, i)|
            && CanonicalRow(p, i)[w + SlackCount(cs, i)] == Flip(cs[i].constant < 0.0, if cs[i].relation == Le then 1.0 else -1.0)
            && (i2 != i ==> CanonicalRow(p, i2)[w + SlackCount(cs, i)] == 0.0)
            && (forall k :: w <= k < |CanonicalRow(p, i)| && k != w + SlackCount(cs, i) ==> CanonicalRow(p, i)[k] == 0.0))
      && (i < i2 && cs[i].relation != Eq && cs[i2].relation != Eq ==> SlackCount(cs, i) < SlackCount(cs, i2))
  {
    var cs := p.constraints;
    CanonicalWidth(p);
    RowSlackPart(p, i);
    if i < i2 {
      SlackCountMonotone(cs, i, i2);
    } else if i2 < i {
      SlackCountMonotone(cs, i2, i);
    }
    if cs[i].relation != Eq && i2 != i {
      SlackCountMonotone(cs, i, |cs|);
      RowSlackEntry(p, i2, SlackCount(cs, i));
    }
  }

  /** The slack part of canonical row `i`: zero for an equality row, one
      non-zero entry at the row's own slack column otherwise. */
  lemma {:induction false} RowSlackPart(p: GeneralProblem, i: nat)
    requires i < |p.constraints|
    ensures var row, cs := CanonicalRow(p, i), p.constraints;
      var w := StructuralWidth(p.nonNegativeVars, |p.c|);
      && (cs[i].relation == Eq ==> forall k :: w <= k < |row| ==> row[k] == 0.0)
      && (cs[i].relation != Eq ==>
            && w + SlackCount(cs, i) < |row|
            && row[w + SlackCount(cs, i)] == Flip(cs[i].constant < 0.0, if cs[i].relation == Le then 1.0 else -1.0)
            && (forall k :: w <= k < |row| && k != w + SlackCount(cs, i) ==> row[k] == 0.0))
  {
    var row, cs := CanonicalRow(p, i), p.constraints;
    var w := StructuralWidth(p.nonNegativeVars, |p.c|);
    CanonicalWidth(p);
    SlackCountMonotone(cs, i, |cs|);
    forall k | w <= k < |row|
      ensures row[k] == Flip(cs[i].constant < 0.0, if k - w == SlackCount(cs, i) then SlackCoefficient(cs[i].relation) else 0.0)
    {
      RowSlackEntry(p, i, k - w);
    }
  }

  /** Entry `w + s` of canonical row `i`, where `w` is the structural width:
      the row's sign times its slack entry `s`. */
  lemma {:induction false} RowSlackEntry(p: GeneralProblem, i: nat, s: nat)
    requires i < |p.constraints| && s < SlackTotal(p)
    ensures var w := StructuralWidth(p.nonNegativeVars, |p.c|);
      && w + s < |CanonicalRow(p, i)|
      && CanonicalRow(p, i)[w + s]
         == Flip(p.constraints[i].constant < 0.0,
                 if s == SlackCount(p.constraints, i) then SlackCoefficient(p.constraints[i].relation) else 0.0)
  {
    var con := p.constraints[i];
    var st := Structural(p.nonNegativeVars, |p.c|, con.coefficients);
    var u := st + SlackEntries(p.constraints, i);
    SlackEntriesAt(p.constraints, i, s);
    assert u[|st| + s] == SlackEntries(p.constraints, i)[s];
  }

  /* ---------- the inverse mapping ---------- */

  /** The recorded mappings send each free original to its column pair and
      every original to its columns, so the inverse mapping can read any
      canonical vector and agrees with the layout. */
  lemma {:induction false} MappingsFollowLayout(p: GeneralProblem, x: seq<real>)
    requires StructuralWidth(p.nonNegativeVars, |p.c|) <= |x|
    ensures var cp, nn, n := Canonicalize(p), p.nonNegativeVars, |p.c|;
      && (forall i: nat :: i in cp.freeVarMapping <==> i < n && !IsNonNeg(nn, i))
      && (forall i: nat :: i in cp.canonicalVarIndices <==> i < n)
      && ReadableBy(cp, |x|)
      && GetOriginalSolution(cp, x) == Recover(nn, n, x)
  {
    CanonicalMaps(p);
    MappingsRead(Canonicalize(p), p.nonNegativeVars, |p.c|, x);
  }

  lemma {:induction false} CanonicalMaps(p: GeneralProblem)
    ensures Canonicalize(p).freeVarMapping == FreeVarMapping(p.nonNegativeVars, |p.c|)
    ensures Canonicalize(p).canonicalVarIndices == CanonicalVarIndices(p.nonNegativeVars, |p.c|)
    ensures Canonicalize(p).originalVarCount == |p.c|
  {
  }

  /** `MappingsFollowLayout` for any record carrying the layout's maps. */
  lemma {:induction false} MappingsRead(cp: CanonicalProblem, nn: seq<int>, n: nat, x: seq<real>)
    requires cp.freeVarMapping == FreeVarMapping(nn, n)
    requires cp.canonicalVarIndices == CanonicalVarIndices(nn, n)
    requires cp.originalVarCount == n && StructuralWidth(nn, n) <= |x|
    ensures forall i: nat :: i in cp.freeVarMapping <==> i < n && !IsNonNeg(nn, i)
    ensures forall i: nat :: i in cp.canonicalVarIndices <==> i < n
    ensures ReadableBy(cp, |x|)
    ensures GetOriginalSolution(cp, x) == Recover(nn, n, x)
  {
    forall i: nat
      ensures i in cp.freeVarMapping <==> i < n && !IsNonNeg(nn, i)
      ensures i in cp.canonicalVarIndices <==> i < n
    {
      MapsAt(nn, n, i);
    }
    MappingsReadable(cp, nn, n, |x|);
    MappingsRecover(cp, nn, n, x);
  }

  lemma {:induction false} MappingsReadable(cp: CanonicalProblem, nn: seq<int>, n: nat, len: nat)
    requires cp.freeVarMapping == FreeVarMapping(nn, n)
    requires cp.canonicalVarIndices == CanonicalVarIndices(nn, n)
    requires cp.originalVarCount == n && StructuralWidth(nn, n) <= len
    ensures ReadableBy(cp, len)
  {
    forall i: nat | i < n
      ensures if i in cp.freeVarMapping then cp.freeVarMapping[i].0 < len && cp.freeVarMapping[i].1 < len
              else i in cp.canonicalVarIndices && |cp.canonicalVarIndices[i]| > 0 && cp.canonicalVarIndices[i][0] < len
    {
      MapsAt(nn, n, i);
      LayoutBounds(nn, n, i);
    }
  }

  lemma {:induction false} MappingsRecover(cp: CanonicalProblem, nn: seq<int>, n: nat, x: seq<real>)
    requires cp.freeVarMapping == FreeVarMapping(nn, n)
    requires cp.canonicalVarIndices == CanonicalVarIndices(nn, n)
    requires cp.originalVarCount == n && StructuralWidth(nn, n) <= |x|
    requires ReadableBy(cp, |x|)
    ensures GetOriginalSolution(cp, x) == Recover(nn, n, x)
  {
    forall i | 0 <= i < n
      ensures GetOriginalSolution(cp, x)[i] == Recover(nn, n, x)[i]
    {
      MapsAt(nn, n, i);
      RecoverAt(nn, n, x, i);
    }
  }

  /** Membership in, and the entries of, the two layout maps. */
  lemma {:induction false} MapsAt(nn: seq<int>, n: nat, i: nat)
    ensures i in FreeVarMapping(nn, n) <==> i < n && !IsNonNeg(nn, i)
    ensures i in FreeVarMapping(nn, n) ==>
      FreeVarMapping(nn, n)[i] == (CanonicalIndex(nn, n, i), CanonicalIndex(nn, n, i) + 1)
    ensures i in CanonicalVarIndices(nn, n) <==> i < n
    ensures i in CanonicalVarIndices(nn, n) ==>
      (CanonicalVarIndices(nn, n)[i]
         == if IsNonNeg(nn, i) then [CanonicalIndex(nn, n, i)] else [CanonicalIndex(nn, n, i), CanonicalIndex(nn, n, i) + 1])
  {
  }

  /** The part of `MappingsFollowLayout` the correspondences need. */
  lemma {:induction false} SolutionIsRecovered(p: GeneralProblem, x: seq<real>)
    requires StructuralWidth(p.nonNegativeVars, |p.c|) <= |x|
    ensures ReadableBy(Canonicalize(p), |x|)
    ensures GetOriginalSolution(Canonicalize(p), x) == Recover(p.nonNegativeVars, |p.c|, x)
  {
    MappingsFollowLayout(p, x);
  }

  /** `f(0) * y_0 + ... + f(k-1) * y_(k-1)`. */
  function WeightedSum(f: nat -> real, y: seq<real>, k: nat): real
    requires k <= |y|
  {
    if k == 0 then 0.0 else WeightedSum(f, y, k - 1) + f(k - 1) * y[k - 1]
  }

  lemma {:induction false} WeightedSumIsDot(v: seq<real>, y: seq<real>, k: nat)
    requires k <= |y|
    ensures WeightedSum(CoefAt(v), y, k) == Dot(CoefVector(v, k), y[..k])
  {
    if k > 0 {
      WeightedSumIsDot(v, y, k - 1);
      assert CoefVector(v, k) == CoefVector(v, k - 1) + [Coef(v, k - 1)];
      PrefixSnoc(y, k - 1);
      DotSnoc(CoefVector(v, k - 1), y[..k - 1], Coef(v, k - 1), y[k - 1]);
    } else {
      assert CoefVector(v, 0) == [];
    }
  }

  /** The non-negative block of the first `k` originals evaluated at `x`,
      term by term. */
  function NonNegTerms(nn: seq<int>, k: nat, f: nat -> real, x: seq<real>): real {
    if k == 0 then 0.0
    else NonNegTerms(nn, k - 1, f, x) + (if IsNonNeg(nn, k - 1) then f(k - 1) * Entry(x, CountNonNeg(nn, k - 1)) else 0.0)
  }

  /** The free block of the first `k` originals, starting at column `base`,
      evaluated at `x` term by term. */
  function FreeTerms(nn: seq<int>, k: nat, f: nat -> real, g: nat -> real, x: seq<real>, base: nat): real {
    if k == 0 then 0.0
    else FreeTerms(nn, k - 1, f, g, x, base)
         + (if IsNonNeg(nn, k - 1) then 0.0
            else f(k - 1) * Entry(x, base + 2 * CountFree(nn, k - 1)) + g(k - 1) * Entry(x, base + 2 * CountFree(nn, k - 1) + 1))
  }

  lemma {:induction false} NonNegBlockDot(nn: seq<int>, k: nat, f: nat -> real, x: seq<real>)
    requires CountNonNeg(nn, k) <= |x|
    ensures Dot(NonNegItems(nn, k, f), x[..CountNonNeg(nn, k)]) == NonNegTerms(nn, k, f, x)
  {
    if k == 0 {
      DotEmpty(NonNegItems(nn, 0, f), x[..CountNonNeg(nn, 0)]);
    } else {
      ItemsStep(nn, k, f, f);
      NonNegBlockDot(nn, k - 1, f, x);
      if IsNonNeg(nn, k - 1) {
        var a := CountNonNeg(nn, k - 1);
        PrefixSnoc(x, a);
        DotSnoc(NonNegItems(nn, k - 1, f), x[..a], f(k - 1), x[a]);
      }
    }
  }

  lemma {:induction false} FreeBlockDot(nn: seq<int>, k: nat, f: nat -> real, g: nat -> real, x: seq<real>, base: nat)
    requires base + 2 * CountFree(nn, k) <= |x|
    ensures Dot(FreeItems(nn, k, f, g), x[base..base + 2 * CountFree(nn, k)]) == FreeTerms(nn, k, f, g, x, base)
  {
    if k == 0 {
      DotEmpty(FreeItems(nn, 0, f, g), x[base..base + 2 * CountFree(nn, 0)]);
    } else {
      ItemsStep(nn, k, f, g);
      FreeBlockDot(nn, k - 1, f, g, x, base);
      if !IsNonNeg(nn, k - 1) {
        var lo := base + 2 * CountFree(nn, k - 1);
        SliceSnoc(x, base, lo, base + 2 * CountFree(nn, k));
        DotPairSnoc(FreeItems(nn, k - 1, f, g), x[base..lo], f(k - 1), g(k - 1), x[lo], x[lo + 1]);
      }
    }
  }

  /** The two blocks together, term by term, give the weighted sum over the
      recovered original vector: the heart of the row and objective
      correspondences. */
  lemma {:induction false} BlocksRecover(nn: seq<int>, n: nat, f: nat -> real, g: nat -> real, x: seq<real>, k: nat)
    requires k <= n && StructuralWidth(nn, n) <= |x|
    requires forall j: nat :: g(j) == -f(j)
    ensures NonNegTerms(nn, k, f, x) + FreeTerms(nn, k, f, g, x, CountNonNeg(nn, n)) == WeightedSum(f, Recover(nn, n, x), k)
  {
    if k > 0 {
      BlocksRecover(nn, n, f, g, x, k - 1);
      BlockStep(nn, n, f, g, x, k);
    }
  }

  /** Together the two blocks grow by original `k - 1`'s weighted value, as
      the weighted sum of the recovered values does. */
  lemma {:induction false} BlockStep(nn: seq<int>, n: nat, f: nat -> real, g: nat -> real, x: seq<real>, k: nat)
    requires 0 < k <= n && StructuralWidth(nn, n) <= |x|
    requires forall j: nat :: g(j) == -f(j)
    ensures NonNegTerms(nn, k, f, x) + FreeTerms(nn, k, f, g, x, CountNonNeg(nn, n))
               - WeightedSum(f, Recover(nn, n, x), k)
            == NonNegTerms(nn, k - 1, f, x) + FreeTerms(nn, k - 1, f, g, x, CountNonNeg(nn, n))
               - WeightedSum(f, Recover(nn, n, x), k - 1)
  {
    var P := CountNonNeg(nn, n);
    WeightedSumStep(f, Recover(nn, n, x), k);
    TermsSkip(nn, k, f, g, x, P);
    if IsNonNeg(nn, k - 1) {
      NonNegTermStep(nn, n, f, x, k);
    } else {
      FreeTermStep(nn, n, f, g, x, k);
    }
    AddStep(NonNegTerms(nn, k - 1, f, x), FreeTerms(nn, k - 1, f, g, x, P),
            NonNegTerms(nn, k, f, x), FreeTerms(nn, k, f, g, x, P), f(k - 1) * Recover(nn, n, x)[k - 1]);
  }

  lemma {:induction false} AddStep(a0: real, b0: real, a1: real, b1: real, t: real)
    requires (a1 == a0 + t && b1 == b0) || (a1 == a0 && b1 == b0 + t)
    ensures a1 + b1 == a0 + b0 + t
  {
  }

  lemma {:induction false} NonNegTermStep(nn: seq<int>, n: nat, f: nat -> real, x: seq<real>, k: nat)
    requires 0 < k <= n && StructuralWidth(nn, n) <= |x| && IsNonNeg(nn, k - 1)
    ensures NonNegTerms(nn, k, f, x) == NonNegTerms(nn, k - 1, f, x) + f(k - 1) * Recover(nn, n, x)[k - 1]
  {
    RecoverAt(nn, n, x, k - 1);
    assert Entry(x, CountNonNeg(nn, k - 1)) == Recover(nn, n, x)[k - 1];
  }

  lemma {:induction false} FreeTermStep(nn: seq<int>, n: nat, f: nat -> real, g: nat -> real, x: seq<real>, k: nat)
    requires 0 < k <= n && StructuralWidth(nn, n) <= |x| && !IsNonNeg(nn, k - 1)
    requires forall j: nat :: g(j) == -f(j)
    ensures FreeTerms(nn, k, f, g, x, CountNonNeg(nn, n))
            == FreeTerms(nn, k - 1, f, g, x, CountNonNeg(nn, n)) + f(k - 1) * Recover(nn, n, x)[k - 1]
  {
    RecoverAt(nn, n, x, k - 1);
    var lo := CountNonNeg(nn, n) + 2 * CountFree(nn, k - 1);
    var u, v := Entry(x, lo), Entry(x, lo + 1);
    assert Recover(nn, n, x)[k - 1] == u - v;
    PairIsDifference(FreeTerms(nn, k, f, g, x, CountNonNeg(nn, n)), FreeTerms(nn, k - 1, f, g, x, CountNonNeg(nn, n)),
                     f(k - 1), g(k - 1), u, v, Recover(nn, n, x)[k - 1]);
  }

  /** Original `k - 1` adds nothing to the block it does not belong to. */
  lemma {:induction false} TermsSkip(nn: seq<int>, k: nat, f: nat -> real, g: nat -> real, x: seq<real>, base: nat)
    requires 0 < k
    ensures IsNonNeg(nn, k - 1) ==> FreeTerms(nn, k, f, g, x, base) == FreeTerms(nn, k - 1, f, g, x, base)
    ensures !IsNonNeg(nn, k - 1) ==> NonNegTerms(nn, k, f, x) == NonNegTerms(nn, k - 1, f, x)
  {
  }

  lemma {:induction false} WeightedSumStep(f: nat -> real, y: seq<real>, k: nat)
    requires 0 < k <= |y|
    ensures WeightedSum(f, y, k) == WeightedSum(f, y, k - 1) + f(k - 1) * y[k - 1]
  {
  }

  /** How the two blocks and their counts grow from `k - 1` to `k` originals. */
  lemma {:induction false} ItemsStep<T>(nn: seq<int>, k: nat, f: nat -> T, g: nat -> T)
    requires 0 < k
    ensures IsNonNeg(nn, k - 1) ==>
      && CountNonNeg(nn, k) == CountNonNeg(nn, k - 1) + 1 && CountFree(nn, k) == CountFree(nn, k - 1)
      && NonNegItems(nn, k, f) == NonNegItems(nn, k - 1, f) + [f(k - 1)]
      && FreeItems(nn, k, f, g) == FreeItems(nn, k - 1, f, g)
    ensures !IsNonNeg(nn, k - 1) ==>
      && CountNonNeg(nn, k) == CountNonNeg(nn, k - 1) && CountFree(nn, k) == CountFree(nn, k - 1) + 1
      && NonNegItems(nn, k, f) == NonNegItems(nn, k - 1, f)
      && FreeItems(nn, k, f, g) == FreeItems(nn, k - 1, f, g) + [f(k - 1), g(k - 1)]
  {
  }

  lemma PrefixSnoc(x: seq<real>, a: nat)
    requires a < |x|
    ensures x[..a + 1] == x[..a] + [x[a]]
  {
  }

  lemma SliceSnoc(x: seq<real>, lo: nat, hi: nat, top: nat)
    requires lo <= hi && top == hi + 2 <= |x|
    ensures x[lo..top] == x[lo..hi] + [x[hi], x[hi + 1]]
  {
  }

  /** A pair of columns `+f, -f` contributes `f` times the difference of
      the two parts. */
  lemma {:induction false} PairIsDifference(d1: real, d0: real, a: real, b: real, u: real, v: real, r: real)
    requires d1 == d0 + a * u + b * v
    requires b == -a && r == u - v
    ensures d1 == d0 + a * r
  {
  }

  lemma {:induction false} DotPairSnoc(u: seq<real>, v: seq<real>, a: real, b: real, c: real, d: real)
    requires |u| == |v|
    ensures Dot(u + [a, b], v + [c, d]) == Dot(u, v) + a * c + b * d
  {
    assert u + [a, b] == (u + [a]) + [b];
    assert v + [c, d] == (v + [c]) + [d];
    DotSnoc(u + [a], v + [c], b, d);
    DotSnoc(u, v, a, c);
  }

  /** Structural part of a canonical row or objective, evaluated at `x`, equals
      the original coefficients evaluated at the recovered original vector. */
  lemma {:induction false} StructuralDot(nn: seq<int>, n: nat, v: seq<real>, x: seq<real>)
    requires StructuralWidth(nn, n) <= |x|
    ensures Dot(Structural(nn, n, v), x[..StructuralWidth(nn, n)]) == Dot(CoefVector(v, n), Recover(nn, n, x))
  {
    var P, W := CountNonNeg(nn, n), StructuralWidth(nn, n);
    NonNegBlockDot(nn, n, CoefAt(v), x);
    FreeBlockDot(nn, n, CoefAt(v), NegCoefAt(v), x, P);
    BlocksRecover(nn, n, CoefAt(v), NegCoefAt(v), x, n);
    assert x[..W] == x[..P] + x[P..W];
    DotAppend(NonNegItems(nn, n, CoefAt(v)), x[..P], FreeItems(nn, n, CoefAt(v), NegCoefAt(v)), x[P..W]);
    WeightedSumIsDot(v, Recover(nn, n, x), n);
    assert Recover(nn, n, x)[..n] == Recover(nn, n, x);
  }

  /** A slack part contributes its single non-zero entry times the slack value. */
  lemma {:induction false} SlackDot(cs: seq<Constraint>, i: nat, s: seq<real>)
    requires i < |cs| && |s| == SlackCount(cs, |cs|)
    ensures cs[i].relation == Eq ==> Dot(SlackEntries(cs, i), s) == 0.0
    ensures cs[i].relation != Eq ==>
      (SlackCount(cs, i) < |s| && Dot(SlackEntries(cs, i), s) == Flip(cs[i].relation == Ge, s[SlackCount(cs, i)]))
  {
    var e := SlackEntries(cs, i);
    if cs[i].relation == Eq {
      forall k | 0 <= k < |e|
        ensures e[k] == 0.0
      {
        SlackEntriesAt(cs, i, k);
      }
      DotZeroLeft(e, s);
    } else {
      var k := SlackCount(cs, i);
      SlackCountMonotone(cs, i, |cs|);
      assert e == Zeros(|s|)[k := SlackCoefficient(cs[i].relation)];
      DotZeroLeft(Zeros(|s|), s);
      DotUpdate(Zeros(|s|), s, k, SlackCoefficient(cs[i].relation), s[k]);
      assert s[k := s[k]] == s;
    }
  }

  /** Canonical row `i` at `x`, split into its structural and slack parts. */
  lemma {:induction false} RowDot(p: GeneralProblem, i: nat, x: seq<real>)
    requires i < |p.constraints| && |x| == StructuralWidth(p.nonNegativeVars, |p.c|) + SlackTotal(p)
    ensures |CanonicalRow(p, i)| == |x|
    ensures Dot(CanonicalRow(p, i), x)
            == Flip(p.constraints[i].constant < 0.0,
                    Dot(CoefVector(p.constraints[i].coefficients, |p.c|), Recover(p.nonNegativeVars, |p.c|, x))
                    + Dot(SlackEntries(p.constraints, i), x[StructuralWidth(p.nonNegativeVars, |p.c|)..]))
  {
    var nn, n, cs := p.nonNegativeVars, |p.c|, p.constraints;
    var w := StructuralWidth(nn, n);
    var st := Structural(nn, n, cs[i].coefficients);
    SplitDot(CanonicalRow(p, i), cs[i].constant < 0.0, st, SlackEntries(cs, i), x, w);
    StructuralDot(nn, n, cs[i].coefficients, x);
  }

  /** A flipped concatenation against `x` splits at the seam. */
  lemma {:induction false} SplitDot(row: seq<real>, flip: bool, st: seq<real>, sl: seq<real>, x: seq<real>, w: nat)
    requires row == FlipAll(flip, st + sl) && w == |st| && |st| + |sl| == |x|
    ensures |row| == |x|
    ensures Dot(row, x) == Flip(flip, Dot(st, x[..w]) + Dot(sl, x[w..]))
  {
    DotFlipLeft(flip, st + sl, x);
    assert x[..w] + x[w..] == x;
    DotAppend(st, x[..w], sl, x[w..]);
  }

  /** Evaluating original row `i` at the recovered vector gives the
      structural part of canonical row `i` at `x`, negated when the row was. */
  lemma {:induction false} RowCorrespondence(p: GeneralProblem, i: nat, x: seq<real>)
    requires i < |p.constraints| && |x| == |Canonicalize(p).c|
    ensures var cp, nn, n, con := Canonicalize(p), p.nonNegativeVars, |p.c|, p.constraints[i];
      var w := StructuralWidth(nn, n);
      && ReadableBy(cp, |x|)
      && w <= |cp.A[i]|
      && Dot(CoefVector(con.coefficients, n), GetOriginalSolution(cp, x)) == Flip(con.constant < 0.0, Dot(cp.A[i][..w], x[..w]))
  {
    CanonicalParts(p);
    CanonicalWidth(p);
    SolutionIsRecovered(p, x);
    RowStructuralPart(p, i, x);
  }

  lemma {:induction false} RowStructuralPart(p: GeneralProblem, i: nat, x: seq<real>)
    requires i < |p.constraints| && |x| == StructuralWidth(p.nonNegativeVars, |p.c|) + SlackTotal(p)
    ensures var nn, n, con := p.nonNegativeVars, |p.c|, p.constraints[i];
      var w := StructuralWidth(nn, n);
      && w <= |CanonicalRow(p, i)|
      && Dot(CoefVector(con.coefficients, n), Recover(nn, n, x)) == Flip(con.constant < 0.0, Dot(CanonicalRow(p, i)[..w], x[..w]))
  {
    var nn, n, con := p.nonNegativeVars, |p.c|, p.constraints[i];
    var w := StructuralWidth(nn, n);
    var st := Structural(nn, n, con.coefficients);
    FlipPrefix(con.constant < 0.0, st, SlackEntries(p.constraints, i));
    DotFlipLeft(con.constant < 0.0, st, x[..w]);
    StructuralDot(nn, n, con.coefficients, x);
  }

  /** The caller's correction: the canonical optimum of a `max` problem is
      negated back. */
  function OriginalObjectiveValue(d: Direction, canonicalValue: real): real {
    if d == Maximize then -canonicalValue else canonicalValue
  }

  /** The original objective at the recovered vector equals the canonical
      objective at `x`, negated for `max`; so the caller's correction yields
      the original objective value. */
  lemma {:induction false} ObjectiveCorrespondence(p: GeneralProblem, x: seq<real>)
    requires |x| == |Canonicalize(p).c|
    ensures var cp := Canonicalize(p);
      && ReadableBy(cp, |x|)
      && Dot(p.c, GetOriginalSolution(cp, x)) == Flip(p.objective == Maximize, Dot(cp.c, x))
      && OriginalObjectiveValue(p.objective, Dot(cp.c, x)) == Dot(p.c, GetOriginalSolution(cp, x))
  {
    CanonicalParts(p);
    CanonicalWidth(p);
    SolutionIsRecovered(p, x);
    ObjectiveStructuralPart(p, x);
  }

  lemma {:induction false} ObjectiveStructuralPart(p: GeneralProblem, x: seq<real>)
    requires |x| == StructuralWidth(p.nonNegativeVars, |p.c|) + SlackTotal(p)
    ensures |CanonicalObjective(p)| == |x|
    ensures Dot(p.c, Recover(p.nonNegativeVars, |p.c|, x)) == Flip(p.objective == Maximize, Dot(CanonicalObjective(p), x))
  {
    var nn, n := p.nonNegativeVars, |p.c|;
    var w := StructuralWidth(nn, n);
    var st := Structural(nn, n, p.c);
    var flip := p.objective == Maximize;
    assert x == x[..w] + x[w..];
    DotAppend(FlipAll(flip, st), x[..w], Zeros(|x| - w), x[w..]);
    DotZeroLeft(Zeros(|x| - w), x[w..]);
    DotFlipLeft(flip, st, x[..w]);
    StructuralDot(nn, n, p.c, x);
    assert CoefVector(p.c, n) == p.c;
  }

  /* ---------- feasibility correspondence ---------- */

  predicate Satisfies(con: Constraint, y: seq<real>) {
    var lhs := Dot(CoefVector(con.coefficients, |y|), y);
    match con.relation
    case Le => lhs <= con.constant
    case Eq => lhs == con.constant
    case Ge => lhs >= con.constant
  }

  /** `y` meets every constraint and every declared sign restriction. */
  predicate OriginalFeasible(p: GeneralProblem, y: seq<real>) {
    && |y| == |p.c|
    && (forall i :: 0 <= i < |p.constraints| ==> Satisfies(p.constraints[i], y))
    && (forall j: nat :: j < |y| && IsNonNeg(p.nonNegativeVars, j) ==> y[j] >= 0.0)
  }

  /** The slack value that makes original row `i` an equation at `y`. */
  function SlackValue(con: Constraint, y: seq<real>): real {
    var lhs := Dot(CoefVector(con.coefficients, |y|), y);
    if con.relation == Le then con.constant - lhs else lhs - con.constant
  }

  /** Slack values of the non-equality rows among the first `k`, in row order. */
  function SlackValues(cs: seq<Constraint>, y: seq<real>, k: nat): (s: seq<real>)
    requires k <= |cs|
    ensures |s| == SlackCount(cs, k)
  {
    if k == 0 then [] else SlackValues(cs, y, k - 1) + (if cs[k - 1].relation == Eq then [] else [SlackValue(cs[k - 1], y)])
  }

  lemma {:induction false} SlackValuesAt(cs: seq<Constraint>, y: seq<real>, k: nat, i: nat)
    requires i < k <= |cs| && cs[i].relation != Eq
    ensures SlackCount(cs, i) < SlackCount(cs, k)
    ensures SlackValues(cs, y, k)[SlackCount(cs, i)] == SlackValue(cs[i], y)
  {
    SlackCountMonotone(cs, i, k);
    if i < k - 1 {
      SlackValuesAt(cs, y, k - 1, i);
    }
  }

  lemma {:induction false} SlackValuesNonNegative(cs: seq<Constraint>, y: seq<real>, k: nat)
    requires k <= |cs|
    requires forall i :: 0 <= i < k ==> Satisfies(cs[i], y)
    ensures forall q :: 0 <= q < |SlackValues(cs, y, k)| ==> SlackValues(cs, y, k)[q] >= 0.0
  {
    if k > 0 {
      SlackValuesNonNegative(cs, y, k - 1);
    }
  }

  lemma {:induction false} ItemsNonNegative(nn: seq<int>, k: nat, f: nat -> real, g: nat -> real, h: nat -> real)
    requires forall i: nat :: i < k && IsNonNeg(nn, i) ==> f(i) >= 0.0
    requires forall i: nat :: g(i) >= 0.0 && h(i) >= 0.0
    ensures forall q :: 0 <= q < |NonNegItems(nn, k, f)| ==> NonNegItems(nn, k, f)[q] >= 0.0
    ensures forall q :: 0 <= q < |FreeItems(nn, k, g, h)| ==> FreeItems(nn, k, g, h)[q] >= 0.0
  {
    if k > 0 {
      ItemsNonNegative(nn, k - 1, f, g, h);
    }
  }

  /** The canonical vector that represents a feasible original vector `y`. */
  function EmbedSolution(p: GeneralProblem, y: seq<real>): seq<real> {
    Embed(p.nonNegativeVars, |p.c|, y, SlackValues(p.constraints, y, |p.constraints|))
  }

  /** Splitting `y` into canonical columns and recovering it gives `y` back. */
  lemma {:induction false} RecoverEmbed(nn: seq<int>, n: nat, y: seq<real>, slacks: seq<real>)
    requires |y| == n
    ensures Recover(nn, n, Embed(nn, n, y, slacks)) == y
  {
    var x := Embed(nn, n, y, slacks);
    var st := NonNegItems(nn, n, CoefAt(y)) + FreeItems(nn, n, PositivePartAt(y), NegativePartAt(y));
    assert x == st + slacks;
    forall i | 0 <= i < n
      ensures Recover(nn, n, x)[i] == y[i]
    {
      LayoutAt(nn, n, CoefAt(y), PositivePartAt(y), NegativePartAt(y), i);
    }
  }

  /** `A x = b` and `x >= 0` for the canonical rows of `p`, stated without
      building the canonical record. */
  predicate RowsHold(p: GeneralProblem, x: seq<real>) {
    && |x| == StructuralWidth(p.nonNegativeVars, |p.c|) + SlackTotal(p)
    && (forall i :: 0 <= i < |p.constraints| ==>
          |CanonicalRow(p, i)| == |x| && Dot(CanonicalRow(p, i), x) == CanonicalRhs(p.constraints[i].constant))
    && (forall j :: 0 <= j < |x| ==> x[j] >= 0.0)
  }

  /** `RowsHold` is `CanonicalFeasible` of the canonical record. */
  lemma {:induction false} RowsHoldIsCanonicalFeasible(p: GeneralProblem, x: seq<real>)
    ensures RowsHold(p, x) <==> CanonicalFeasible(Canonicalize(p), x)
  {
    CanonicalParts(p);
    CanonicalWidth(p);
  }

  /** A canonical solution (`A x = b`, `x >= 0`) maps back to a vector that
      satisfies every original constraint and sign restriction. */
  lemma {:induction false} FeasibleRecovers(p: GeneralProblem, x: seq<real>)
    requires CanonicalFeasible(Canonicalize(p), x)
    ensures ReadableBy(Canonicalize(p), |x|)
    ensures OriginalFeasible(p, GetOriginalSolution(Canonicalize(p), x))
  {
    RowsHoldIsCanonicalFeasible(p, x);
    CanonicalParts(p);
    CanonicalWidth(p);
    SolutionIsRecovered(p, x);
    RowsRecover(p, x);
  }

  lemma {:induction false} RowsRecover(p: GeneralProblem, x: seq<real>)
    requires RowsHold(p, x)
    ensures OriginalFeasible(p, Recover(p.nonNegativeVars, |p.c|, x))
  {
    var nn, n, cs := p.nonNegativeVars, |p.c|, p.constraints;
    var y := Recover(nn, n, x);
    forall i | 0 <= i < |cs|
      ensures Satisfies(cs[i], y)
    {
      RowRecovers(p, i, x);
    }
    forall j: nat | j < n && IsNonNeg(nn, j)
      ensures y[j] >= 0.0
    {
      RecoverAt(nn, n, x, j);
    }
  }

  /** One canonical row equation, with `x >= 0`, gives original row `i` at
      the recovered vector. */
  lemma {:induction false} RowRecovers(p: GeneralProblem, i: nat, x: seq<real>)
    requires i < |p.constraints|
    requires |x| == StructuralWidth(p.nonNegativeVars, |p.c|) + SlackTotal(p)
    requires Dot(CanonicalRow(p, i), x) == CanonicalRhs(p.constraints[i].constant)
    requires forall j :: 0 <= j < |x| ==> x[j] >= 0.0
    ensures Satisfies(p.constraints[i], Recover(p.nonNegativeVars, |p.c|, x))
  {
    var nn, n, cs := p.nonNegativeVars, |p.c|, p.constraints;
    var w := StructuralWidth(nn, n);
    var y := Recover(nn, n, x);
    RowDot(p, i, x);
    SlackDot(cs, i, x[w..]);
    var lhs := Dot(CoefVector(cs[i].coefficients, n), y);
    var sl := Dot(SlackEntries(cs, i), x[w..]);
    if cs[i].relation != Eq {
      assert x[w..][SlackCount(cs, i)] >= 0.0;
    }
  }

  /** A feasible original vector, split into canonical columns with its slack
      values appended, is a canonical solution, and the inverse mapping
      returns it unchanged: the canonicaliser loses no feasible point. */
  lemma {:induction false} FeasibleEmbeds(p: GeneralProblem, y: seq<real>)
    requires OriginalFeasible(p, y)
    ensures |EmbedSolution(p, y)| == |Canonicalize(p).c|
    ensures ReadableBy(Canonicalize(p), |EmbedSolution(p, y)|)
    ensures CanonicalFeasible(Canonicalize(p), EmbedSolution(p, y))
    ensures GetOriginalSolution(Canonicalize(p), EmbedSolution(p, y)) == y
  {
    var x := EmbedSolution(p, y);
    RowsEmbed(p, y);
    RowsHoldIsCanonicalFeasible(p, x);
    CanonicalParts(p);
    CanonicalWidth(p);
    SolutionIsRecovered(p, x);
  }

  lemma {:induction false} RowsEmbed(p: GeneralProblem, y: seq<real>)
    requires OriginalFeasible(p, y)
    ensures RowsHold(p, EmbedSolution(p, y))
    ensures Recover(p.nonNegativeVars, |p.c|, EmbedSolution(p, y)) == y
  {
    var x := EmbedSolution(p, y);
    EmbedLayout(p, y);
    forall i | 0 <= i < |p.constraints|
      ensures |CanonicalRow(p, i)| == |x| && Dot(CanonicalRow(p, i), x) == CanonicalRhs(p.constraints[i].constant)
    {
      RowEmbeds(p, i, y);
    }
  }

  /** The embedded vector has the canonical width, ends in the slack values,
      is non-negative, and recovers to `y`. */
  lemma {:induction false} EmbedLayout(p: GeneralProblem, y: seq<real>)
    requires OriginalFeasible(p, y)
    ensures var x, w := EmbedSolution(p, y), StructuralWidth(p.nonNegativeVars, |p.c|);
      && |x| == w + SlackTotal(p)
      && x[w..] == SlackValues(p.constraints, y, |p.constraints|)
      && (forall j :: 0 <= j < |x| ==> x[j] >= 0.0)
      && Recover(p.nonNegativeVars, |p.c|, x) == y
  {
    var nn, n, cs := p.nonNegativeVars, |p.c|, p.constraints;
    var s := SlackValues(cs, y, |cs|);
    var x := EmbedSolution(p, y);
    RecoverEmbed(nn, n, y, s);
    var st := NonNegItems(nn, n, CoefAt(y));
    var fr := FreeItems(nn, n, PositivePartAt(y), NegativePartAt(y));
    assert x == st + fr + s;
    ItemsNonNegative(nn, n, CoefAt(y), PositivePartAt(y), NegativePartAt(y));
    SlackValuesNonNegative(cs, y, |cs|);
    forall j | 0 <= j < |x|
      ensures x[j] >= 0.0
    {
      if j < |st| {
        assert x[j] == st[j];
      } else if j < |st| + |fr| {
        assert x[j] == fr[j - |st|];
      } else {
        assert x[j] == s[j - |st| - |fr|];
      }
    }
  }

  /** Original row `i` holds at `y`, so canonical row `i` holds at the
      embedding of `y`. */
  lemma {:induction false} RowEmbeds(p: GeneralProblem, i: nat, y: seq<real>)
    requires OriginalFeasible(p, y) && i < |p.constraints|
    ensures var x := EmbedSolution(p, y);
      |CanonicalRow(p, i)| == |x| && Dot(CanonicalRow(p, i), x) == CanonicalRhs(p.constraints[i].constant)
  {
    EmbedLayout(p, y);
    RowHoldsAt(p, i, y, EmbedSolution(p, y));
  }

  lemma {:induction false} RowHoldsAt(p: GeneralProblem, i: nat, y: seq<real>, x: seq<real>)
    requires i < |p.constraints| && |y| == |p.c| && Satisfies(p.constraints[i], y)
    requires var w := StructuralWidth(p.nonNegativeVars, |p.c|);
      && |x| == w + SlackTotal(p)
      && x[w..] == SlackValues(p.constraints, y, |p.constraints|)
      && Recover(p.nonNegativeVars, |p.c|, x) == y
    ensures |CanonicalRow(p, i)| == |x| && Dot(CanonicalRow(p, i), x) == CanonicalRhs(p.constraints[i].constant)
  {
    var nn, n, cs := p.nonNegativeVars, |p.c|, p.constraints;
    var w := StructuralWidth(nn, n);
    var s := SlackValues(cs, y, |cs|);
    RowDot(p, i, x);
    var d := Dot(CanonicalRow(p, i), x);
    var lhs := Dot(CoefVector(cs[i].coefficients, n), y);
    var sl := Dot(SlackEntries(cs, i), s);
    assert Dot(CoefVector(cs[i].coefficients, n), Recover(nn, n, x)) == lhs;
    assert Dot(SlackEntries(cs, i), x[w..]) == sl;
    SlackPart(cs, i, y);
    EquationBack(d, cs[i], lhs, sl, SlackValue(cs[i], y));
  }

  /** The slack part of row `i`, evaluated at the slack values of `y`: zero
      for an equation, otherwise the row's slack value, negated for `>=`. */
  lemma {:induction false} SlackPart(cs: seq<Constraint>, i: nat, y: seq<real>)
    requires i < |cs|
    ensures cs[i].relation == Eq ==> Dot(SlackEntries(cs, i), SlackValues(cs, y, |cs|)) == 0.0
    ensures cs[i].relation != Eq ==>
      Dot(SlackEntries(cs, i), SlackValues(cs, y, |cs|)) == Flip(cs[i].relation == Ge, SlackValue(cs[i], y))
  {
    SlackDot(cs, i, SlackValues(cs, y, |cs|));
    if cs[i].relation != Eq {
      SlackValuesAt(cs, y, |cs|, i);
    }
  }

  /** Adding the slack value back turns original row `i` into its canonical
      equation. */
  lemma {:induction false} EquationBack(d: real, con: Constraint, lhs: real, sl: real, sv: real)
    requires d == Flip(con.constant < 0.0, lhs + sl)
    requires con.relation == Eq ==> sl == 0.0 && lhs == con.constant
    requires con.relation != Eq ==> sl == Flip(con.relation == Ge, sv)
    requires sv == (if con.relation == Le then con.constant - lhs else lhs - con.constant)
    ensures d == CanonicalRhs(con.constant)
  {
  }

  /* ---------- declarations outside the variable range ---------- */

  /** Two declaration lists that agree on the originals below `k`. */
  predicate AgreeBelow(nn: seq<int>, nn': seq<int>, k: nat) {
    forall i: nat :: i < k ==> (IsNonNeg(nn, i) <==> IsNonNeg(nn', i))
  }

  lemma {:induction false} SameCounts(nn: seq<int>, nn': seq<int>, k: nat)
    requires AgreeBelow(nn, nn', k)
    ensures CountNonNeg(nn, k) == CountNonNeg(nn', k)
  {
    if k > 0 {
      SameCounts(nn, nn', k - 1);
    }
  }

  lemma {:induction false} SameItems<T>(nn: seq<int>, nn': seq<int>, k: nat, f: nat -> T, g: nat -> T)
    requires AgreeBelow(nn, nn', k)
    ensures NonNegItems(nn, k, f) == NonNegItems(nn', k, f)
    ensures FreeItems(nn, k, f, g) == FreeItems(nn', k, f, g)
  {
    if k > 0 {
      SameItems(nn, nn', k - 1, f, g);
    }
  }

  lemma {:induction false} SameLayout(nn: seq<int>, nn': seq<int>, n: nat)
    requires AgreeBelow(nn, nn', n)
    ensures CountNonNeg(nn, n) == CountNonNeg(nn', n)
    ensures forall i :: 0 <= i < n ==> CanonicalIndex(nn, n, i) == CanonicalIndex(nn', n, i)
  {
    forall k: nat | k <= n
      ensures CountNonNeg(nn, k) == CountNonNeg(nn', k)
    {
      SameCounts(nn, nn', k);
    }
  }

  lemma {:induction false} SameMaps(nn: seq<int>, nn': seq<int>, n: nat)
    requires AgreeBelow(nn, nn', n)
    ensures FreeVarMapping(nn', n) == FreeVarMapping(nn, n)
    ensures CanonicalVarIndices(nn', n) == CanonicalVarIndices(nn, n)
  {
    SameLayout(nn, nn', n);
  }

  lemma {:induction false} SameColumns(p: GeneralProblem, nn': seq<int>)
    requires AgreeBelow(p.nonNegativeVars, nn', |p.c|)
    ensures CanonicalObjective(p.(nonNegativeVars := nn')) == CanonicalObjective(p)
    ensures forall i :: 0 <= i < |p.constraints| ==> CanonicalRow(p.(nonNegativeVars := nn'), i) == CanonicalRow(p, i)
  {
    var nn, n := p.nonNegativeVars, |p.c|;
    forall v: seq<real>
      ensures Structural(nn, n, v) == Structural(nn', n, v)
    {
      SameItems(nn, nn', n, CoefAt(v), NegCoefAt(v));
    }
  }

  lemma {:induction false} SameLabels(p: GeneralProblem, nn': seq<int>)
    requires AgreeBelow(p.nonNegativeVars, nn', |p.c|)
    ensures CanonicalLabels(p.(nonNegativeVars := nn')) == CanonicalLabels(p)
  {
    var nn, n := p.nonNegativeVars, |p.c|;
    SameItems<VarLabel>(nn, nn', n, (j: nat) => Original(j), (j: nat) => Original(j));
    SameItems<VarLabel>(nn, nn', n, (j: nat) => PositivePart(j), (j: nat) => NegativePart(j));
  }

  /** Declaring a variable number outside `0 .. n-1` non-negative has no
      effect: the canonical problem depends on the declarations only through
      the originals that exist. */
  lemma {:induction false} OutOfRangeDeclarationsIgnored(p: GeneralProblem, nn': seq<int>)
    requires AgreeBelow(p.nonNegativeVars, nn', |p.c|)
    ensures Canonicalize(p.(nonNegativeVars := nn')) == Canonicalize(p)
  {
    SameColumns(p, nn');
    SameLabels(p, nn');
    SameMaps(p.nonNegativeVars, nn', |p.c|);
  }
}

=== FILE: dp_core.dfy ===
/** The portfolio dynamic programme: states holding money in two assets, a
    deposit and cash; the trading actions a state admits; the move to the
    next stage under a scenario's multipliers; and the backward (Bellman)
    selection of the best action by expected value. Quantising a state to
    the step grid is a parameter. */
module Portfolio {
  import opened Numerics

  datatype State = State(x1: real, x2: real, d: real, cash: real)

  /** The terminal value of a state: everything it holds, so at least its
      cash when no position is negative. */
  function Total(s: State): (t: real)
    ensures s.x1 >= 0.0 && s.x2 >= 0.0 && s.d >= 0.0 ==> t >= s.cash
  {
    s.x1 + s.x2 + s.d + s.cash
  }

  /** The trading lot of each asset, in money. */
  datatype Steps = Steps(x1: real, x2: real, d: real)

  /** Money moved into each asset (negative: sold). */
  datatype Action = Action(dx1: real, dx2: real, dd: real)

  /** Lot counts of an action. */
  datatype Packets = Packets(n1: int, n2: int, nd: int)

  /** The per-asset purchase cap the backward pass uses. */
  const PackagesEach: int := 5

  /** Above this many lot combinations every range is cut down. */
  const CombinationLimit: int := 5000

  /** The cut-down ranges keep counts within this bound. */
  const NarrowBound: int := 2

  function Min(a: int, b: int): int {
    if a <= b then a else b
  }

  function Max(a: int, b: int): int {
    if a >= b then a else b
  }

  /** The inclusive integer range `lo .. hi` (empty when `hi < lo`). */
  datatype Span = Span(lo: int, hi: int)

  predicate InSpan(sp: Span, x: int) {
    sp.lo <= x <= sp.hi
  }

  function Width(sp: Span): (w: nat)
    ensures w == 0 <==> sp.hi < sp.lo
  {
    if sp.hi < sp.lo then 0 else sp.hi - sp.lo + 1
  }

  /** The members of a span in increasing order. */
  function Counts(sp: Span): (r: seq<int>)
    ensures |r| == Width(sp)
    ensures forall x :: x in r <==> InSpan(sp, x)
    ensures Ascending(r)
  {
    var r := seq(Width(sp), k requires 0 <= k < Width(sp) => sp.lo + k);
    assert forall x | InSpan(sp, x) :: r[x - sp.lo] == x;
    r
  }

  /** Lots affordable with the cash, capped at `cap`; zero lots for a
      non-positive step. */
  function MaxBuy(cash: real, step: real, cap: int): int {
    Min(cap, if step > 0.0 then (cash / step).Floor else 0)
  }

  /** Lots of a holding that can be sold; zero for a non-positive step. */
  function MaxSell(holding: real, step: real): int {
    if step > 0.0 then (holding / step).Floor else 0
  }

  /** The count range of one asset: sell everything held up to buying as many
      lots as the cap and the cash allow. */
  function WideSpan(holding: real, cash: real, step: real, cap: int): Span {
    Span(-MaxSell(holding, step), MaxBuy(cash, step, cap))
  }

  /** A span cut down to `-2 .. 2`. */
  function Narrow(sp: Span): (r: Span)
    ensures forall x :: InSpan(r, x) <==> InSpan(sp, x) && -NarrowBound <= x <= NarrowBound
  {
    Span(Max(-NarrowBound, sp.lo), Min(NarrowBound, sp.hi))
  }

  /** Whether the three full count ranges give more lot combinations than
      the limit. */
  predicate Crowded(s: State, steps: Steps, cap: int) {
    Width(WideSpan(s.x1, s.cash, steps.x1, cap)) * Width(WideSpan(s.x2, s.cash, steps.x2, cap))
      * Width(WideSpan(s.d, s.cash, steps.d, cap)) > CombinationLimit
  }

  /** The three count ranges of a state, cut down together when their
      combinations exceed the limit: a count is in a range exactly when it is
      in the asset's full range and, if the ranges are crowded, within
      `-2 .. 2`. */
  function Spans(s: State, steps: Steps, cap: int): (r: (Span, Span, Span))
    ensures forall x :: InSpan(r.0, x) <==>
      InSpan(WideSpan(s.x1, s.cash, steps.x1, cap), x) && (Crowded(s, steps, cap) ==> -NarrowBound <= x <= NarrowBound)
    ensures forall x :: InSpan(r.1, x) <==>
      InSpan(WideSpan(s.x2, s.cash, steps.x2, cap), x) && (Crowded(s, steps, cap) ==> -NarrowBound <= x <= NarrowBound)
    ensures forall x :: InSpan(r.2, x) <==>
      InSpan(WideSpan(s.d, s.cash, steps.d, cap), x) && (Crowded(s, steps, cap) ==> -NarrowBound <= x <= NarrowBound)
  {
    var w1 := WideSpan(s.x1, s.cash, steps.x1, cap);
    var w2 := WideSpan(s.x2, s.cash, steps.x2, cap);
    var w3 := WideSpan(s.d, s.cash, steps.d, cap);
    if Width(w1) * Width(w2) * Width(w3) > CombinationLimit then (Narrow(w1), Narrow(w2), Narrow(w3))
    else (w1, w2, w3)
  }

  /** Strictly increasing integers. */
  predicate Ascending(r: seq<int>) {
    forall i, j :: 0 <= i < j < |r| ==> r[i] < r[j]
  }

  /** The order in which the source's nested loops visit lot combinations:
      first count slowest, last count fastest. */
  predicate LexBelow(p: Packets, q: Packets) {
    p.n1 < q.n1 || (p.n1 == q.n1 && (p.n2 < q.n2 || (p.n2 == q.n2 && p.nd < q.nd)))
  }

  /** Lot combinations strictly increasing in loop order. */
  predicate LexAscending(g: seq<Packets>) {
    forall i, j :: 0 <= i < j < |g| ==> LexBelow(g[i], g[j])
  }

  /** Every combination of counts, first count slowest, last fastest. */
  function Grid(r1: seq<int>, r2: seq<int>, r3: seq<int>): (g: seq<Packets>)
    ensures forall p :: p in g <==> p.n1 in r1 && p.n2 in r2 && p.nd in r3
  {
    if |r1| == 0 then []
    else GridRow(r1[0], r2, r3) + Grid(r1[1..], r2, r3)
  }

  function GridRow(n1: int, r2: seq<int>, r3: seq<int>): (g: seq<Packets>)
    ensures forall p :: p in g <==> p.n1 == n1 && p.n2 in r2 && p.nd in r3
  {
    if |r2| == 0 then []
    else Column(n1, r2[0], r3) + GridRow(n1, r2[1..], r3)
  }

  /** The combinations with the first two counts fixed, last count running
      through `r3`. */
  function Column(n1: int, n2: int, r3: seq<int>): (c: seq<Packets>)
    ensures |c| == |r3|
    ensures forall p :: p in c <==> p.n1 == n1 && p.n2 == n2 && p.nd in r3
  {
    var c := seq(|r3|, k requires 0 <= k < |r3| => Packets(n1, n2, r3[k]));
    assert forall k :: 0 <= k < |r3| ==> c[k].nd == r3[k];
    c
  }

  /** The rest of an increasing sequence is increasing and above its head. */
  lemma AscendingTail(r: seq<int>)
    requires Ascending(r) && |r| > 0
    ensures Ascending(r[1..])
    ensures forall x :: x in r[1..] ==> r[0] < x
  {
    assert forall i :: 0 <= i < |r| - 1 ==> r[1..][i] == r[i + 1];
  }

  /** Two increasing runs, the first wholly below the second, make one. */
  lemma ConcatInOrder(a: seq<Packets>, b: seq<Packets>)
    requires LexAscending(a) && LexAscending(b)
    requires forall x, y :: x in a && y in b ==> LexBelow(x, y)
    ensures LexAscending(a + b)
  {
    forall i, j | 0 <= i < j < |a + b|
      ensures LexBelow((a + b)[i], (a + b)[j])
    {
      if j < |a| {
        assert (a + b)[i] == a[i] && (a + b)[j] == a[j];
      } else if i >= |a| {
        assert (a + b)[i] == b[i - |a|] && (a + b)[j] == b[j - |a|];
      } else {
        assert (a + b)[i] in a && (a + b)[j] in b;
      }
    }
  }

  lemma ColumnInOrder(n1: int, n2: int, r3: seq<int>)
    requires Ascending(r3)
    ensures LexAscending(Column(n1, n2, r3))
  {
  }

  lemma {:induction false} GridRowInOrder(n1: int, r2: seq<int>, r3: seq<int>)
    requires Ascending(r2) && Ascending(r3)
    ensures LexAscending(GridRow(n1, r2, r3))
  {
    if |r2| > 0 {
      AscendingTail(r2);
      GridRowInOrder(n1, r2[1..], r3);
      ColumnInOrder(n1, r2[0], r3);
      ConcatInOrder(Column(n1, r2[0], r3), GridRow(n1, r2[1..], r3));
    }
  }

  /** With increasing ranges the grid lists combinations in strictly
      increasing loop order. */
  lemma {:induction false} GridInOrder(r1: seq<int>, r2: seq<int>, r3: seq<int>)
    requires Ascending(r1) && Ascending(r2) && Ascending(r3)
    ensures LexAscending(Grid(r1, r2, r3))
  {
    if |r1| > 0 {
      AscendingTail(r1);
      GridInOrder(r1[1..], r2, r3);
      GridRowInOrder(r1[0], r2, r3);
      ConcatInOrder(GridRow(r1[0], r2, r3), Grid(r1[1..], r2, r3));
    }
  }

  /** The money moved by a lot combination. */
  function ActionOf(p: Packets, steps: Steps): Action {
    Action(p.n1 as real * steps.x1, p.n2 as real * steps.x2, p.nd as real * steps.d)
  }

  /** The action filter: cash may not end below minus the tolerance, and no
      asset may be sold beyond its holding plus the tolerance. */
  predicate Allowed(s: State, a: Action) {
    && !(s.cash - (a.dx1 + a.dx2 + a.dd) < -BalanceTolerance)
    && !(a.dx1 < -s.x1 - BalanceTolerance || a.dx2 < -s.x2 - BalanceTolerance || a.dd < -s.d - BalanceTolerance)
  }

  /** The combinations whose action passes the filter, in their order. */
  function Admissible(g: seq<Packets>, s: State, steps: Steps): (kept: seq<Packets>)
    ensures forall p :: p in kept <==> p in g && Allowed(s, ActionOf(p, steps))
  {
    if |g| == 0 then []
    else
      var rest := Admissible(g[1..], s, steps);
      assert forall p :: p in g <==> p == g[0] || p in g[1..];
      (if Allowed(s, ActionOf(g[0], steps)) then [g[0]] else []) + rest
  }

  /** Filtering keeps the order of what it keeps. */
  lemma {:induction false} AdmissibleInOrder(g: seq<Packets>, s: State, steps: Steps)
    requires LexAscending(g)
    ensures LexAscending(Admissible(g, s, steps))
  {
    if |g| > 0 {
      assert forall i :: 0 <= i < |g| - 1 ==> g[1..][i] == g[i + 1];
      AdmissibleInOrder(g[1..], s, steps);
      var head: seq<Packets> := if Allowed(s, ActionOf(g[0], steps)) then [g[0]] else [];
      forall x, y | x in head && y in Admissible(g[1..], s, steps)
        ensures LexBelow(x, y)
      {
        var j :| 0 <= j < |g| - 1 && g[1..][j] == y;
        assert LexBelow(g[0], g[j + 1]);
      }
      ConcatInOrder(head, Admissible(g[1..], s, steps));
    }
  }

  /** The lot combinations a state admits, in the source's loop order. */
  function AdmittedLots(s: State, steps: Steps, cap: int): (lots: seq<Packets>)
    ensures var (sp1, sp2, sp3) := Spans(s, steps, cap);
      forall p :: p in lots <==> InSpan(sp1, p.n1) && InSpan(sp2, p.n2) && InSpan(sp3, p.nd) && Allowed(s, ActionOf(p, steps))
  {
    var (sp1, sp2, sp3) := Spans(s, steps, cap);
    Admissible(Grid(Counts(sp1), Counts(sp2), Counts(sp3)), s, steps)
  }

  /** The actions a state admits: the allowed actions of the combinations in
      the state's ranges, listed in the source's loop order. */
  function GetActions(s: State, steps: Steps, cap: int): (acts: seq<Action>)
    ensures |acts| == |AdmittedLots(s, steps, cap)|
    ensures forall i :: 0 <= i < |acts| ==> acts[i] == ActionOf(AdmittedLots(s, steps, cap)[i], steps)
    ensures forall i :: 0 <= i < |acts| ==> s.cash - (acts[i].dx1 + acts[i].dx2 + acts[i].dd) >= -BalanceTolerance
    ensures forall i :: 0 <= i < |acts| ==>
      acts[i].dx1 >= -s.x1 - BalanceTolerance && acts[i].dx2 >= -s.x2 - BalanceTolerance && acts[i].dd >= -s.d - BalanceTolerance
    ensures var (sp1, sp2, sp3) := Spans(s, steps, cap);
      forall a :: a in acts <==>
        Allowed(s, a) && exists p: Packets :: InSpan(sp1, p.n1) && InSpan(sp2, p.n2) && InSpan(sp3, p.nd) && a == ActionOf(p, steps)
  {
    var lots := AdmittedLots(s, steps, cap);
    var acts := seq(|lots|, i requires 0 <= i < |lots| => ActionOf(lots[i], steps));
    ActionsOfLots(lots, steps, acts);
    acts
  }

  /** The actions of a list of combinations are the actions of its members. */
  lemma ActionsOfLots(lots: seq<Packets>, steps: Steps, acts: seq<Action>)
    requires |acts| == |lots| && forall i :: 0 <= i < |acts| ==> acts[i] == ActionOf(lots[i], steps)
    ensures forall i :: 0 <= i < |acts| ==> lots[i] in lots
    ensures forall a :: a in acts <==> exists p :: p in lots && a == ActionOf(p, steps)
  {
    forall p | p in lots
      ensures ActionOf(p, steps) in acts
    {
      var i :| 0 <= i < |lots| && lots[i] == p;
      assert acts[i] == ActionOf(p, steps);
    }
  }

  /** The admitted actions come in the order of their lot counts, first
      count slowest and last fastest, each increasing: "first" in the
      backward pass's tie-break refers to this order. */
  lemma ActionsInLoopOrder(s: State, steps: Steps, cap: int)
    ensures LexAscending(AdmittedLots(s, steps, cap))
    ensures forall i :: 0 <= i < |GetActions(s, steps, cap)| ==>
      GetActions(s, steps, cap)[i] == ActionOf(AdmittedLots(s, steps, cap)[i], steps)
  {
    var (sp1, sp2, sp3) := Spans(s, steps, cap);
    GridInOrder(Counts(sp1), Counts(sp2), Counts(sp3));
    AdmissibleInOrder(Grid(Counts(sp1), Counts(sp2), Counts(sp3)), s, steps);
  }

  /** Every admitted action is a whole number of lots of each asset, each
      count inside the asset's range: from selling everything held to
      buying as many lots as cap and cash allow, and within `-2 .. 2` when
      the full ranges give more than the limit of combinations. */
  lemma {:induction false} ActionsAreLots(s: State, steps: Steps, cap: int, a: Action)
    requires a in GetActions(s, steps, cap)
    ensures exists p: Packets ::
      && a == ActionOf(p, steps)
      && -MaxSell(s.x1, steps.x1) <= p.n1 <= MaxBuy(s.cash, steps.x1, cap)
      && -MaxSell(s.x2, steps.x2) <= p.n2 <= MaxBuy(s.cash, steps.x2, cap)
      && -MaxSell(s.d, steps.d) <= p.nd <= MaxBuy(s.cash, steps.d, cap)
      && (Crowded(s, steps, cap) ==>
            -NarrowBound <= p.n1 <= NarrowBound && -NarrowBound <= p.n2 <= NarrowBound && -NarrowBound <= p.nd <= NarrowBound)
  {
    var (sp1, sp2, sp3) := Spans(s, steps, cap);
    var p: Packets :| InSpan(sp1, p.n1) && InSpan(sp2, p.n2) && InSpan(sp3, p.nd) && a == ActionOf(p, steps);
  }

  /** Staying put is always admitted for a state with nothing negative,
      positive lots and a non-negative cap. */
  lemma {:induction false} StayIsAdmitted(s: State, steps: Steps, cap: int)
    requires s.x1 >= 0.0 && s.x2 >= 0.0 && s.d >= 0.0 && s.cash >= 0.0
    requires steps.x1 > 0.0 && steps.x2 > 0.0 && steps.d > 0.0 && cap >= 0
    ensures Action(0.0, 0.0, 0.0) in GetActions(s, steps, cap)
  {
    var (sp1, sp2, sp3) := Spans(s, steps, cap);
    ZeroInWideSpan(s.x1, s.cash, steps.x1, cap);
    ZeroInWideSpan(s.x2, s.cash, steps.x2, cap);
    ZeroInWideSpan(s.d, s.cash, steps.d, cap);
    ZeroInSpans(s, steps, cap);
    StayIsAllowed(s, steps);
    var zero := Packets(0, 0, 0);
    assert InSpan(sp1, zero.n1) && InSpan(sp2, zero.n2) && InSpan(sp3, zero.nd);
  }

  lemma StayIsAllowed(s: State, steps: Steps)
    requires s.x1 >= 0.0 && s.x2 >= 0.0 && s.d >= 0.0 && s.cash >= 0.0
    ensures ActionOf(Packets(0, 0, 0), steps) == Action(0.0, 0.0, 0.0)
    ensures Allowed(s, Action(0.0, 0.0, 0.0))
  {
  }

  lemma ZeroInSpans(s: State, steps: Steps, cap: int)
    requires InSpan(WideSpan(s.x1, s.cash, steps.x1, cap), 0)
    requires InSpan(WideSpan(s.x2, s.cash, steps.x2, cap), 0)
    requires InSpan(WideSpan(s.d, s.cash, steps.d, cap), 0)
    ensures InSpan(Spans(s, steps, cap).0, 0) && InSpan(Spans(s, steps, cap).1, 0) && InSpan(Spans(s, steps, cap).2, 0)
  {
  }

  lemma ZeroInWideSpan(h: real, cash: real, step: real, cap: int)
    requires h >= 0.0 && cash >= 0.0 && step > 0.0 && cap >= 0
    ensures InSpan(WideSpan(h, cash, step, cap), 0)
  {
    FloorNonNegative(h, step);
    FloorNonNegative(cash, step);
  }

  lemma FloorNonNegative(h: real, step: real)
    requires h >= 0.0 && step > 0.0
    ensures (h / step).Floor >= 0
  {
    assert h / step >= 0.0;
  }

  /* ---------- moving to the next stage ---------- */

  /** The multipliers of one scenario and its probability. */
  datatype Scenario = Scenario(p: real, m1: real, m2: real, md: real)

  /** Trade, then let each asset grow by its multiplier; cash is not
      multiplied. With unit multipliers a move only shifts money between the
      positions, so the total is unchanged. */
  function ApplyAndMove(s: State, a: Action, sc: Scenario): (s': State)
    ensures s'.cash == s.cash - (a.dx1 + a.dx2 + a.dd)
    ensures sc.m1 == 1.0 && sc.m2 == 1.0 && sc.md == 1.0 ==>
      s'.x1 == s.x1 + a.dx1 && s'.x2 == s.x2 + a.dx2 && s'.d == s.d + a.dd && Total(s') == Total(s)
  {
    State((s.x1 + a.dx1) * sc.m1, (s.x2 + a.dx2) * sc.m2, (s.d + a.dd) * sc.md, s.cash - (a.dx1 + a.dx2 + a.dd))
  }

  /* ---------- the backward pass ---------- */

  /** The starting best value of the per-state search. */
  const NoValue: real := -1.0e18

  /** The value of a next state: its stage value when it has one, otherwise
      its total. */
  function NextValue(values: map<State, real>, s: State): real {
    if s in values then values[s] else Total(s)
  }

  /** The values of the next states reached under each scenario. */
  function Outcomes(s: State, a: Action, scs: seq<Scenario>, values: map<State, real>, quantize: State -> State): (v: seq<real>)
    ensures |v| == |scs|
  {
    seq(|scs|, k requires 0 <= k < |scs| => NextValue(values, quantize(ApplyAndMove(s, a, scs[k]))))
  }

  function Probabilities(scs: seq<Scenario>): (p: seq<real>)
    ensures |p| == |scs|
  {
    seq(|scs|, k requires 0 <= k < |scs| => scs[k].p)
  }

  /** The probability-weighted value of an action, summed scenario by
      scenario: never negative when no probability and no value of a state
      the action reaches is. */
  function ExpectedValue(s: State, a: Action, scs: seq<Scenario>, values: map<State, real>, quantize: State -> State): (v: real)
    ensures (forall k :: 0 <= k < |scs| ==>
               scs[k].p >= 0.0 && NextValue(values, quantize(ApplyAndMove(s, a, scs[k]))) >= 0.0) ==> v >= 0.0
  {
    var w, u := Probabilities(scs), Outcomes(s, a, scs, values, quantize);
    assert forall i :: 0 <= i < |u| ==> u[i] == NextValue(values, quantize(ApplyAndMove(s, a, scs[i])));
    WeightedSumNonNegative(w, u, |w|);
    Dot(w, u)
  }

  lemma {:induction false} WeightedSumNonNegative(w: seq<real>, u: seq<real>, k: nat)
    requires |w| == |u| && k <= |w|
    ensures (forall i :: 0 <= i < |w| ==> w[i] >= 0.0 && u[i] >= 0.0) ==> PartialDot(w, u, k) >= 0.0
  {
    if k > 0 {
      WeightedSumNonNegative(w, u, k - 1);
      if forall i :: 0 <= i < |w| ==> w[i] >= 0.0 && u[i] >= 0.0 {
        ProductMonotone(w[k - 1], 0.0, u[k - 1]);
      }
    }
  }

  /** Weighting with non-negative weights keeps the order of the weighted
      values. */
  lemma {:induction false} WeightedSumMonotone(w: seq<real>, u: seq<real>, v: seq<real>, k: nat)
    requires |w| == |u| == |v| && k <= |w|
    requires forall i :: 0 <= i < |w| ==> w[i] >= 0.0 && u[i] <= v[i]
    ensures PartialDot(w, u, k) <= PartialDot(w, v, k)
  {
    if k > 0 {
      WeightedSumMonotone(w, u, v, k - 1);
      ProductMonotone(w[k - 1], u[k - 1], v[k - 1]);
    }
  }

  lemma ProductMonotone(a: real, x: real, y: real)
    requires a >= 0.0 && x <= y
    ensures a * x <= a * y
  {
    assert a * y - a * x == a * (y - x);
  }

  /** The expected value is monotone in the next stage's values: with
      non-negative probabilities, raising the value of next states can only
      raise the expected value of an action. */
  lemma {:induction false} ExpectedValueMonotone(s: State, a: Action, scs: seq<Scenario>, lower: map<State, real>,
                                                 upper: map<State, real>, quantize: State -> State)
    requires forall k :: 0 <= k < |scs| ==> scs[k].p >= 0.0
    requires forall n: State :: NextValue(lower, n) <= NextValue(upper, n)
    ensures ExpectedValue(s, a, scs, lower, quantize) <= ExpectedValue(s, a, scs, upper, quantize)
  {
    var u := Outcomes(s, a, scs, lower, quantize);
    var v := Outcomes(s, a, scs, upper, quantize);
    var w := Probabilities(scs);
    forall i | 0 <= i < |w|
      ensures w[i] >= 0.0 && u[i] <= v[i]
    {
      var n := quantize(ApplyAndMove(s, a, scs[i]));
      assert u[i] == NextValue(lower, n) && v[i] == NextValue(upper, n);
    }
    WeightedSumMonotone(w, u, v, |w|);
  }

  /** The position of the first action of largest value above `NoValue`,
      or -1 when none is above it: the action a scan keeps when it replaces
      its best only on a strict improvement. */
  function BestIndex(acts: seq<Action>, value: Action -> real): (k: int)
    ensures -1 <= k < |acts|
    ensures k == -1 <==> forall i :: 0 <= i < |acts| ==> value(acts[i]) <= NoValue
    ensures k >= 0 ==>
      && value(acts[k]) > NoValue
      && (forall i :: 0 <= i < |acts| ==> value(acts[i]) <= value(acts[k]))
      && (forall j :: 0 <= j < k ==> value(acts[j]) < value(acts[k]))
  {
    if |acts| == 0 then -1
    else
      var k := BestIndex(acts[..|acts| - 1], value);
      var last := |acts| - 1;
      assert forall i :: 0 <= i < last ==> acts[..last][i] == acts[i];
      var best := if k == -1 then NoValue else value(acts[k]);
      if value(acts[last]) > best then last else k
  }

  /** The per-state search as the source runs it: best value starts at
      `NoValue` and best action at staying put, and each action with a
      strictly larger value replaces them. */
  function SelectBest(acts: seq<Action>, value: Action -> real): (r: (real, Action))
    decreases |acts|
    ensures r.0 >= NoValue && forall b :: b in acts ==> value(b) <= r.0
    ensures r.0 == NoValue ==> r.1 == Action(0.0, 0.0, 0.0)
    ensures r.0 > NoValue ==> r.1 in acts && value(r.1) == r.0
  {
    if |acts| == 0 then (NoValue, Action(0.0, 0.0, 0.0))
    else
      var prev := SelectBest(acts[..|acts| - 1], value);
      var a := acts[|acts| - 1];
      assert forall b :: b in acts <==> b in acts[..|acts| - 1] || b == a;
      if value(a) > prev.0 then (value(a), a) else prev
  }

  /** The scan agrees with the first-best position: it returns the largest
      value above `NoValue` and the first action reaching it, or `NoValue`
      and staying put when no action beats `NoValue`. */
  lemma {:induction false} SelectBestIsFirstBest(acts: seq<Action>, value: Action -> real)
    ensures var k := BestIndex(acts, value);
      SelectBest(acts, value) == if k == -1 then (NoValue, Action(0.0, 0.0, 0.0)) else (value(acts[k]), acts[k])
  {
    if |acts| > 0 {
      var last := |acts| - 1;
      var prefix := acts[..last];
      SelectBestIsFirstBest(prefix, value);
      var k := BestIndex(prefix, value);
      assert k >= 0 ==> prefix[k] == acts[k];
      assert SelectBest(prefix, value).0 == if k == -1 then NoValue else value(acts[k]);
    }
  }

  /** What the scan returns: a value bounding every action's value and never
      below `NoValue`; staying put when nothing beats `NoValue`; otherwise an
      action of the list that attains the value, no earlier action reaching
      it. */
  lemma {:induction false} SelectBestChoice(acts: seq<Action>, value: Action -> real)
    ensures var (v, a) := SelectBest(acts, value);
      && (forall b :: b in acts ==> value(b) <= v)
      && v >= NoValue
      && (v == NoValue ==> a == Action(0.0, 0.0, 0.0))
      && (v > NoValue ==>
            && v == value(a)
            && exists k :: 0 <= k < |acts| && acts[k] == a && forall j :: 0 <= j < k ==> value(acts[j]) < v)
  {
    SelectBestIsFirstBest(acts, value);
    var k := BestIndex(acts, value);
    assert forall b :: b in acts ==> exists i :: 0 <= i < |acts| && acts[i] == b;
  }

  /** The best value and action of a state at a stage, given the next
      stage's values: the value bounds the expected value of every admitted
      action and is never below `NoValue`; above it, the action is admitted
      and attains the value, and at it the action is staying put. */
  function StageChoice(s: State, scs: seq<Scenario>, values: map<State, real>, steps: Steps, quantize: State -> State): (r: (real, Action))
    ensures forall b :: b in GetActions(s, steps, PackagesEach) ==> ExpectedValue(s, b, scs, values, quantize) <= r.0
    ensures r.0 >= NoValue && (r.0 == NoValue ==> r.1 == Action(0.0, 0.0, 0.0))
    ensures r.0 > NoValue ==> r.1 in GetActions(s, steps, PackagesEach) && ExpectedValue(s, r.1, scs, values, quantize) == r.0
  {
    SelectBest(GetActions(s, steps, PackagesEach), a => ExpectedValue(s, a, scs, values, quantize))
  }

  /** The stage values `V[t]` of the backward pass over the reachable sets;
      the last stage's value is the total. */
  function Values(reachable: seq<set<State>>, stages: seq<seq<Scenario>>, steps: Steps, quantize: State -> State, t: nat): (v: map<State, real>)
    requires |stages| < |reachable| && t <= |stages|
    decreases |stages| - t
    ensures v.Keys == reachable[t]
    ensures t == |stages| ==> forall s :: s in v ==> v[s] == Total(s)
  {
    if t == |stages| then map s | s in reachable[t] :: Total(s)
    else
      var next := Values(reachable, stages, steps, quantize, t + 1);
      map s | s in reachable[t] :: StageChoice(s, stages[t], next, steps, quantize).0
  }

  /** The chosen action of every reachable state at stage `t < T`. */
  function Policy(reachable: seq<set<State>>, stages: seq<seq<Scenario>>, steps: Steps, quantize: State -> State, t: nat): (pol: map<State, Action>)
    requires |stages| < |reachable| && t < |stages|
    ensures pol.Keys == reachable[t]
  {
    var next := Values(reachable, stages, steps, quantize, t + 1);
    map s | s in reachable[t] :: StageChoice(s, stages[t], next, steps, quantize).1
  }

  /** Bellman's equation as the backward pass satisfies it: a state's value
      bounds the expected value of every admitted action, and unless no
      action beats `NoValue` the value is attained by the chosen action,
      which is admitted and is the first one attaining it. */
  lemma {:induction false} BellmanChoice(reachable: seq<set<State>>, stages: seq<seq<Scenario>>, steps: Steps,
                                         quantize: State -> State, t: nat, s: State)
    requires |stages| < |reachable| && t < |stages| && s in reachable[t]
    ensures var next := Values(reachable, stages, steps, quantize, t + 1);
      var acts := GetActions(s, steps, PackagesEach);
      var v := Values(reachable, stages, steps, quantize, t)[s];
      var a := Policy(reachable, stages, steps, quantize, t)[s];
      && (forall b :: b in acts ==> ExpectedValue(s, b, stages[t], next, quantize) <= v)
      && v >= NoValue
      && (v == NoValue ==> a == Action(0.0, 0.0, 0.0))
      && (v > NoValue ==>
            && v == ExpectedValue(s, a, stages[t], next, quantize)
            && exists k :: 0 <= k < |acts| && acts[k] == a
                 && forall j :: 0 <= j < k ==> ExpectedValue(s, acts[j], stages[t], next, quantize) < v)
  {
    var next := Values(reachable, stages, steps, quantize, t + 1);
    var acts := GetActions(s, steps, PackagesEach);
    SelectBestChoice(acts, b => ExpectedValue(s, b, stages[t], next, quantize));
  }
}

=== FILE: indices.dfy ===
/** Lists of column numbers, as the simplex tableau keeps its basic and free
    variables, and the operations the tableau performs on them. */
module IndexLists {
  import opened Numerics

  /** No entry occurs twice. */
  predicate Distinct(s: seq<nat>) {
    forall i, j :: 0 <= i < j < |s| ==> s[i] != s[j]
  }

  predicate StrictlyIncreasing(s: seq<nat>) {
    forall i, j :: 0 <= i < j < |s| ==> s[i] < s[j]
  }

  /** Every entry is below `n`. */
  predicate AllBelow(s: seq<nat>, n: nat) {
    forall i :: 0 <= i < |s| ==> s[i] < n
  }

  /** `lo, lo + 1, ..., hi - 1`. */
  function Range(lo: nat, hi: nat): (r: seq<nat>)
    requires lo <= hi
    ensures |r| == hi - lo
    ensures forall i :: 0 <= i < |r| ==> r[i] == lo + i
  {
    seq(hi - lo, i requires 0 <= i < hi - lo => lo + i)
  }

  /** The numbers below `n` that `s` does not contain, in increasing order. */
  function Complement(s: seq<nat>, n: nat): (r: seq<nat>)
    ensures forall x: nat :: x in r <==> x < n && x !in s
    ensures AllBelow(r, n)
    ensures StrictlyIncreasing(r)
  {
    if n == 0 then []
    else Complement(s, n - 1) + (if n - 1 in s then [] else [n - 1])
  }

  /** `n` zeros with `vals[i]` written at position `idx[i]`, one `i` after
      another, so that a later write to the same position wins. */
  function Scatter(idx: seq<nat>, vals: seq<real>, n: nat): (r: seq<real>)
    requires |idx| == |vals| && AllBelow(idx, n)
    ensures |r| == n
  {
    if |idx| == 0 then Zeros(n)
    else Scatter(idx[..|idx| - 1], vals[..|idx| - 1], n)[idx[|idx| - 1] := vals[|idx| - 1]]
  }

  /** With distinct positions every value lands where it was sent and every
      other position stays zero. */
  lemma {:induction false} ScatterAt(idx: seq<nat>, vals: seq<real>, n: nat)
    requires |idx| == |vals| && AllBelow(idx, n) && Distinct(idx)
    ensures forall i :: 0 <= i < |idx| ==> Scatter(idx, vals, n)[idx[i]] == vals[i]
    ensures forall x :: 0 <= x < n && x !in idx ==> Scatter(idx, vals, n)[x] == 0.0
  {
    if |idx| > 0 {
      var k := |idx| - 1;
      ScatterAt(idx[..k], vals[..k], n);
      forall x | 0 <= x < n && x !in idx[..k] && x != idx[k]
        ensures Scatter(idx, vals, n)[x] == 0.0
      {
      }
      forall i | 0 <= i < k
        ensures Scatter(idx, vals, n)[idx[i]] == vals[i]
      {
        assert idx[..k][i] == idx[i] && vals[..k][i] == vals[i];
      }
      forall x | 0 <= x < n && x !in idx
        ensures Scatter(idx, vals, n)[x] == 0.0
      {
        assert x !in idx[..k];
      }
    }
  }

  /** The positions below `k` whose entry of `s` is below `n`, in increasing
      order: the columns that survive deleting every entry at or above `n`. */
  function Kept(s: seq<nat>, n: nat, k: nat): (r: seq<nat>)
    requires k <= |s|
    ensures forall q: nat :: q in r <==> q < k && s[q] < n
    ensures AllBelow(r, k)
    ensures StrictlyIncreasing(r)
  {
    if k == 0 then []
    else Kept(s, n, k - 1) + (if s[k - 1] < n then [k - 1] else [])
  }

  lemma IncreasingIsDistinct(s: seq<nat>)
    requires StrictlyIncreasing(s)
    ensures Distinct(s)
  {
  }
}

=== FILE: numerics.dfy ===
/** Exact real vectors and the numerical tolerances shared by the LP engine
    and the portfolio DP. Floating-point rounding is not modelled: every
    quantity is a mathematical real and every tolerance a named constant. */
module Numerics {

  /** Reduced costs at or above minus this value count as non-negative, and
      pivot-column entries must exceed it to take part in the ratio test. */
  const PivotTolerance: real := 1.0e-10

  /** The auxiliary (phase-1) objective counts as zero up to this magnitude. */
  const FeasibilityTolerance: real := 1.0e-6

  /** How far cash and holdings may dip below zero in the DP action filter. */
  const BalanceTolerance: real := 1.0e-9

  function Abs(x: real): (r: real)
    ensures r >= 0.0 && (r == x || r == -x)
  {
    if x < 0.0 then -x else x
  }

  function Zeros(n: nat): seq<real> {
    seq(n, _ => 0.0)
  }

  function Ones(n: nat): seq<real> {
    seq(n, _ => 1.0)
  }

  /** The `i`-th unit vector of length `m`. */
  function Unit(m: nat, i: nat): (u: seq<real>)
    requires i < m
    ensures |u| == m
  {
    Zeros(m)[i := 1.0]
  }

  /** Multiplies every entry by `k`. */
  function Scale(k: real, v: seq<real>): (r: seq<real>)
    ensures |r| == |v|
  {
    seq(|v|, i requires 0 <= i < |v| => k * v[i])
  }

  /** `-a` when `flip` holds, `a` otherwise. */
  function Flip(flip: bool, a: real): real {
    if flip then -a else a
  }

  /** Negates every entry when `flip` holds. */
  function FlipAll(flip: bool, v: seq<real>): (r: seq<real>)
    ensures |r| == |v|
  {
    if flip then seq(|v|, i requires 0 <= i < |v| => -v[i]) else v
  }

  lemma FlipAllAt(flip: bool, v: seq<real>, i: nat)
    requires i < |v|
    ensures FlipAll(flip, v)[i] == Flip(flip, v[i])
  {
  }

  /** Flipping commutes with taking the leading part of a concatenation. */
  lemma FlipPrefix(flip: bool, a: seq<real>, b: seq<real>)
    ensures FlipAll(flip, a + b)[..|a|] == FlipAll(flip, a)
  {
    assert forall i :: 0 <= i < |a| ==> FlipAll(flip, a + b)[..|a|][i] == FlipAll(flip, a)[i];
  }

  /** Inner product. */
  function Dot(u: seq<real>, v: seq<real>): real
    requires |u| == |v|
  {
    PartialDot(u, v, |u|)
  }

  /** `u[0] * v[0] + ... + u[k-1] * v[k-1]`. */
  function PartialDot(u: seq<real>, v: seq<real>, k: nat): real
    requires k <= |u| && k <= |v|
  {
    if k == 0 then 0.0 else PartialDot(u, v, k - 1) + u[k - 1] * v[k - 1]
  }

  predicate IsMatrix(rows: seq<seq<real>>, height: nat, width: nat) {
    |rows| == height && forall i :: 0 <= i < |rows| ==> |rows[i]| == width
  }

  lemma DotEmpty(u: seq<real>, v: seq<real>)
    requires |u| == |v| == 0
    ensures Dot(u, v) == 0.0
  {
  }

  /** A partial inner product reads only the first `k` entries of each factor. */
  lemma {:induction false} PartialDotFrame(u: seq<real>, v: seq<real>, u2: seq<real>, v2: seq<real>, k: nat)
    requires k <= |u| && k <= |v| && k <= |u2| && k <= |v2|
    requires forall i :: 0 <= i < k ==> u[i] == u2[i] && v[i] == v2[i]
    ensures PartialDot(u, v, k) == PartialDot(u2, v2, k)
  {
    if k > 0 {
      PartialDotFrame(u, v, u2, v2, k - 1);
    }
  }

  lemma {:induction false} DotSnoc(u: seq<real>, v: seq<real>, a: real, b: real)
    requires |u| == |v|
    ensures Dot(u + [a], v + [b]) == Dot(u, v) + a * b
  {
    PartialDotFrame(u + [a], v + [b], u, v, |u|);
  }

  lemma {:induction false} DotZeroLeft(u: seq<real>, v: seq<real>)
    requires |u| == |v|
    requires forall i :: 0 <= i < |u| ==> u[i] == 0.0
    ensures Dot(u, v) == 0.0
  {
    PartialZeroLeft(u, v, |u|);
  }

  lemma {:induction false} PartialZeroLeft(u: seq<real>, v: seq<real>, k: nat)
    requires k <= |u| == |v|
    requires forall i :: 0 <= i < |u| ==> u[i] == 0.0
    ensures PartialDot(u, v, k) == 0.0
  {
    if k > 0 {
      PartialZeroLeft(u, v, k - 1);
    }
  }

  lemma {:induction false} DotZeroRight(u: seq<real>, v: seq<real>)
    requires |u| == |v|
    requires forall i :: 0 <= i < |v| ==> v[i] == 0.0
    ensures Dot(u, v) == 0.0
  {
    PartialZeroRight(u, v, |u|);
  }

  lemma {:induction false} PartialZeroRight(u: seq<real>, v: seq<real>, k: nat)
    requires k <= |u| == |v|
    requires forall i :: 0 <= i < |v| ==> v[i] == 0.0
    ensures PartialDot(u, v, k) == 0.0
  {
    if k > 0 {
      PartialZeroRight(u, v, k - 1);
    }
  }

  lemma {:induction false} DotUnitLeft(m: nat, i: nat, v: seq<real>)
    requires i < m == |v|
    ensures Dot(Unit(m, i), v) == v[i]
  {
    DotZeroLeft(Zeros(m), v);
    DotUpdate(Zeros(m), v, i, 1.0, v[i]);
    assert v[i := v[i]] == v;
  }

  /** The sum of non-negative entries is non-negative, and zero only when
      every entry is. */
  lemma {:induction false} OnesDotNonNegative(v: seq<real>)
    requires forall i :: 0 <= i < |v| ==> v[i] >= 0.0
    ensures Dot(Ones(|v|), v) >= 0.0
    ensures Dot(Ones(|v|), v) == 0.0 ==> forall i :: 0 <= i < |v| ==> v[i] == 0.0
  {
    PartialOnesNonNegative(v, |v|);
  }

  lemma {:induction false} PartialOnesNonNegative(v: seq<real>, k: nat)
    requires k <= |v| && forall i :: 0 <= i < |v| ==> v[i] >= 0.0
    ensures PartialDot(Ones(|v|), v, k) >= 0.0
    ensures PartialDot(Ones(|v|), v, k) == 0.0 ==> forall i :: 0 <= i < k ==> v[i] == 0.0
  {
    if k > 0 {
      PartialOnesNonNegative(v, k - 1);
      assert Ones(|v|)[k - 1] * v[k - 1] == v[k - 1];
    }
  }

  /** Overwriting one position of both factors changes the inner product by
      exactly the difference of that position's products. */
  lemma {:induction false} DotUpdate(u: seq<real>, v: seq<real>, k: nat, a: real, b: real)
    requires |u| == |v| && k < |u|
    ensures Dot(u[k := a], v[k := b]) == Dot(u, v) - u[k] * v[k] + a * b
  {
    PartialUpdate(u, v, k, a, b, |u|);
  }

  lemma {:induction false} PartialUpdate(u: seq<real>, v: seq<real>, k: nat, a: real, b: real, j: nat)
    requires |u| == |v| && k < |u| && j <= |u|
    ensures PartialDot(u[k := a], v[k := b], j)
            == if k < j then PartialDot(u, v, j) - u[k] * v[k] + a * b else PartialDot(u, v, j)
  {
    if j > 0 {
      PartialUpdate(u, v, k, a, b, j - 1);
    }
  }

  /** `u - k v`, entry by entry. */
  function Combine(u: seq<real>, v: seq<real>, k: real): (r: seq<real>)
    requires |u| == |v|
    ensures |r| == |u|
  {
    seq(|u|, i requires 0 <= i < |u| => u[i] - k * v[i])
  }

  /** The inner product is linear in its right factor. */
  lemma {:induction false} DotCombine(w: seq<real>, u: seq<real>, v: seq<real>, k: real)
    requires |w| == |u| == |v|
    ensures Dot(w, Combine(u, v, k)) == Dot(w, u) - k * Dot(w, v)
  {
    PartialCombine(w, u, v, k, |w|);
  }

  lemma {:induction false} PartialCombine(w: seq<real>, u: seq<real>, v: seq<real>, k: real, j: nat)
    requires |w| == |u| == |v| && j <= |w|
    ensures PartialDot(w, Combine(u, v, k), j) == PartialDot(w, u, j) - k * PartialDot(w, v, j)
  {
    if j > 0 {
      PartialCombine(w, u, v, k, j - 1);
      Distribute(w[j - 1], u[j - 1], v[j - 1], k);
    }
  }

  lemma Distribute(a: real, b: real, c: real, k: real)
    ensures a * (b - k * c) == a * b - k * (a * c)
  {}

  /** The inner product with the prefix of length `k` grows by one term. */
  lemma {:induction false} DotPrefix(u: seq<real>, v: seq<real>, k: nat)
    requires |u| == |v| && k < |u|
    ensures Dot(u[..k + 1], v[..k + 1]) == Dot(u[..k], v[..k]) + u[k] * v[k]
  {
    PartialDotFrame(u[..k + 1], v[..k + 1], u[..k], v[..k], k);
  }

  lemma {:induction false} DotAppend(u1: seq<real>, v1: seq<real>, u2: seq<real>, v2: seq<real>)
    requires |u1| == |v1| && |u2| == |v2|
    ensures Dot(u1 + u2, v1 + v2) == Dot(u1, v1) + Dot(u2, v2)
  {
    PartialAppend(u1, v1, u2, v2, |u2|);
  }

  lemma {:induction false} PartialAppend(u1: seq<real>, v1: seq<real>, u2: seq<real>, v2: seq<real>, j: nat)
    requires |u1| == |v1| && |u2| == |v2| && j <= |u2|
    ensures PartialDot(u1 + u2, v1 + v2, |u1| + j) == Dot(u1, v1) + PartialDot(u2, v2, j)
  {
    if j == 0 {
      PartialDotFrame(u1 + u2, v1 + v2, u1, v1, |u1|);
    } else {
      PartialAppend(u1, v1, u2, v2, j - 1);
      assert (u1 + u2)[|u1| + j - 1] == u2[j - 1];
      assert (v1 + v2)[|u1| + j - 1] == v2[j - 1];
    }
  }

  lemma {:induction false} DotFlipLeft(flip: bool, u: seq<real>, v: seq<real>)
    requires |u| == |v|
    ensures Dot(FlipAll(flip, u), v) == Flip(flip, Dot(u, v))
  {
    PartialFlipLeft(flip, u, v, |u|);
  }

  lemma {:induction false} PartialFlipLeft(flip: bool, u: seq<real>, v: seq<real>, j: nat)
    requires |u| == |v| && j <= |u|
    ensures PartialDot(FlipAll(flip, u), v, j) == Flip(flip, PartialDot(u, v, j))
  {
    if j > 0 {
      PartialFlipLeft(flip, u, v, j - 1);
      assert FlipAll(flip, u)[j - 1] * v[j - 1] == Flip(flip, u[j - 1] * v[j - 1]);
    }
  }

  lemma {:induction false} DotScaleLeft(k: real, u: seq<real>, v: seq<real>)
    requires |u| == |v|
    ensures Dot(Scale(k, u), v) == k * Dot(u, v)
  {
    PartialScaleLeft(k, u, v, |u|);
  }

  lemma {:induction false} PartialScaleLeft(k: real, u: seq<real>, v: seq<real>, j: nat)
    requires |u| == |v| && j <= |u|
    ensures PartialDot(Scale(k, u), v, j) == k * PartialDot(u, v, j)
  {
    if j > 0 {
      PartialScaleLeft(k, u, v, j - 1);
      assert Scale(k, u)[j - 1] * v[j - 1] == k * (u[j - 1] * v[j - 1]);
    }
  }

  lemma {:induction false} DotScaleRight(k: real, u: seq<real>, v: seq<real>)
    requires |u| == |v|
    ensures Dot(u, Scale(k, v)) == k * Dot(u, v)
  {
    PartialScaleRight(k, u, v, |u|);
  }

  lemma {:induction false} PartialScaleRight(k: real, u: seq<real>, v: seq<real>, j: nat)
    requires |u| == |v| && j <= |u|
    ensures PartialDot(u, Scale(k, v), j) == k * PartialDot(u, v, j)
  {
    if j > 0 {
      PartialScaleRight(k, u, v, j - 1);
      assert u[j - 1] * Scale(k, v)[j - 1] == k * (u[j - 1] * v[j - 1]);
    }
  }
}

=== FILE: problem.dfy ===
/** The two problem records of the LP engine: the general-form problem as
    the caller builds it, and the canonical problem
    `min c.x  subject to  A x = b, x >= 0` derived from it. */
module Problem {
  import opened Numerics

  /** The relation of one constraint: `<=`, `=` or `>=`. */
  datatype Relation = Le | Eq | Ge

  /** The optimisation direction; `Unset` until the caller chooses one. */
  datatype Direction = Unset | Minimize | Maximize

  datatype Constraint = Constraint(coefficients: seq<real>, relation: Relation, constant: real)

  /** A linear program in general form. `c` has one entry per original
      variable; `nonNegativeVars` lists the indices declared `>= 0` (it may
      repeat an index or name one that does not exist); every other variable
      is free in sign. */
  datatype GeneralProblem = GeneralProblem(
    objective: Direction,
    c: seq<real>,
    constraints: seq<Constraint>,
    nonNegativeVars: seq<int>)

  /** Display labels of canonical columns: `x<i+1>`, `x<i+1>+`, `x<i+1>-`,
      `s<k+1>` and the phase-1 artificials `y<k+1>` (indices are 0-based here). */
  datatype VarLabel =
    | Original(index: nat)
    | PositivePart(index: nat)
    | NegativePart(index: nat)
    | Slack(number: nat)
    | Artificial(number: nat)

  /** A canonical problem. `freeVarMapping` sends each free original variable
      to its (positive part, negative part) columns; `canonicalVarIndices`
      sends every original variable to the list of its columns. */
  datatype CanonicalProblem = CanonicalProblem(
    c: seq<real>,
    A: seq<seq<real>>,
    b: seq<real>,
    varNames: seq<VarLabel>,
    freeVarMapping: map<nat, (nat, nat)>,
    canonicalVarIndices: map<nat, seq<nat>>,
    originalVarCount: nat)

  /** A freshly created general problem: nothing declared yet. */
  function NewGeneralProblem(): (p: GeneralProblem)
    ensures p.objective == Unset
    ensures |p.c| == 0 && |p.constraints| == 0 && |p.nonNegativeVars| == 0
  {
    GeneralProblem(Unset, [], [], [])
  }

  /** Appends one constraint record, verbatim, after all existing ones. */
  function AddConstraint(p: GeneralProblem, coefficients: seq<real>, relation: Relation, constant: real): (q: GeneralProblem)
    ensures |q.constraints| == |p.constraints| + 1
    ensures q.constraints[..|p.constraints|] == p.constraints
    ensures q.constraints[|p.constraints|].coefficients == coefficients
    ensures q.constraints[|p.constraints|].relation == relation
    ensures q.constraints[|p.constraints|].constant == constant
    ensures q.objective == p.objective && q.c == p.c && q.nonNegativeVars == p.nonNegativeVars
  {
    p.(constraints := p.constraints + [Constraint(coefficients, relation, constant)])
  }

  /** A freshly created canonical problem; the source leaves `c`, `A` and `b`
      unset, modelled here as empty. */
  function NewCanonicalProblem(): (cp: CanonicalProblem)
    ensures |cp.c| == 0 && |cp.A| == 0 && |cp.b| == 0 && |cp.varNames| == 0
    ensures cp.freeVarMapping == map[] && cp.canonicalVarIndices == map[]
    ensures cp.originalVarCount == 0
  {
    CanonicalProblem([], [], [], [], map[], map[], 0)
  }

  /** The shape every canonical problem the engine builds has: `A` is
      `|b|` rows of `|c|` entries. */
  predicate WellShaped(cp: CanonicalProblem) {
    |cp.A| == |cp.b| && forall i :: 0 <= i < |cp.A| ==> |cp.A[i]| == |cp.c|
  }

  /** `A x = b` and `x >= 0`. */
  predicate CanonicalFeasible(cp: CanonicalProblem, x: seq<real>) {
    && |x| == |cp.c|
    && |cp.b| == |cp.A|
    && (forall i :: 0 <= i < |cp.A| ==> |cp.A[i]| == |x| && Dot(cp.A[i], x) == cp.b[i])
    && (forall j :: 0 <= j < |x| ==> x[j] >= 0.0)
  }
}

=== FILE: results.dfy ===
/** Success/failure values standing for the exceptions the engine raises. */
module Results {

  datatype Result<+T, +E> = Success(value: T) | Failure(error: E) {
    predicate IsFailure() {
      Failure?
    }

    function PropagateFailure<U>(): Result<U, E>
      requires Failure?
    {
      Failure(error)
    }

    function Extract(): T
      requires Success?
    {
      value
    }
  }

  /** A value that may be absent, as the solver's fields are before a
      successful solve. */
  datatype Option<+T> = None | Some(value: T)

  /** The error conditions of the simplex engine. The source raises all of
      them as the same exception class with different messages; the tag here
      stands for the message. */
  datatype SolveError =
    | BasisSizeMismatch(basisSize: nat, rows: nat)  // tableau built from a basis of the wrong size
    | Unbounded                                     // ratio test found no positive pivot-column entry
    | Infeasible                                    // auxiliary objective did not vanish
    | ArtificialInBasis                             // an artificial variable stayed basic after phase 1
    | IterationLimit                                // phase 2 used up its pivot budget
}

=== FILE: solver.dfy ===
/** The two-phase solver: phase 1 hands over a table under the original
    objective, phase 2 pivots until the optimality test passes or the budget
    runs out, and the solver record keeps the last solution, objective value
    and status across calls. */
module Solver {
  import opened Numerics
  import opened Results
  import opened Problem
  import opened IndexLists
  import opened Tableau
  import opened TableauInvariants
  import opened Auxiliary

  /** The pivot budget of the phase-2 loop. */
  const Phase2Iterations: nat := 100

  /** The solver's status field: "not solved", "solved", "infeasible" and
      "max iterations reached". */
  datatype Status = NotSolved | Solved | InfeasibleProblem | MaxIterationsReached

  datatype SolverState = SolverState(solution: Option<seq<real>>, objectiveValue: Option<real>, status: Status)

  /** A fresh solver: nothing computed yet. */
  function NewSolver(): (s: SolverState)
    ensures s.solution.None? && s.objectiveValue.None? && s.status == NotSolved
  {
    SolverState(None, None, NotSolved)
  }

  /** The phase-2 loop: with budget left, stop at the optimum or exchange the
      chosen pivot; once `fuel` pivots are spent the budget error is raised
      without another optimality test. */
  function Phase2Loop(t: Table, fuel: nat): (r: Result<Table, SolveError>)
    requires Shaped(t)
    decreases fuel
    ensures fuel == 0 ==> r == Failure(IterationLimit)
    ensures fuel > 0 && EstimatesNonNegative(t) ==> r == Success(t)
    ensures r.Failure? ==> r.error == Unbounded || r.error == IterationLimit
    ensures r.Success? ==>
      && Shaped(r.value) && r.value.problem == t.problem && |r.value.basis| == |t.basis|
      && EstimatesNonNegative(r.value)
    ensures r.Success? && Sound(t) ==> Sound(r.value)
  {
    if fuel == 0 then Failure(IterationLimit)
    else
      var choice :- FindPivot(t);
      match choice
      case AtOptimum => Success(t)
      case PivotAt(row, col) =>
        if Sound(t) then PivotKeepsSound(t, row, col); Phase2Loop(Pivot(t, row, col), fuel - 1)
        else Phase2Loop(Pivot(t, row, col), fuel - 1)
  }

  /** One step of phase 2: the table after the exchange the ratio test
      chooses, or `None` when the table passes the optimality test or no
      row is eligible. */
  function Advance(t: Table): (r: Option<Table>)
    ensures r.Some? ==> Shaped(t) && Shaped(r.value) && !EstimatesNonNegative(t)
    ensures Shaped(t) && EstimatesNonNegative(t) ==> r.None?
  {
    if !Shaped(t) then None
    else
      match FindPivot(t)
      case Success(PivotAt(row, col)) => Some(Pivot(t, row, col))
      case _ => None
  }

  /** The tables reached from `t` by `k` steps of `step`; `None` once some
      earlier table has no step. */
  function Iterate(step: Table -> Option<Table>, t: Table, k: nat): Option<Table>
    decreases k
  {
    if k == 0 then Some(t)
    else
      match step(t)
      case Some(u) => Iterate(step, u, k - 1)
      case None => None
  }

  /** Reaching the `k`-th table means every earlier table had a step. */
  lemma {:induction false} IteratePrefix(step: Table -> Option<Table>, t: Table, j: nat, k: nat)
    requires Iterate(step, t, k).Some? && j < k
    ensures Iterate(step, t, j).Some? && step(Iterate(step, t, j).value).Some?
    decreases j
  {
    if j > 0 {
      IteratePrefix(step, step(t).value, j - 1, k - 1);
    }
  }

  /** A property every step keeps holds of every table reached. */
  lemma {:induction false} IterateKeeps(step: Table -> Option<Table>, keeps: Table -> bool, t: Table, k: nat)
    requires keeps(t) && forall u :: step(u).Some? ==> keeps(step(u).value)
    ensures Iterate(step, t, k).Some? ==> keeps(Iterate(step, t, k).value)
    decreases k
  {
    if k > 0 && step(t).Some? {
      IterateKeeps(step, keeps, step(t).value, k - 1);
    }
  }

  /** The tables phase 2 visits from `t`: `t` itself, then the table after
      each chosen exchange. */
  function Visited(t: Table, k: nat): (v: Option<Table>)
    requires Shaped(t)
    ensures v.Some? ==> Shaped(v.value)
  {
    IterateKeeps(Advance, Shaped, t, k);
    Iterate(Advance, t, k)
  }

  /** Reaching the `k`-th table means every earlier table failed the
      optimality test. */
  lemma VisitedPrefix(t: Table, j: nat, k: nat)
    requires Shaped(t) && Visited(t, k).Some? && j < k
    ensures Visited(t, j).Some? && !EstimatesNonNegative(Visited(t, j).value)
  {
    IteratePrefix(Advance, t, j, k);
  }

  /** What a budgeted loop returns, against the tables its step visits,
      knowing only the equations the loop satisfies: stop with the budget
      error once the budget is spent, succeed at a finished table, and
      otherwise take the step or fail unbounded when there is none. */
  lemma {:induction false} LoopVisits(loop: (Table, nat) -> Result<Table, SolveError>, step: Table -> Option<Table>,
                                      done: Table -> bool, t: Table, fuel: nat)
    requires forall u :: loop(u, 0) == Failure(IterationLimit)
    requires forall u, f: nat :: f > 0 && done(u) ==> loop(u, f) == Success(u)
    requires forall u, f: nat :: f > 0 && !done(u) && step(u).Some? ==> loop(u, f) == loop(step(u).value, f - 1)
    requires forall u, f: nat :: f > 0 && !done(u) && step(u).None? ==> loop(u, f) == Failure(Unbounded)
    requires forall u :: step(u).Some? ==> !done(u)
    ensures loop(t, fuel) == Failure(IterationLimit) <==> Iterate(step, t, fuel).Some?
    ensures loop(t, fuel).Success? ==> exists k :: 0 <= k < fuel && Iterate(step, t, k) == Some(loop(t, fuel).value)
    ensures forall k :: 0 <= k < fuel && Iterate(step, t, k).Some? && done(Iterate(step, t, k).value) ==>
      loop(t, fuel) == Success(Iterate(step, t, k).value)
    decreases fuel
  {
    assert Iterate(step, t, 0) == Some(t);
    if fuel > 0 {
      match step(t)
      case Some(t') =>
        LoopVisits(loop, step, done, t', fuel - 1);
        forall k | 0 < k <= fuel
          ensures Iterate(step, t, k) == Iterate(step, t', k - 1)
        {
        }
        if loop(t, fuel).Success? {
          var k' :| 0 <= k' < fuel - 1 && Iterate(step, t', k') == Some(loop(t', fuel - 1).value);
          assert Iterate(step, t, k' + 1) == Iterate(step, t', k');
        }
      case None =>
        forall k | 0 < k <= fuel
          ensures Iterate(step, t, k).None?
        {
        }
    }
  }

  /** A table that passes the optimality test. */
  predicate Finished(t: Table) {
    Shaped(t) && EstimatesNonNegative(t)
  }

  /** `Phase2Loop` extended to every table; an unshaped table has no step. */
  function Phase2Run(t: Table, fuel: nat): Result<Table, SolveError> {
    if Shaped(t) then Phase2Loop(t, fuel)
    else if fuel == 0 then Failure(IterationLimit)
    else Failure(Unbounded)
  }

  /** The loop in terms of one step. */
  lemma Phase2LoopAdvance(t: Table, fuel: nat)
    requires Shaped(t) && fuel > 0
    ensures EstimatesNonNegative(t) ==> Phase2Loop(t, fuel) == Success(t)
    ensures !EstimatesNonNegative(t) && Advance(t).Some? ==> Phase2Loop(t, fuel) == Phase2Run(Advance(t).value, fuel - 1)
    ensures !EstimatesNonNegative(t) && Advance(t).None? ==> Phase2Loop(t, fuel) == Failure(Unbounded)
  {
  }

  /** The equations `LoopVisits` needs, for phase 2. */
  lemma Phase2Equations()
    ensures forall u :: Phase2Run(u, 0) == Failure(IterationLimit)
    ensures forall u, f: nat :: f > 0 && Finished(u) ==> Phase2Run(u, f) == Success(u)
    ensures forall u, f: nat :: f > 0 && !Finished(u) && Advance(u).Some? ==> Phase2Run(u, f) == Phase2Run(Advance(u).value, f - 1)
    ensures forall u, f: nat :: f > 0 && !Finished(u) && Advance(u).None? ==> Phase2Run(u, f) == Failure(Unbounded)
    ensures forall u :: Advance(u).Some? ==> !Finished(u)
  {
    forall u, f: nat | f > 0 && Shaped(u)
      ensures Phase2Run(u, f) == if EstimatesNonNegative(u) then Success(u)
                                 else if Advance(u).Some? then Phase2Run(Advance(u).value, f - 1)
                                 else Failure(Unbounded)
    {
      Phase2LoopAdvance(u, f);
    }
  }

  /** What the loop returns, against the tables it visits: the budget error
      exactly when all `fuel` exchanges happened, which by `VisitedPrefix`
      means none of the `fuel` tables tested was optimal; success exactly
      when one of the first `fuel` tables passes the optimality test, and
      then with the first such table. */
  lemma Phase2LoopVisits(t: Table, fuel: nat)
    requires Shaped(t)
    ensures Phase2Loop(t, fuel) == Failure(IterationLimit) <==> Visited(t, fuel).Some?
    ensures Phase2Loop(t, fuel).Success? ==>
      exists k :: 0 <= k < fuel && Visited(t, k) == Some(Phase2Loop(t, fuel).value)
    ensures forall k :: 0 <= k < fuel && Visited(t, k).Some? && EstimatesNonNegative(Visited(t, k).value) ==>
      Phase2Loop(t, fuel) == Success(Visited(t, k).value)
  {
    Phase2Equations();
    LoopVisits(Phase2Run, Advance, Finished, t, fuel);
    assert Phase2Run(t, fuel) == Phase2Loop(t, fuel);
    if Phase2Loop(t, fuel).Success? {
      var k :| 0 <= k < fuel && Iterate(Advance, t, k) == Some(Phase2Run(t, fuel).value);
      assert Visited(t, k) == Some(Phase2Loop(t, fuel).value);
    }
  }

  /** One call of the solver on a canonical problem: the new solver record
      and either the solution with its objective value or the error raised.
      A phase-1 error marks the problem infeasible; an unbounded phase 2
      leaves the record as it was; a spent budget marks it so. */
  function Solve(s: SolverState, cp: CanonicalProblem): (r: (SolverState, Result<(seq<real>, real), SolveError>))
    requires WellShaped(cp)
    ensures SolvePhase1(cp).Failure? ==>
      r.0 == s.(status := InfeasibleProblem) && r.1 == Failure(SolvePhase1(cp).error)
    ensures SolvePhase1(cp).Success? && r.1 == Failure(Unbounded) ==> r.0 == s
    ensures SolvePhase1(cp).Success? && r.1 == Failure(IterationLimit) ==> r.0 == s.(status := MaxIterationsReached)
    ensures SolvePhase1(cp).Success? && r.1.Failure? ==> r.1.error == Unbounded || r.1.error == IterationLimit
    ensures r.1.Success? ==>
      && r.0 == SolverState(Some(r.1.value.0), Some(r.1.value.1), Solved)
      && |r.1.value.0| == |cp.c|
  {
    SolvePhase1IsSound(cp);
    match SolvePhase1(cp)
    case Failure(e) => (s.(status := InfeasibleProblem), Failure(e))
    case Success(t) =>
      match Phase2Loop(t, Phase2Iterations)
      case Failure(e) =>
        if e == Unbounded then (s, Failure(e)) else (s.(status := MaxIterationsReached), Failure(e))
      case Success(final) =>
        var sol := GetSolution(final);
        (SolverState(Some(sol.0), Some(sol.1), Solved), Success(sol))
  }

  /** When a solve hits the iteration limit and when it succeeds, against
      the tables phase 2 visits from the table phase 1 hands over: the limit
      exactly when all 100 exchanges happened, so by `VisitedPrefix` none of
      the 100 tables tested passed the optimality test; and the basic
      solution of the first table among them that passes it, with status
      "solved", otherwise. */
  lemma SolveFollowsVisits(s: SolverState, cp: CanonicalProblem, t: Table)
    requires WellShaped(cp) && SolvePhase1(cp) == Success(t)
    ensures Shaped(t)
    ensures Solve(s, cp).1 == Failure(IterationLimit) <==> Visited(t, Phase2Iterations).Some?
    ensures forall k :: 0 <= k < Phase2Iterations && Visited(t, k).Some? && EstimatesNonNegative(Visited(t, k).value) ==>
      && Phase2Loop(t, Phase2Iterations) == Success(Visited(t, k).value)
      && Solve(s, cp).1.Success? && Solve(s, cp).0.status == Solved
  {
    Phase2LoopVisits(t, Phase2Iterations);
  }

  /** What a successful solve certifies: the solution is the basic solution
      of a sound table under the original objective whose estimates pass the
      optimality test, every non-basic variable is zero, and the reported
      objective value is the objective at the solution. */
  lemma {:induction false} SolveIsOptimalBasicSolution(s: SolverState, cp: CanonicalProblem)
    requires WellShaped(cp)
    ensures Solve(s, cp).1.Success? ==>
      var (x, z) := Solve(s, cp).1.value;
      && SolvePhase1(cp).Success?
      && Phase2Loop(SolvePhase1(cp).value, Phase2Iterations).Success?
      && var final := Phase2Loop(SolvePhase1(cp).value, Phase2Iterations).value;
      && Sound(final) && final.problem.c == cp.c && EstimatesNonNegative(final)
      && GetSolution(final) == (x, z)
      && (forall v :: 0 <= v < |cp.c| && v !in final.basis ==> x[v] == 0.0)
      && (forall i :: 0 <= i < |final.basis| ==> x[final.basis[i]] == final.cells[i][|final.free|])
      && z == Dot(cp.c, x)
  {
    if Solve(s, cp).1.Success? {
      SolvePhase1IsSound(cp);
      var final := Phase2Loop(SolvePhase1(cp).value, Phase2Iterations).value;
      BasicSolution(final);
    }
  }
}

=== FILE: tableau.dfy ===
/** The compact simplex tableau over a canonical problem: basic and free
    column lists, a table with one row per basic variable plus the
    estimates (reduced-cost) row, and one column per free variable plus the
    right-hand side. */
module Tableau {
  import opened Numerics
  import opened Results
  import opened Problem
  import opened IndexLists

  datatype Table = Table(problem: CanonicalProblem, basis: seq<nat>, free: seq<nat>, cells: seq<seq<real>>)

  /** `|basis| + 1` rows of `|free| + 1` cells. */
  predicate Shaped(t: Table) {
    IsMatrix(t.cells, |t.basis| + 1, |t.free| + 1)
  }

  /** Every basic and free column number selects an objective coefficient. */
  predicate IndexedBy(basis: seq<nat>, free: seq<nat>, n: nat) {
    AllBelow(basis, n) && AllBelow(free, n)
  }

  /** The objective coefficients of the basic variables, row by row. */
  function CostsOf(c: seq<real>, basis: seq<nat>): (cb: seq<real>)
    requires AllBelow(basis, |c|)
    ensures |cb| == |basis|
  {
    seq(|basis|, i requires 0 <= i < |basis| => c[basis[i]])
  }

  /** Column `j` of the first `m` rows. */
  function BodyColumn(cells: seq<seq<real>>, m: nat, j: nat): (col: seq<real>)
    requires m <= |cells| && forall i :: 0 <= i < m ==> j < |cells[i]|
    ensures |col| == m
  {
    seq(m, i requires 0 <= i < m => cells[i][j])
  }

  /** The estimate of table column `j`: the objective coefficient of the free
      variable there (zero for the right-hand side column) minus the basic
      costs weighted by the column. */
  function Estimate(c: seq<real>, basis: seq<nat>, free: seq<nat>, cells: seq<seq<real>>, j: nat): real
    requires IndexedBy(basis, free, |c|) && |basis| <= |cells| && j <= |free|
    requires forall i :: 0 <= i < |basis| ==> j < |cells[i]|
  {
    (if j < |free| then c[free[j]] else 0.0) - Dot(CostsOf(c, basis), BodyColumn(cells, |basis|, j))
  }

  /** The estimates of every column, computed from the first `|basis|` rows. */
  function Estimates(c: seq<real>, basis: seq<nat>, free: seq<nat>, cells: seq<seq<real>>): (row: seq<real>)
    requires IndexedBy(basis, free, |c|) && |basis| <= |cells|
    requires forall i :: 0 <= i < |basis| ==> |cells[i]| == |free| + 1
    ensures |row| == |free| + 1
  {
    seq(|free| + 1, j requires 0 <= j <= |free| => Estimate(c, basis, free, cells, j))
  }

  /** The estimates row agrees with the objective and the current basis. */
  predicate Consistent(t: Table) {
    && Shaped(t)
    && IndexedBy(t.basis, t.free, |t.problem.c|)
    && t.cells[|t.basis|] == Estimates(t.problem.c, t.basis, t.free, t.cells)
  }

  /** The estimates read only the first `m` rows. */
  lemma {:induction false} EstimatesFrame(c: seq<real>, basis: seq<nat>, free: seq<nat>, cells: seq<seq<real>>, more: seq<seq<real>>)
    requires IndexedBy(basis, free, |c|) && |basis| == |cells|
    requires forall i :: 0 <= i < |basis| ==> |cells[i]| == |free| + 1
    ensures Estimates(c, basis, free, cells + more) == Estimates(c, basis, free, cells)
  {
    forall j | 0 <= j <= |free|
      ensures Estimate(c, basis, free, cells + more, j) == Estimate(c, basis, free, cells, j)
    {
      assert BodyColumn(cells + more, |basis|, j) == BodyColumn(cells, |basis|, j);
    }
  }

  /** The estimates the way the source accumulates them: start from the free
      variable's cost (zero for the right-hand side) and subtract each basic
      row's contribution in turn. */
  method RecalculateEstimates(c: seq<real>, basis: seq<nat>, free: seq<nat>, cells: seq<seq<real>>) returns (row: seq<real>)
    requires IndexedBy(basis, free, |c|) && |basis| <= |cells|
    requires forall i :: 0 <= i < |basis| ==> |cells[i]| == |free| + 1
    ensures row == Estimates(c, basis, free, cells)
  {
    row := [];
    var j := 0;
    while j < |free| + 1
      invariant j <= |free| + 1 && |row| == j
      invariant forall q :: 0 <= q < j ==> row[q] == Estimate(c, basis, free, cells, q)
    {
      var delta := if j < |free| then c[free[j]] else 0.0;
      var i := 0;
      while i < |basis|
        invariant i <= |basis|
        invariant delta == (if j < |free| then c[free[j]] else 0.0)
                           - PartialDot(CostsOf(c, basis), BodyColumn(cells, |basis|, j), i)
      {
        delta := delta - c[basis[i]] * cells[i][j];
        i := i + 1;
      }
      row := row + [delta];
      j := j + 1;
    }
  }

  /** Builds the tableau for `basis`: the free columns are every other
      column in increasing order, the body copies `A` at the free columns
      and `b`, and the estimates are computed from `c`. */
  function Build(p: CanonicalProblem, basis: seq<nat>): (r: Result<Table, SolveError>)
    requires WellShaped(p) && AllBelow(basis, |p.c|)
    ensures r.Failure? <==> |basis| != |p.A|
    ensures r.Failure? ==> r.error == BasisSizeMismatch(|basis|, |p.A|)
    ensures r.Success? ==>
      var t := r.value;
      && t.problem == p && t.basis == basis && Consistent(t)
      && (forall x: nat :: x in t.free <==> x < |p.c| && x !in basis)
      && StrictlyIncreasing(t.free)
      && (forall i, j :: 0 <= i < |basis| && 0 <= j < |t.free| ==> t.cells[i][j] == p.A[i][t.free[j]])
      && (forall i :: 0 <= i < |basis| ==> t.cells[i][|t.free|] == p.b[i])
  {
    var free := Complement(basis, |p.c|);
    if |basis| != |p.A| then Failure(BasisSizeMismatch(|basis|, |p.A|))
    else
      var body := seq(|basis|, i requires 0 <= i < |basis| =>
                    seq(|free|, j requires 0 <= j < |free| => p.A[i][free[j]]) + [p.b[i]]);
      EstimatesFrame(p.c, basis, free, body, [Estimates(p.c, basis, free, body)]);
      Success(Table(p, basis, free, body + [Estimates(p.c, basis, free, body)]))
  }

  /* ---------- choosing the pivot ---------- */

  /** A ratio of the leaving-row test: a real, or infinity for a row that
      cannot bound the entering variable. */
  datatype Extended = Finite(value: real) | Infinite

  /** Strictly smaller, infinity being above every real. */
  predicate Below(a: Extended, b: Extended) {
    a.Finite? && (b.Infinite? || a.value < b.value)
  }

  /** The first position of a smallest entry. */
  function FirstArgMin(s: seq<Extended>): (k: nat)
    requires |s| > 0
    ensures k < |s|
    ensures forall i :: 0 <= i < |s| ==> !Below(s[i], s[k])
    ensures forall i :: 0 <= i < k ==> Below(s[k], s[i])
  {
    if |s| == 1 then 0
    else
      var k := FirstArgMin(s[..|s| - 1]);
      assert forall i :: 0 <= i < |s| - 1 ==> s[..|s| - 1][i] == s[i];
      if Below(s[|s| - 1], s[k]) then |s| - 1 else k
  }

  datatype Choice = AtOptimum | PivotAt(row: nat, col: nat)

  /** The estimates row without its right-hand-side cell. */
  function CostRow(t: Table): (d: seq<real>)
    requires Shaped(t)
    ensures |d| == |t.free|
  {
    t.cells[|t.basis|][..|t.free|]
  }

  /** No estimate lies below minus the pivot tolerance: the stopping test. */
  predicate EstimatesNonNegative(t: Table)
    requires Shaped(t)
  {
    forall j :: 0 <= j < |t.free| ==> t.cells[|t.basis|][j] >= -PivotTolerance
  }

  /** The entering column: the first position of a smallest estimate. */
  function EnteringColumn(t: Table): (col: nat)
    requires Shaped(t) && |t.free| > 0
    ensures col < |t.free|
    ensures forall j :: 0 <= j < |t.free| ==> t.cells[|t.basis|][col] <= t.cells[|t.basis|][j]
    ensures forall j :: 0 <= j < col ==> t.cells[|t.basis|][col] < t.cells[|t.basis|][j]
  {
    var d := CostRow(t);
    var s := seq(|d|, j requires 0 <= j < |d| => Finite(d[j]));
    var col := FirstArgMin(s);
    assert forall j :: 0 <= j < |d| ==> s[j] == Finite(t.cells[|t.basis|][j]);
    col
  }

  /** A row takes part in the ratio test when its entry in the column exceeds
      the pivot tolerance. */
  predicate Eligible(t: Table, i: nat, col: nat)
    requires Shaped(t) && i < |t.basis| && col < |t.free|
  {
    t.cells[i][col] > PivotTolerance
  }

  /** Right-hand side over the column entry, for an eligible row. */
  function Ratio(t: Table, i: nat, col: nat): real
    requires Shaped(t) && i < |t.basis| && col < |t.free| && Eligible(t, i, col)
  {
    t.cells[i][|t.free|] / t.cells[i][col]
  }

  function Ratios(t: Table, col: nat): (s: seq<Extended>)
    requires Shaped(t) && col < |t.free|
    ensures |s| == |t.basis|
    ensures forall i :: 0 <= i < |s| ==> (s[i].Finite? <==> Eligible(t, i, col))
    ensures forall i :: 0 <= i < |s| && Eligible(t, i, col) ==> s[i].value == Ratio(t, i, col)
  {
    seq(|t.basis|, i requires 0 <= i < |t.basis| =>
      if Eligible(t, i, col) then Finite(Ratio(t, i, col)) else Infinite)
  }

  /** The source's pivot choice: optimal when no estimate is below minus the
      tolerance; otherwise the first smallest estimate enters and the first
      eligible row of smallest ratio leaves; unbounded when no row is
      eligible. */
  function FindPivot(t: Table): (r: Result<Choice, SolveError>)
    requires Shaped(t)
    ensures r == Success(AtOptimum) <==> EstimatesNonNegative(t)
    ensures r.Failure? <==>
      !EstimatesNonNegative(t) && forall i :: 0 <= i < |t.basis| ==> !Eligible(t, i, EnteringColumn(t))
    ensures r.Failure? ==> r.error == Unbounded
    ensures r.Success? && r.value.PivotAt? ==>
      var row, col := r.value.row, r.value.col;
      && col == EnteringColumn(t)
      && t.cells[|t.basis|][col] < -PivotTolerance
      && row < |t.basis| && Eligible(t, row, col)
      && (forall i :: 0 <= i < |t.basis| && Eligible(t, i, col) ==> Ratio(t, row, col) <= Ratio(t, i, col))
      && (forall i :: 0 <= i < row && Eligible(t, i, col) ==> Ratio(t, row, col) < Ratio(t, i, col))
  {
    if EstimatesNonNegative(t) then Success(AtOptimum)
    else
      var col := EnteringColumn(t);
      var ratios := Ratios(t, col);
      if forall i :: 0 <= i < |ratios| ==> ratios[i].Infinite? then Failure(Unbounded)
      else
        var row := FirstArgMin(ratios);
        Success(PivotAt(row, col))
  }

  /* ---------- the exchange ---------- */

  /** The pivot row after the exchange: the pivot cell becomes its
      reciprocal and every other cell is divided by the pivot. */
  function PivotRow(prow: seq<real>, c: nat): (r: seq<real>)
    requires c < |prow| && prow[c] != 0.0
    ensures |r| == |prow|
  {
    seq(|prow|, j requires 0 <= j < |prow| => if j == c then 1.0 / prow[c] else prow[j] / prow[c])
  }

  /** Any other row after the exchange: its pivot-column cell becomes minus
      itself over the pivot, and every other cell loses the pivot row's cell
      times its own pivot-column cell over the pivot. */
  function EliminateRow(row: seq<real>, prow: seq<real>, c: nat): (r: seq<real>)
    requires |row| == |prow| && c < |prow| && prow[c] != 0.0
    ensures |r| == |row|
  {
    seq(|row|, j requires 0 <= j < |row| =>
      if j == c then -row[c] / prow[c] else row[j] - (prow[j] * row[c]) / prow[c])
  }

  /** The Gauss-Jordan exchange of basic row `r` with free column `c`. */
  function Pivot(t: Table, r: nat, c: nat): (t': Table)
    requires Shaped(t) && r < |t.basis| && c < |t.free| && t.cells[r][c] != 0.0
    ensures Shaped(t') && t'.problem == t.problem
    ensures |t'.basis| == |t.basis| && |t'.free| == |t.free|
    ensures t'.cells[r][c] == 1.0 / t.cells[r][c]
  {
    var prow := t.cells[r];
    Table(
      t.problem,
      t.basis[r := t.free[c]],
      t.free[c := t.basis[r]],
      seq(|t.cells|, i requires 0 <= i < |t.cells| =>
        if i == r then PivotRow(prow, c) else EliminateRow(t.cells[i], prow, c)))
  }

  /* ---------- replacing the objective, pruning columns, reading off ---------- */

  /** Installs a new objective and labels and recomputes the estimates row;
      the body rows and the index lists stay as they are. */
  function ReplaceObjective(t: Table, c: seq<real>, names: seq<VarLabel>): (t': Table)
    requires Shaped(t) && IndexedBy(t.basis, t.free, |c|)
    ensures Consistent(t')
    ensures t'.problem == t.problem.(c := c, varNames := names)
    ensures t'.basis == t.basis && t'.free == t.free
    ensures t'.cells[..|t.basis|] == t.cells[..|t.basis|]
  {
    var m := |t.basis|;
    var row := Estimates(c, t.basis, t.free, t.cells);
    var t' := Table(t.problem.(c := c, varNames := names), t.basis, t.free, t.cells[m := row]);
    EstimatesFrame(c, t.basis, t.free, t.cells[..m], [t.cells[m]]);
    EstimatesFrame(c, t.basis, t.free, t.cells[..m], [row]);
    assert t.cells[..m] + [t.cells[m]] == t.cells;
    assert t.cells[..m] + [row] == t'.cells;
    t'
  }

  /** Deletes every free column whose variable number is `n` or more,
      keeping the right-hand side and the order of the other columns. */
  function RemoveAuxiliaryColumns(t: Table, n: nat): (t': Table)
    requires Shaped(t)
    ensures Shaped(t') && t'.problem == t.problem && t'.basis == t.basis
    ensures forall x: nat :: x in t'.free <==> x in t.free && x < n
    ensures AllBelow(t'.free, n)
    ensures var kept := Kept(t.free, n, |t.free|);
      && |t'.free| == |kept|
      && (forall q :: 0 <= q < |kept| ==> t'.free[q] == t.free[kept[q]])
      && (forall i, q :: 0 <= i <= |t.basis| && 0 <= q < |kept| ==> t'.cells[i][q] == t.cells[i][kept[q]])
      && (forall i :: 0 <= i <= |t.basis| ==> t'.cells[i][|kept|] == t.cells[i][|t.free|])
  {
    var kept := Kept(t.free, n, |t.free|);
    var k := |t.free|;
    KeptMembers(t.free, n);
    var free := seq(|kept|, q requires 0 <= q < |kept| => t.free[kept[q]]);
    var cells := seq(|t.cells|, i requires 0 <= i < |t.cells| =>
                   seq(|kept|, q requires 0 <= q < |kept| => t.cells[i][kept[q]]) + [t.cells[i][k]]);
    assert forall i :: 0 <= i < |t.cells| ==> |cells[i]| == |kept| + 1;
    assert forall i, q :: 0 <= i < |t.cells| && 0 <= q < |kept| ==> cells[i][q] == t.cells[i][kept[q]];
    Table(t.problem, t.basis, free, cells)
  }

  /** The entries `s[j]` at the kept positions `j` are exactly the entries
      of `s` below `n`. */
  lemma KeptMembers(s: seq<nat>, n: nat)
    ensures var kept := Kept(s, n, |s|);
      forall x: nat :: x in seq(|kept|, q requires 0 <= q < |kept| => s[kept[q]]) <==> x in s && x < n
  {
    var kept := Kept(s, n, |s|);
    var f := seq(|kept|, q requires 0 <= q < |kept| => s[kept[q]]);
    forall x: nat | x in s && x < n
      ensures x in f
    {
      var j :| 0 <= j < |s| && s[j] == x;
      assert j in kept;
      var q :| 0 <= q < |kept| && kept[q] == j;
      assert f[q] == x;
    }
  }

  /** The current basic solution and objective value: each basic variable
      takes its row's right-hand side, every other variable is zero, and the
      objective is minus the estimates row's right-hand-side cell. */
  function GetSolution(t: Table): (sol: (seq<real>, real))
    requires Shaped(t) && AllBelow(t.basis, |t.problem.c|)
    ensures |sol.0| == |t.problem.c|
    ensures sol.1 == -t.cells[|t.basis|][|t.free|]
  {
    (Scatter(t.basis, Rhs(t), |t.problem.c|), -t.cells[|t.basis|][|t.free|])
  }

  /** The right-hand side of every basic row. */
  function Rhs(t: Table): (b: seq<real>)
    requires Shaped(t)
    ensures |b| == |t.basis|
  {
    BodyColumn(t.cells, |t.basis|, |t.free|)
  }
}

=== FILE: tableau_invariants.dfy ===
/** The invariant both simplex phases keep — the estimates row agrees with
    the objective and the basis, and no column number is listed twice among
    the basic and free variables — and what it says about the basic
    solution read off a table. */
module TableauInvariants {
  import opened Numerics
  import opened Results
  import opened Problem
  import opened IndexLists
  import opened Tableau
  import opened TableauProperties

  /** A consistent table whose basic and free lists do not overlap or repeat. */
  predicate Sound(t: Table) {
    Consistent(t) && Distinct(t.basis + t.free)
  }

  lemma {:induction false} DistinctParts(s: seq<nat>, u: seq<nat>)
    requires Distinct(s + u)
    ensures Distinct(s) && Distinct(u)
    ensures forall x :: x in s ==> x !in u
  {
    assert forall i :: 0 <= i < |s| ==> (s + u)[i] == s[i];
    assert forall j :: 0 <= j < |u| ==> (s + u)[|s| + j] == u[j];
    forall i, j | 0 <= i < |s| && 0 <= j < |u|
      ensures s[i] != u[j]
    {
      assert (s + u)[i] == s[i] && (s + u)[|s| + j] == u[j];
    }
  }

  lemma {:induction false} DistinctJoin(s: seq<nat>, u: seq<nat>)
    requires Distinct(s) && Distinct(u)
    requires forall x :: x in s ==> x !in u
    ensures Distinct(s + u)
  {
    forall i, j | 0 <= i < j < |s + u|
      ensures (s + u)[i] != (s + u)[j]
    {
      if j >= |s| && i < |s| {
        assert (s + u)[i] == s[i] && (s + u)[j] == u[j - |s|];
        assert s[i] in s;
      }
    }
  }

  /* ---------- the starting table ---------- */

  /** Built from a basis without repeats, the table lists every column
      exactly once among its basic and free variables. */
  lemma {:induction false} BuildIsSound(p: CanonicalProblem, basis: seq<nat>)
    requires WellShaped(p) && AllBelow(basis, |p.c|) && Distinct(basis)
    requires Build(p, basis).Success?
    ensures Sound(Build(p, basis).value)
    ensures forall x: nat :: x in Build(p, basis).value.basis + Build(p, basis).value.free <==> x < |p.c|
  {
    var t := Build(p, basis).value;
    IncreasingIsDistinct(t.free);
    DistinctJoin(basis, t.free);
    forall x: nat | x < |p.c|
      ensures x in basis + t.free
    {
      if x !in basis {
        assert x in t.free;
      }
    }
  }

  /* ---------- pruning free columns ---------- */

  /** A table `t'` whose free columns are the columns `kept` of `t`, in that
      order, with the same right-hand side, is consistent again. */
  lemma {:induction false} SelectedColumnsConsistent(t: Table, t': Table, kept: seq<nat>)
    requires Consistent(t) && Shaped(t') && t'.problem == t.problem && t'.basis == t.basis
    requires |t'.free| == |kept| && AllBelow(kept, |t.free|)
    requires forall q :: 0 <= q < |kept| ==> t'.free[q] == t.free[kept[q]]
    requires forall i, q :: 0 <= i <= |t.basis| && 0 <= q < |kept| ==> t'.cells[i][q] == t.cells[i][kept[q]]
    requires forall i :: 0 <= i <= |t.basis| ==> t'.cells[i][|kept|] == t.cells[i][|t.free|]
    ensures Consistent(t')
  {
    var m, C := |t.basis|, t.problem.c;
    assert IndexedBy(t'.basis, t'.free, |C|);
    forall q | 0 <= q <= |kept|
      ensures t'.cells[m][q] == Estimate(C, t'.basis, t'.free, t'.cells, q)
    {
      var j := if q < |kept| then kept[q] else |t.free|;
      assert BodyColumn(t'.cells, m, q) == BodyColumn(t.cells, m, j);
      assert t.cells[m][j] == Estimate(C, t.basis, t.free, t.cells, j);
    }
  }

  /** Picking the entries at strictly increasing positions keeps them
      distinct and inside the original list. */
  lemma {:induction false} SelectedDistinct(s: seq<nat>, kept: seq<nat>, u: seq<nat>)
    requires Distinct(s) && StrictlyIncreasing(kept) && AllBelow(kept, |s|)
    requires |u| == |kept| && forall q :: 0 <= q < |kept| ==> u[q] == s[kept[q]]
    ensures Distinct(u)
    ensures forall x :: x in u ==> x in s
  {
    forall x | x in u
      ensures x in s
    {
      var q :| 0 <= q < |u| && u[q] == x;
      assert s[kept[q]] == x;
    }
  }

  /** Deleting the free columns at or above `n` keeps a table sound, and no
      free column at or above `n` remains. */
  lemma {:induction false} RemoveKeepsSound(t: Table, n: nat)
    requires Sound(t)
    ensures Sound(RemoveAuxiliaryColumns(t, n))
    ensures AllBelow(RemoveAuxiliaryColumns(t, n).free, n)
  {
    var t' := RemoveAuxiliaryColumns(t, n);
    var kept := Kept(t.free, n, |t.free|);
    SelectedColumnsConsistent(t, t', kept);
    DistinctParts(t.basis, t.free);
    SelectedDistinct(t.free, kept, t'.free);
    DistinctJoin(t.basis, t'.free);
  }

  /* ---------- the exchange ---------- */

  /** The exchange keeps a table sound and lists the same column numbers. */
  lemma {:induction false} PivotKeepsSound(t: Table, r: nat, c: nat)
    requires Sound(t) && r < |t.basis| && c < |t.free| && t.cells[r][c] != 0.0
    ensures Sound(Pivot(t, r, c))
    ensures forall x :: x in Pivot(t, r, c).basis + Pivot(t, r, c).free <==> x in t.basis + t.free
  {
    PivotKeepsConsistent(t, r, c);
    PivotKeepsPartition(t, r, c, |t.problem.c|);
  }

  /* ---------- reading off the basic solution ---------- */

  /** Scattering distinct positions: the objective weights the values by the
      costs at their positions. */
  lemma {:induction false} ScatterDot(c: seq<real>, idx: seq<nat>, vals: seq<real>)
    requires |idx| == |vals| && AllBelow(idx, |c|) && Distinct(idx)
    ensures Dot(c, Scatter(idx, vals, |c|)) == Dot(CostsOf(c, idx), vals)
  {
    if |idx| == 0 {
      DotZeroRight(c, Zeros(|c|));
    } else {
      var k := |idx| - 1;
      var x, v := idx[k], vals[k];
      var s := Scatter(idx[..k], vals[..k], |c|);
      ScatterDot(c, idx[..k], vals[..k]);
      ScatterAt(idx[..k], vals[..k], |c|);
      assert x !in idx[..k];
      assert s[x] == 0.0;
      DotUpdate(c, s, x, c[x], v);
      assert c[x := c[x]] == c;
      assert CostsOf(c, idx) == CostsOf(c, idx[..k]) + [c[x]];
      assert vals == vals[..k] + [v];
      DotSnoc(CostsOf(c, idx[..k]), vals[..k], c[x], v);
      assert Scatter(idx, vals, |c|) == s[x := v];
    }
  }

  /** The basic solution of a sound table: every basic variable holds its
      row's right-hand side, every other variable is zero, and the reported
      objective value is the objective at that point. */
  lemma {:induction false} BasicSolution(t: Table)
    requires Sound(t)
    ensures var (x, z) := GetSolution(t);
      && (forall i :: 0 <= i < |t.basis| ==> x[t.basis[i]] == t.cells[i][|t.free|])
      && (forall v :: 0 <= v < |t.problem.c| && v !in t.basis ==> x[v] == 0.0)
      && z == Dot(t.problem.c, x)
  {
    var m, k, C := |t.basis|, |t.free|, t.problem.c;
    DistinctParts(t.basis, t.free);
    ScatterAt(t.basis, Rhs(t), |C|);
    ScatterDot(C, t.basis, Rhs(t));
    assert t.cells[m][k] == Estimate(C, t.basis, t.free, t.cells, k);
  }
}

=== FILE: tableau_properties.dfy ===
/** What the tableau operations preserve: the exchange undoes itself, keeps
    the basic and free lists a partition, keeps the right-hand side
    non-negative and never raises the objective when the ratio test chose the
    pivot, and keeps the estimates row in step with the basis. */
module TableauProperties {
  import opened Numerics
  import opened Results
  import opened Problem
  import opened IndexLists
  import opened Tableau

  /* ---------- the exchange undoes itself ---------- */

  lemma ReciprocalTwice(a: real)
    requires a != 0.0
    ensures 1.0 / a != 0.0 && 1.0 / (1.0 / a) == a
  {
  }

  lemma DivideTwice(x: real, a: real)
    requires a != 0.0
    ensures (x / a) / (1.0 / a) == x
  {
    assert (x / a) * a == x;
  }

  lemma NegateTwice(x: real, a: real)
    requires a != 0.0
    ensures -(-x / a) / (1.0 / a) == x
  {
    DivideTwice(-x, a);
  }

  /** Eliminating with the pivoted row adds back what eliminating with the
      original row took away. */
  lemma EliminateTwice(y: real, p: real, x: real, a: real)
    requires a != 0.0
    ensures (y - (p * x) / a) - ((p / a) * (-x / a)) / (1.0 / a) == y
  {
    assert ((p / a) * (-x / a)) / (1.0 / a) == -(p * x) / a by {
      assert (p / a) * (-x / a) * a == -(p * x) / a;
    }
  }

  lemma {:induction false} PivotRowTwice(prow: seq<real>, c: nat)
    requires c < |prow| && prow[c] != 0.0
    ensures PivotRow(prow, c)[c] != 0.0 && PivotRow(PivotRow(prow, c), c) == prow
  {
    var a := prow[c];
    ReciprocalTwice(a);
    forall j | 0 <= j < |prow|
      ensures PivotRow(PivotRow(prow, c), c)[j] == prow[j]
    {
      if j != c {
        DivideTwice(prow[j], a);
      }
    }
  }

  lemma {:induction false} EliminateRowTwice(row: seq<real>, prow: seq<real>, c: nat)
    requires |row| == |prow| && c < |prow| && prow[c] != 0.0
    ensures PivotRow(prow, c)[c] != 0.0
    ensures EliminateRow(EliminateRow(row, prow, c), PivotRow(prow, c), c) == row
  {
    var a := prow[c];
    ReciprocalTwice(a);
    var once := EliminateRow(row, prow, c);
    forall j | 0 <= j < |row|
      ensures EliminateRow(once, PivotRow(prow, c), c)[j] == row[j]
    {
      if j == c {
        NegateTwice(row[c], a);
      } else {
        EliminateTwice(row[j], prow[j], row[c], a);
      }
    }
  }

  /** With exact arithmetic, exchanging the same row and column twice
      restores the table and both index lists. */
  lemma {:induction false} PivotTwice(t: Table, r: nat, c: nat)
    requires Shaped(t) && r < |t.basis| && c < |t.free| && t.cells[r][c] != 0.0
    ensures Pivot(t, r, c).cells[r][c] != 0.0
    ensures Pivot(Pivot(t, r, c), r, c) == t
  {
    var once := Pivot(t, r, c);
    PivotRowTwice(t.cells[r], c);
    forall i | 0 <= i < |t.cells|
      ensures Pivot(once, r, c).cells[i] == t.cells[i]
    {
      if i != r {
        EliminateRowTwice(t.cells[i], t.cells[r], c);
      }
    }
  }

  /* ---------- the index lists stay a partition ---------- */

  /** The exchange swaps basis entry `r` with free entry `c`: no column is
      lost, none is duplicated, and every column number stays in range. */
  lemma {:induction false} PivotKeepsPartition(t: Table, r: nat, c: nat, n: nat)
    requires Shaped(t) && r < |t.basis| && c < |t.free| && t.cells[r][c] != 0.0
    ensures var t' := Pivot(t, r, c);
      && t'.basis[r] == t.free[c] && t'.free[c] == t.basis[r]
      && (forall i :: 0 <= i < |t.basis| && i != r ==> t'.basis[i] == t.basis[i])
      && (forall j :: 0 <= j < |t.free| && j != c ==> t'.free[j] == t.free[j])
      && (forall x :: x in t'.basis + t'.free <==> x in t.basis + t.free)
      && (Distinct(t.basis + t.free) ==> Distinct(t'.basis + t'.free))
      && (IndexedBy(t.basis, t.free, n) ==> IndexedBy(t'.basis, t'.free, n))
  {
    var t' := Pivot(t, r, c);
    var s, s' := t.basis + t.free, t'.basis + t'.free;
    var m := |t.basis|;
    assert forall q :: 0 <= q < |s| && q != r && q != m + c ==> s'[q] == s[q];
    assert s'[r] == s[m + c] && s'[m + c] == s[r];
    forall x | x in s
      ensures x in s'
    {
      var q :| 0 <= q < |s| && s[q] == x;
      if q == r {
        assert s'[m + c] == x;
      } else if q == m + c {
        assert s'[r] == x;
      } else {
        assert s'[q] == x;
      }
    }
    forall x | x in s'
      ensures x in s
    {
      var q :| 0 <= q < |s'| && s'[q] == x;
      if q == r {
        assert s[m + c] == x;
      } else if q == m + c {
        assert s[r] == x;
      } else {
        assert s[q] == x;
      }
    }
  }

  /* ---------- feasibility and the objective under a chosen pivot ---------- */

  /** Every basic row has a non-negative right-hand side. */
  predicate RhsNonNegative(t: Table)
    requires Shaped(t)
  {
    forall i :: 0 <= i < |t.basis| ==> t.cells[i][|t.free|] >= 0.0
  }

  /** No entry of column `col` lies strictly between zero and the pivot
      tolerance: the rows the ratio test skips have entries of at most zero. */
  predicate ToleranceGap(t: Table, col: nat)
    requires Shaped(t) && col < |t.free|
  {
    forall i :: 0 <= i < |t.basis| ==> t.cells[i][col] <= 0.0 || t.cells[i][col] > PivotTolerance
  }

  lemma DivideNonNegative(b: real, a: real)
    requires b >= 0.0 && a > 0.0
    ensures b / a >= 0.0
  {
  }

  /** A row with a non-positive column entry only gains right-hand side. */
  lemma RowNotEligible(bi: real, br: real, x: real, a: real)
    requires bi >= 0.0 && br >= 0.0 && x <= 0.0 && a > 0.0
    ensures bi - (br * x) / a >= 0.0
  {
    assert br * x <= 0.0;
  }

  /** A row whose ratio is at least the pivot row's keeps a non-negative
      right-hand side. */
  lemma RowEligible(bi: real, br: real, x: real, a: real)
    requires br >= 0.0 && x > 0.0 && a > 0.0 && br / a <= bi / x
    ensures bi - (br * x) / a >= 0.0
  {
    assert (br / a) * x <= (bi / x) * x;
    assert (br * x) / a == (br / a) * x;
  }

  /** The pivot the ratio test chooses keeps every right-hand side
      non-negative, provided no entry of the entering column lies in the
      band `(0, PivotTolerance]` that the test ignores. */
  lemma {:induction false} PivotKeepsFeasible(t: Table)
    requires Shaped(t) && RhsNonNegative(t)
    requires FindPivot(t).Success? && FindPivot(t).value.PivotAt?
    requires ToleranceGap(t, FindPivot(t).value.col)
    ensures var ch := FindPivot(t).value;
      ch.row < |t.basis| && ch.col < |t.free| && t.cells[ch.row][ch.col] > PivotTolerance
      && RhsNonNegative(Pivot(t, ch.row, ch.col))
  {
    var ch := FindPivot(t).value;
    MinimumRatioKeepsFeasible(t, ch.row, ch.col);
  }

  /** The same, for any eligible row of smallest ratio in column `c`. */
  lemma {:induction false} MinimumRatioKeepsFeasible(t: Table, r: nat, c: nat)
    requires Shaped(t) && RhsNonNegative(t) && r < |t.basis| && c < |t.free|
    requires Eligible(t, r, c) && ToleranceGap(t, c)
    requires forall i :: 0 <= i < |t.basis| && Eligible(t, i, c) ==> Ratio(t, r, c) <= Ratio(t, i, c)
    ensures RhsNonNegative(Pivot(t, r, c))
  {
    var k := |t.free|;
    var a := t.cells[r][c];
    var t' := Pivot(t, r, c);
    forall i | 0 <= i < |t.basis|
      ensures t'.cells[i][k] >= 0.0
    {
      if i == r {
        DivideNonNegative(t.cells[r][k], a);
      } else if t.cells[i][c] <= 0.0 {
        RowNotEligible(t.cells[i][k], t.cells[r][k], t.cells[i][c], a);
      } else {
        assert Eligible(t, i, c);
        RowEligible(t.cells[i][k], t.cells[r][k], t.cells[i][c], a);
      }
    }
  }

  /** A concrete table where an entering-column entry inside the ignored
      band `(0, PivotTolerance]` makes a right-hand side negative. */
  lemma ToleranceBandBreaksFeasibility()
    ensures var t := Table(NewCanonicalProblem(), [0, 1], [2], [[1.0, 1.0], [0.00000000001, 0.0], [-1.0, 0.0]]);
      && Shaped(t) && RhsNonNegative(t)
      && FindPivot(t) == Success(PivotAt(0, 0))
      && !RhsNonNegative(Pivot(t, 0, 0))
  {
    var t := Table(NewCanonicalProblem(), [0, 1], [2], [[1.0, 1.0], [0.00000000001, 0.0], [-1.0, 0.0]]);
    assert t.cells[2][0] < -PivotTolerance;
    assert !EstimatesNonNegative(t);
    assert EnteringColumn(t) == 0;
    assert Eligible(t, 0, 0) && !Eligible(t, 1, 0);
    assert Pivot(t, 0, 0).cells[1][1] == -0.00000000001;
  }

  lemma ObjectiveStep(corner: real, br: real, d: real, a: real)
    requires br >= 0.0 && d < 0.0 && a > 0.0
    ensures corner - (br * d) / a >= corner
  {
    assert br * d <= 0.0;
  }

  /** The pivot the ratio test chooses never raises the objective value
      (minus the estimates row's right-hand-side cell) while the right-hand
      side is non-negative. */
  lemma {:induction false} PivotObjectiveMonotone(t: Table)
    requires Shaped(t) && RhsNonNegative(t)
    requires FindPivot(t).Success? && FindPivot(t).value.PivotAt?
    ensures var ch := FindPivot(t).value;
      ch.row < |t.basis| && ch.col < |t.free| && t.cells[ch.row][ch.col] > PivotTolerance
      && -Pivot(t, ch.row, ch.col).cells[|t.basis|][|t.free|] <= -t.cells[|t.basis|][|t.free|]
  {
    var ch := FindPivot(t).value;
    var r, c, m, k := ch.row, ch.col, |t.basis|, |t.free|;
    assert r < m && c < k && t.cells[r][c] > PivotTolerance;
    assert t.cells[r][k] >= 0.0 && t.cells[m][c] < 0.0;
    PivotCornerRises(t, r, c);
  }

  lemma PivotCornerRises(t: Table, r: nat, c: nat)
    requires Shaped(t) && r < |t.basis| && c < |t.free| && t.cells[r][c] > 0.0
    requires t.cells[r][|t.free|] >= 0.0 && t.cells[|t.basis|][c] < 0.0
    ensures Pivot(t, r, c).cells[|t.basis|][|t.free|] >= t.cells[|t.basis|][|t.free|]
  {
    var m, k := |t.basis|, |t.free|;
    PivotCellOther(t, r, c, m, k);
    ObjectiveStep(t.cells[m][k], t.cells[r][k], t.cells[m][c], t.cells[r][c]);
  }

  /* ---------- the estimates row stays in step with the basis ---------- */

  lemma MulDiv(p: real, x: real, a: real)
    requires a != 0.0
    ensures (p * x) / a == (p / a) * x
  {
  }

  lemma NegDiv(x: real, a: real)
    requires a != 0.0
    ensures -x / a == (-1.0 / a) * x
  {
  }

  /** Basic costs weighted by a non-pivot column after the exchange: row `r`
      now holds the entering cost `cf`, and the column lost `k` times the
      pivot column (`k` being the pivot-row entry over the pivot), except in
      row `r` itself where it holds `k`. */
  lemma {:induction false} ExchangeColumn(cb: seq<real>, colJ: seq<real>, colC: seq<real>, r: nat, cf: real, k: real)
    requires |cb| == |colJ| == |colC| && r < |cb| && Combine(colJ, colC, k)[r] == 0.0
    ensures Dot(cb[r := cf], Combine(colJ, colC, k)[r := k]) == Dot(cb, colJ) - k * Dot(cb, colC) + cf * k
  {
    DotUpdate(cb, Combine(colJ, colC, k), r, cf, k);
    DotCombine(cb, colJ, colC, k);
  }

  /** Basic costs weighted by the pivot column after the exchange. */
  lemma {:induction false} ExchangePivotColumn(cb: seq<real>, colC: seq<real>, r: nat, cf: real, a: real)
    requires |cb| == |colC| && r < |cb| && a != 0.0 && colC[r] == a
    ensures Dot(cb[r := cf], Scale(-1.0 / a, colC)[r := 1.0 / a]) == (-1.0 / a) * Dot(cb, colC) + cb[r] + cf * (1.0 / a)
  {
    var d := Scale(-1.0 / a, colC);
    assert cb[r] * d[r] == -cb[r] by {
      assert (-1.0 / a) * a == -1.0;
    }
    DotUpdate(cb, d, r, cf, 1.0 / a);
    DotScaleRight(-1.0 / a, cb, colC);
  }

  /** The estimate form of `ExchangeColumn`: the old estimate `e` less `k`
      times the pivot column's old estimate `ec` is the new estimate. */
  lemma {:induction false} ExchangeEstimate(cb: seq<real>, colJ: seq<real>, colC: seq<real>, r: nat, cf: real, k: real,
                                            h: real, e: real, ec: real)
    requires |cb| == |colJ| == |colC| && r < |cb| && Combine(colJ, colC, k)[r] == 0.0
    requires e == h - Dot(cb, colJ) && ec == cf - Dot(cb, colC)
    ensures e - k * ec == h - Dot(cb[r := cf], Combine(colJ, colC, k)[r := k])
  {
    ExchangeColumn(cb, colJ, colC, r, cf, k);
    EstimateStep(e, ec, Dot(cb, colJ), Dot(cb, colC), cf, h, k);
  }

  lemma EstimateStep(e: real, ec: real, dj: real, dc: real, cf: real, h: real, k: real)
    requires e == h - dj && ec == cf - dc
    ensures e - k * ec == h - (dj - k * dc + cf * k)
  {
  }

  /** The estimate form of `ExchangePivotColumn`. */
  lemma {:induction false} ExchangeEnteringEstimate(cb: seq<real>, colC: seq<real>, r: nat, cf: real, a: real, ec: real)
    requires |cb| == |colC| && r < |cb| && a != 0.0 && colC[r] == a
    requires ec == cf - Dot(cb, colC)
    ensures (-1.0 / a) * ec == cb[r] - Dot(cb[r := cf], Scale(-1.0 / a, colC)[r := 1.0 / a])
  {
    ExchangePivotColumn(cb, colC, r, cf, a);
  }

  /** The costs of the basic rows after the exchange. */
  lemma {:induction false} CostsAfterPivot(t: Table, r: nat, c: nat)
    requires Shaped(t) && IndexedBy(t.basis, t.free, |t.problem.c|)
    requires r < |t.basis| && c < |t.free| && t.cells[r][c] != 0.0
    ensures IndexedBy(Pivot(t, r, c).basis, Pivot(t, r, c).free, |t.problem.c|)
    ensures CostsOf(t.problem.c, Pivot(t, r, c).basis)
            == CostsOf(t.problem.c, t.basis)[r := t.problem.c[t.free[c]]]
  {
    PivotKeepsPartition(t, r, c, |t.problem.c|);
  }

  /** A cell outside the pivot row and column after the exchange. */
  lemma {:induction false} PivotCellOther(t: Table, r: nat, c: nat, i: nat, j: nat)
    requires Shaped(t) && r < |t.basis| && c < |t.free| && t.cells[r][c] != 0.0
    requires i <= |t.basis| && i != r && j <= |t.free| && j != c
    ensures Pivot(t, r, c).cells[i][j] == t.cells[i][j] - (t.cells[r][j] * t.cells[i][c]) / t.cells[r][c]
  {
  }

  /** The objective-row cell of a non-pivot column after the exchange, with
      the multiplier `k` of the pivot column named. */
  lemma {:induction false} PivotObjectiveCell(t: Table, r: nat, c: nat, j: nat, k: real)
    requires Shaped(t) && r < |t.basis| && c < |t.free| && t.cells[r][c] != 0.0
    requires j <= |t.free| && j != c && k == t.cells[r][j] / t.cells[r][c]
    ensures Pivot(t, r, c).cells[|t.basis|][j] == t.cells[|t.basis|][j] - k * t.cells[|t.basis|][c]
  {
    PivotCellOther(t, r, c, |t.basis|, j);
    MulDiv(t.cells[r][j], t.cells[|t.basis|][c], t.cells[r][c]);
  }

  /** A pivot-row cell outside the pivot column after the exchange. */
  lemma {:induction false} PivotCellRow(t: Table, r: nat, c: nat, j: nat)
    requires Shaped(t) && r < |t.basis| && c < |t.free| && t.cells[r][c] != 0.0
    requires j <= |t.free| && j != c
    ensures Pivot(t, r, c).cells[r][j] == t.cells[r][j] / t.cells[r][c]
  {
  }

  /** A pivot-column cell outside the pivot row after the exchange. */
  lemma {:induction false} PivotCellColumn(t: Table, r: nat, c: nat, i: nat)
    requires Shaped(t) && r < |t.basis| && c < |t.free| && t.cells[r][c] != 0.0
    requires i <= |t.basis| && i != r
    ensures Pivot(t, r, c).cells[i][c] == -t.cells[i][c] / t.cells[r][c]
  {
  }

  /** Column `j` of the exchanged body is the old column less `k` times the
      pivot column, with `k` in the pivot row. */
  lemma {:induction false} PivotColumn(t: Table, r: nat, c: nat, j: nat)
    requires Shaped(t) && r < |t.basis| && c < |t.free| && t.cells[r][c] != 0.0
    requires j <= |t.free| && j != c
    ensures var m, k := |t.basis|, t.cells[r][j] / t.cells[r][c];
      var colJ, colC := BodyColumn(t.cells, m, j), BodyColumn(t.cells, m, c);
      && Combine(colJ, colC, k)[r] == 0.0
      && BodyColumn(Pivot(t, r, c).cells, m, j) == Combine(colJ, colC, k)[r := k]
  {
    var m, a, p := |t.basis|, t.cells[r][c], t.cells[r][j];
    var colJ, colC := BodyColumn(t.cells, m, j), BodyColumn(t.cells, m, c);
    var d := Combine(colJ, colC, p / a);
    PivotCellRow(t, r, c, j);
    forall i | 0 <= i < m && i != r
      ensures BodyColumn(Pivot(t, r, c).cells, m, j)[i] == d[i]
    {
      PivotCellOther(t, r, c, i, j);
      MulDiv(p, colC[i], a);
    }
    assert (p / a) * a == p;
  }

  /** The pivot column of the exchanged body is the old one scaled by
      `-1 / a`, with `1 / a` in the pivot row. */
  lemma {:induction false} PivotEnteringColumn(t: Table, r: nat, c: nat)
    requires Shaped(t) && r < |t.basis| && c < |t.free| && t.cells[r][c] != 0.0
    ensures var m, a := |t.basis|, t.cells[r][c];
      BodyColumn(Pivot(t, r, c).cells, m, c) == Scale(-1.0 / a, BodyColumn(t.cells, m, c))[r := 1.0 / a]
  {
    var m, a := |t.basis|, t.cells[r][c];
    var colC := BodyColumn(t.cells, m, c);
    forall i | 0 <= i < m && i != r
      ensures BodyColumn(Pivot(t, r, c).cells, m, c)[i] == Scale(-1.0 / a, colC)[i]
    {
      PivotCellColumn(t, r, c, i);
      NegDiv(colC[i], a);
    }
  }

  /** After the exchange, the estimate of a non-pivot column `j` is its old
      estimate less `p / a` times the pivot column's. */
  lemma {:induction false} PivotEstimateOther(t: Table, r: nat, c: nat, j: nat)
    requires Consistent(t) && r < |t.basis| && c < |t.free| && t.cells[r][c] != 0.0
    requires j <= |t.free| && j != c
    ensures IndexedBy(Pivot(t, r, c).basis, Pivot(t, r, c).free, |t.problem.c|)
    ensures Pivot(t, r, c).cells[|t.basis|][j]
            == Estimate(t.problem.c, Pivot(t, r, c).basis, Pivot(t, r, c).free, Pivot(t, r, c).cells, j)
  {
    var k := t.cells[r][j] / t.cells[r][c];
    CostsAfterPivot(t, r, c);
    PivotKeepsPartition(t, r, c, |t.problem.c|);
    PivotColumn(t, r, c, j);
    PivotObjectiveCell(t, r, c, j, k);
    ExchangedEstimate(t, Pivot(t, r, c), r, c, j, k);
  }

  /** `PivotEstimateOther` for any table `t'` that agrees with the exchange
      in its lists, in column `j` and in the objective cell of `j`. */
  lemma {:induction false} ExchangedEstimate(t: Table, t': Table, r: nat, c: nat, j: nat, k: real)
    requires Consistent(t) && r < |t.basis| && c < |t.free| && j <= |t.free| && j != c
    requires Shaped(t') && t'.basis == t.basis[r := t.free[c]] && t'.free == t.free[c := t.basis[r]]
    requires IndexedBy(t'.basis, t'.free, |t.problem.c|)
    requires CostsOf(t.problem.c, t'.basis) == CostsOf(t.problem.c, t.basis)[r := t.problem.c[t.free[c]]]
    requires var m := |t.basis|;
      var colJ, colC := BodyColumn(t.cells, m, j), BodyColumn(t.cells, m, c);
      && Combine(colJ, colC, k)[r] == 0.0
      && BodyColumn(t'.cells, m, j) == Combine(colJ, colC, k)[r := k]
      && t'.cells[m][j] == t.cells[m][j] - k * t.cells[m][c]
    ensures t'.cells[|t.basis|][j] == Estimate(t.problem.c, t'.basis, t'.free, t'.cells, j)
  {
    var m, C := |t.basis|, t.problem.c;
    var cb, cf := CostsOf(C, t.basis), C[t.free[c]];
    var colJ, colC := BodyColumn(t.cells, m, j), BodyColumn(t.cells, m, c);
    var hj := if j < |t.free| then C[t.free[j]] else 0.0;
    assert t.cells[m][j] == Estimate(C, t.basis, t.free, t.cells, j);
    assert t.cells[m][c] == Estimate(C, t.basis, t.free, t.cells, c);
    ExchangeEstimate(cb, colJ, colC, r, cf, k, hj, t.cells[m][j], t.cells[m][c]);
  }

  /** After the exchange, the estimate of the pivot column is minus its old
      estimate over the pivot. */
  lemma {:induction false} PivotEstimateEntering(t: Table, r: nat, c: nat)
    requires Consistent(t) && r < |t.basis| && c < |t.free| && t.cells[r][c] != 0.0
    ensures IndexedBy(Pivot(t, r, c).basis, Pivot(t, r, c).free, |t.problem.c|)
    ensures Pivot(t, r, c).cells[|t.basis|][c]
            == Estimate(t.problem.c, Pivot(t, r, c).basis, Pivot(t, r, c).free, Pivot(t, r, c).cells, c)
  {
    var m, C, a := |t.basis|, t.problem.c, t.cells[r][c];
    var cb, cf := CostsOf(C, t.basis), C[t.free[c]];
    CostsAfterPivot(t, r, c);
    PivotEnteringColumn(t, r, c);
    PivotCellColumn(t, r, c, m);
    NegDiv(t.cells[m][c], a);
    assert t.cells[m][c] == Estimate(C, t.basis, t.free, t.cells, c);
    ExchangeEnteringEstimate(cb, BodyColumn(t.cells, m, c), r, cf, a, t.cells[m][c]);
  }

  /** The exchange keeps the estimates row equal to the estimates recomputed
      from the objective and the new basis. */
  lemma {:induction false} PivotKeepsConsistent(t: Table, r: nat, c: nat)
    requires Consistent(t) && r < |t.basis| && c < |t.free| && t.cells[r][c] != 0.0
    ensures Consistent(Pivot(t, r, c))
  {
    var t' := Pivot(t, r, c);
    var m, C := |t.basis|, t.problem.c;
    CostsAfterPivot(t, r, c);
    forall j | 0 <= j <= |t.free|
      ensures t'.cells[m][j] == Estimate(C, t'.basis, t'.free, t'.cells, j)
    {
      if j == c {
        PivotEstimateEntering(t, r, c);
      } else {
        PivotEstimateOther(t, r, c, j);
      }
    }
  }
}
